=== FILE: README.md ===
# rivercast_15min — a Dafny model of the forecasting pipeline

rivercast_15min forecasts river discharge and water level at monitoring
stations on a 15-minute raster. Raw sensor readings are put onto the raster
per station and quality-controlled. Lagged and rolling features are derived
from them. Three quantile regressors (p10, p50, p90) are trained per horizon,
either globally or per station. The trained models are replayed over history
(the hindcast) and scored with rolling skill metrics, their fan charts are
rendered, and the newest forecasts are published.

This project models the logic of those stages as pure functions over
immutable tables, and proves what each stage promises:

- **Raster alignment and merging** (`load.dfy`, module `Load`): per-station `asfreq` onto
  a fixed step, `pd.concat`, the left merge of exogenous sources, and which
  sources are skipped.
- **Quality control** (`qc.dfy`, module `Qc`): negatives become missing, gaps are
  filled by linear interpolation at most `max_gap` cells deep, and rows
  without `q_cms` are dropped.
- **Feature building** (`features.dfy`, module `Features`): lags as positional shifts,
  trailing rolling sums and means with `min_periods=1`, and the calendar
  columns, all per station and with no look-ahead.
- **Training** (`training.dfy`, module `Training`): feature selection by exclusion, the
  label as a within-station shift by −H, the 120-row threshold, the split
  count, report keys, artifact directories and metadata, and both modes.
- **Hindcast** (`hindcast.dfy`, module `Hindcast`): the skip of scopes without a model
  directory, the alignment of `y_true`, the feature order, the record fields
  and the file names.
- **Rolling metrics** (`rolling.dfy` and `metrics.dfy`, modules `Rolling` and `Metrics`):
  the trailing-window loop, including `w == 0`; the guarded MAE, NSE, KGE and
  coverage; the unguarded scores of `utils/metrics.py`; and the horizon
  fallback.
- **Batch rendering** (`render.dfy`, module `Render`): file-stem parsing, which
  round-trips with the hindcast's writer, the filters, the PNG name and the
  title minutes.
- **Publishing** (`publish.dfy`, module `Publish`): the latest row per station, the
  messages and their order in both modes, and the MQTT topic.
- **Shared pieces**: `frame.dfy` (the table model and pandas selections),
  `strings.dfy` (Python `str`/`int`/`split`/`join`/`rstrip` and string
  order), `seqs.dfy` (stable sort, `unique`, flattening) and `wrappers.dfy`
  (`Option`, `Result`).

## How things are represented

- **Values and tables.** A value is `Option<real>`, where `None` is pandas'
  NaN. Exact reals stand in for float64. A row is keyed by its station id and
  its timestamp in integer minutes. A table is its column names plus its rows.
- **Models.** A fitted model is the record of what it was fitted on:
  quantile level, feature names and labelled rows. Prediction is a parameter
  `predict`, and sklearn's `TimeSeriesSplit` is a parameter `split`. The
  splitter's contract (positions in range, a non-empty test set) is a
  precondition.
- **Artifacts.** The artifact directory tree is a map from path components
  to a bundle of metadata and three models. A directory exists exactly when
  its key is in the map.
- **Errors.** Every fatal exit and every exception the source can raise on
  inputs of the modelled schema (the key columns `station_id` and `ts`
  present, hindcast files with their record fields) is the `Failure` of a
  `Result`; the exceptions outside it are listed under "Left out". This covers the unknown mode, a
  missing column (`KeyError`), no input files, a duplicate timestamp in
  `asfreq`, a failing `TimeSeriesSplit`, and the `IndexError` of
  `out[-1]` on an empty file.

## Where the code and its own docstrings and comments disagree (the model follows the code)

- **Rolling metrics.**
  - A metrics file has one row per hindcast row; rows before the first full
    window hold NaN. They are not omitted.
  - The first scored position is `w - 1`, not `w`.
  - Coverage is NaN only on an empty window. A window with constant
    observations still gets a coverage value.
  - KGE is also NaN on a window of at most one point, and on a constant
    forecast, because `np.corrcoef` is undefined there.
- **Global cross-validation** splits the whole table in `(station_id, ts)`
  order. It is not grouped by station.
- **Quantile order.** The three quantiles are never reordered. Crossing
  predictions pass through unchanged.

## Where the model departs from the code

- **Raster gaps.** As written, a gap row inserted by `asfreq` does not keep
  its station id (see Findings). `Load.AsFreqStationsAsWritten` and
  `Load.GapRowLosesStation` model that; `Load.AsFreq`, and with it
  everything from `Load.LoadRaw` on, models the corrected raster, whose gap
  rows keep their station.
- **Global publishing by index label.** As written, global mode predicts
  latest row k from `latest.loc[[idx]]`, which selects every latest row
  carrying k's index label, and takes the first prediction (see Findings).
  The labels are each row's position in its station's QC'd block
  (`Qc.KeptLabels`, `Qc.StationLabels`), so they repeat across stations
  (`Qc.SharedNewestLabel`). `Publish.GlobalBlockAsWritten` and
  `Publish.RepeatedLabelBorrows` model that. `Publish.PublishGlobal`, and with
  it `Publish.GlobalOrder`, `Publish.GlobalLatest`, `Publish.ModeMessages` and
  `Publish.Publish`, models the corrected lookup, in which each station's
  message is predicted from its own newest row. The two agree whenever the
  labels are distinct (`Publish.DistinctLabelsOwnRows`).

## Model

| member | source | states |
|---|---|---|
| Frame.Select | src/eval/hindcast.py:47 | `g[feats]` on one row: the values of the named columns in the order of the list, and a KeyError exactly when some name is not a column |
| Frame.StationRows | src/models/train_baseline.py:69 | `df[df.station_id == sid]`: only rows of that station, and every row of that station |
| Frame.Stations | src/features/build_features.py:31 | the group keys of `groupby('station_id')`: strictly ascending, and exactly the stations that occur |
| Frame.SortByKey | src/etl/load.py:18 | `sort_values(['station_id','ts'])`: ordered by (station, ts), and each station's rows are its original rows stably sorted by ts |
| Frame.StationRowsOfBlocks | src/features/build_features.py:31 | picking one station out of concatenated per-station blocks gives back exactly that station's block, or nothing for an absent station |
| Frame.FlattenOrdered | src/etl/load.py:22 | per-station blocks in ascending station order, each in ts order, concatenate to a table ordered by (station, ts) |
| Load.Concat | src/etl/load.py:16 | `pd.concat`: the columns are the distinct columns of the files in order of first appearance; one row per file row, file after file, row k of file f at offset (rows of files before f) + k, re-laid onto the union of columns |
| Load.AllColumns | src/etl/load.py:16 | the union of the files' columns: exactly the columns of some file, none twice, in order of first appearance |
| Load.RelaidRows | src/etl/load.py:16 | a file's rows re-laid onto the union of columns, row for row |
| Load.Reindex | src/etl/load.py:16 | a row re-laid onto the union of columns keeps its value under each of its own columns and gets NaN under the others |
| Load.Duplicate | src/etl/load.py:20 | finds a repeated timestamp exactly when two readings share one |
| Load.RasterLength | src/etl/load.py:20 | the number of raster points: the last one is not after the latest reading, and one more step would be |
| Load.AsFreq | src/etl/load.py:19-21 | `set_index('ts').asfreq(step)` for one station: a failure exactly on duplicate timestamps; otherwise the raster from the earliest reading, strictly increasing in ts, every row of that station, each carrying its reading's values or NaN |
| Load.RasterShape | src/etl/load.py:19-22 | the raster starts at the earliest reading, consecutive rows are exactly one step apart, and it never passes the latest reading |
| Load.RasterValues | src/etl/load.py:20 | every raster row carries the values of a reading at its timestamp, or only NaN when no reading is there: a gap is a row of NaN, not an omitted row |
| Load.RasterKeepsReadings | src/etl/load.py:20 | every reading whose timestamp lies on the raster appears unchanged in the raster |
| Load.AsFreqStationsAsWritten | src/etl/load.py:20-22 | the station column as the code computes it: missing on exactly the inserted gap rows |
| Load.GapRowLosesStation | src/etl/load.py:20-22 | readings at 0 and 30 on a 15-minute raster: as written, the gap row at 15 has no station; the corrected raster keeps three rows of the station |
| Load.RasterStationsBlock | src/etl/load.py:22 | on success, block k is the rastered series of station k |
| Load.RasterBlocks | src/etl/load.py:22 | on success, every block holds rows of its own station only, in strictly increasing time |
| Load.RasterStationsFails | src/etl/load.py:22 | the rastering fails exactly when some station has a duplicate timestamp |
| Load.LoadRaw | src/etl/load.py:11-23 | no input file is a failure (the exit of lines 41-42); otherwise the concatenated columns, rows ordered by (station, ts), each station's rows exactly its rastered readings, using the corrected raster of Findings (gap rows keep their station); it fails exactly when some station has a duplicate timestamp |
| Load.MatchesOf | src/etl/load.py:35 | the exogenous rows with the same (station, ts), and all of them |
| Load.MergeBlock | src/etl/load.py:35 | the rows one base row becomes: with no exogenous row of the same key, the base row once, padded with NaN; otherwise one row per match, in order, each the base values followed by that match's values |
| Load.LeftMerge | src/etl/load.py:35 | the base columns followed by the exogenous ones; every base row survives with its key and values, followed by NaN or by a matching exogenous row's values; every output row comes from a base row in that way |
| Load.LeftMergeUniqueKeys | src/etl/load.py:35 | with at most one exogenous row per key, the merge is row for row: same keys, base values first |
| Load.MergeExogenous | src/etl/load.py:25-36 | the base columns stay first, in order; every base row survives, its key and values a prefix of some output row, and every output row extends some base row |
| Load.MergeStep | src/etl/load.py:28-36 | one source: an inactive one leaves the table as it is, an active one widens it by one left merge |
| Load.WidensTransitive | src/etl/load.py:28-36 | survival of base rows composes over successive merges |
| Load.MergeSkipsInactive | src/etl/load.py:28-33 | disabled sources and sources whose file is missing play no part: merging all equals merging only the active ones |
| Load.NoActiveSourceKeepsTable | src/etl/load.py:28-33 | with every source disabled or missing on disk, the table is left exactly as it was |
| Qc.Clip | src/etl/qc.py:11-13 | no value is negative afterwards; a value changes exactly when it was negative, and then it becomes NaN |
| Qc.ClipIdempotent | src/etl/qc.py:13 | clipping twice is clipping once |
| Qc.InterpolationBetween | src/etl/qc.py:18 | a point strictly inside a linear gap lies between the two present values around it |
| Qc.FillAtSpec | src/etl/qc.py:18 | one cell of `interpolate(limit=max_gap)`: a present value is kept; a missing one is filled exactly when a present value precedes it at most `limit` cells back, and then lies within its gap |
| Qc.Fill | src/etl/qc.py:18 | the whole column: present values unchanged; a missing cell filled exactly when it is at most `limit` cells after a present value, and then within its gap |
| Qc.FillKeepsNonNegative | src/etl/qc.py:11-18 | filling a clipped column never creates a negative value |
| Qc.FillRunBounded | src/etl/qc.py:9-18 | within a run of originally missing cells, at most `limit` consecutive cells are filled |
| Qc.FillKeepsLeadingGap | src/etl/qc.py:18 | missing cells before the first present value stay missing |
| Qc.QcGroup | src/etl/qc.py:9-19 | `qc_group`: same rows and keys, columns other than q_cms, rain_mm and temp_c untouched, no negative value left in those three, their present non-negative values kept, and each of the three exactly its clipped column with gaps filled as `Qc.Fill` states |
| Qc.QcStations | src/etl/qc.py:23-24 | one QC block per station, each computed from that station's rows only |
| Qc.PresentIn | src/etl/qc.py:25 | `dropna(subset=[c])`: only rows with a present value, and all of them |
| Qc.QcTable | src/etl/qc.py:22-25 | a KeyError exactly when there is no `q_cms` column; otherwise the same columns, every row with a present `q_cms`, no negative QC value, and each station's rows exactly its QC'd rows (qc_group of its own rows) that have a present `q_cms` |
| Qc.StationRowsPresentIn | src/etl/qc.py:24-25 | `dropna` commutes with picking one station |
| Qc.KeptLabels | src/etl/qc.py:19-25 | the index labels of the rows `dropna` keeps: `reset_index()` numbers a station's QC'd rows from 0, and each kept row keeps its number; labels increase, and each points at a kept row; a kept newest row carries `|rows| - 1` |
| Qc.KeptLabelsAlign | src/etl/qc.py:19-25 | one label per kept row, each naming that row's position in the QC'd block |
| Qc.StationLabels | src/etl/qc.py:19-25 | a station's labels line up with its kept rows, are below its row count, and its newest kept row carries `count - 1` |
| Qc.SharedNewestLabel | src/etl/qc.py:19-25 | labels are numbered per station: two stations with equally many rows, each keeping its newest row, carry the same label on it |
| Features.LagAt | src/features/build_features.py:16-19 | `shift(L)` at position i is the value at i − L, and NaN for i < L |
| Features.WindowStart | src/features/build_features.py:21-24 | the trailing window ending at i holds at most R positions, and exactly R once i ≥ R − 1 |
| Features.RollIndex | src/features/build_features.py:21-24 | `rolling(R, min_periods=1)` at i aggregates the present values of positions max(0, i−R+1)..i: their sum or mean |
| Features.RollMissing | src/features/build_features.py:21-24 | a rolled value is missing exactly when every value in its window is missing |
| Features.PresentSources | src/features/build_features.py:16-24 | the sources that get lags and rolls are configured sources whose column exists |
| Features.PresentSourcesComplete | src/features/build_features.py:16-24 | every configured source whose column exists is among them |
| Features.LagBlock | src/features/build_features.py:15-19 | one pass of the lag loop: `{prefix}_lag{L}` of every present source, in source order |
| Features.RollBlock | src/features/build_features.py:20-24 | one pass of the roll loop: `{prefix}_roll{R}` of every present source, by mean for the target and sm_pct and by sum for rain and icon_rr |
| Features.SpecsWellFormed | src/features/build_features.py:16-24 | every derived column reads an existing column, so an absent exogenous column yields no derived column |
| Features.SpecsFollowSources | src/features/build_features.py:15-24 | a source whose column exists gets every configured lag and roll under its prefixed name |
| Features.ApplyLooksBack | src/features/build_features.py:15-24 | a lag or roll at i depends only on the column up to i |
| Features.SetColumn | src/features/build_features.py:16 | `g[name] = col`: overwrites an existing column in place or appends a new one, and leaves every other cell alone |
| Features.AddDerived | src/features/build_features.py:15-24 | adding the derived columns keeps the rows and their keys, and the columns are the old ones with the new names assigned in order |
| Features.SortRows | src/features/build_features.py:13 | `sort_values('ts')`: the stable ts sort of the rows, in ts order |
| Features.AddCalendar | src/features/build_features.py:25-26 | adds `doy` then `hod` and keeps the rows and their keys |
| Features.Derivation | src/features/build_features.py:13-24 | the sorted rows with the lag and roll columns assigned, keys those of the sorted rows |
| Features.MakeFeatures | src/features/build_features.py:12-27 | `make_features`: same number of rows, columns the input ones followed by the derived and calendar names |
| Features.MakeFeaturesRows | src/features/build_features.py:13 | the feature rows are the input rows in ts order: same stations and timestamps |
| Features.FeaturesLookBack | src/features/build_features.py:13-26 | no look-ahead: two histories that agree up to row i (in ts order) give the same feature row at i |
| Features.FeaturesIgnoreLaterRows | src/features/build_features.py:13-26 | appending later rows to a ts-ordered series leaves every earlier feature row unchanged |
| Features.ColsAfterFresh | src/features/build_features.py:16-26 | assigning new, distinct names appends them in order |
| Features.AddDerivedKeeps | src/features/build_features.py:15-24 | adding new derived columns leaves every existing cell unchanged |
| Features.AddDerivedValue | src/features/build_features.py:15-24 | with new names, the k-th derived column lands right after the existing columns plus k, computed from the input table |
| Features.CalendarCols | src/features/build_features.py:25-26 | `doy` and `hod`, when new, become the last two columns |
| Features.CalendarKeeps | src/features/build_features.py:25-26 | adding the calendar columns leaves every existing cell unchanged |
| Features.CalendarValues | src/features/build_features.py:25-26 | the two new columns hold day-of-year and hour-of-day of the row's timestamp |
| Features.FreshLayout | src/features/build_features.py:12-27 | with new names, the features are the input columns, then one column per lag and roll in loop order, then `doy` and `hod` |
| Features.FeatureKeeps | src/features/build_features.py:13 | the original columns keep their values, in ts order |
| Features.FeatureCalendar | src/features/build_features.py:25-26 | the last two feature columns hold the calendar of the sorted row's timestamp |
| Features.FeatureValue | src/features/build_features.py:15-24 | the k-th derived feature holds its lag or roll applied to the sorted source column |
| Features.FeatureColumnAt | src/features/build_features.py:15-24 | the column named after the k-th derived spec is found at its position and holds that spec's values |
| Features.FeatureLagAt | src/features/build_features.py:15-19 | a lag feature at row i holds the sorted source L rows earlier, NaN on the first L rows |
| Features.LagColumn | src/features/build_features.py:15-19 | the cell of `{prefix}_lag{L}` at row i is the source column's cell at row i − L, and NaN for i < L |
| Features.StationFeatures | src/features/build_features.py:31 | the feature rows of one station are computed from that station's rows only, all of that station, in ts order |
| Features.FeatureBlocks | src/features/build_features.py:31 | one block per station, stations ascending, each block that station's own features |
| Features.FeaturesByStation | src/features/build_features.py:31 | `groupby('station_id').apply(make_features)`: ordered by (station, ts), and each station's rows exactly `make_features` of its own rows |
| Training.FeaturesFrom | src/models/train_baseline.py:31-33 | a column is a feature exactly when it is a column and not one of ts, station_id, q_cms, h_cm, y |
| Training.FeaturesFromAppend | src/models/train_baseline.py:33 | the filter commutes with concatenation, so column order is kept |
| Training.FeaturesFromKeepsAll | src/models/train_baseline.py:33 | with nothing to exclude the feature list is the column list itself |
| Training.ParseMode | src/models/train_baseline.py:93-94 | a mode other than `global` and `per_station` is rejected |
| Training.ModeRoundTrip | src/models/train_baseline.py:91 | the mode name written into the metadata reads back as the same mode |
| Training.SplitCount | src/models/train_baseline.py:74 | three splits exactly in per-station mode below 500 rows, otherwise five (global mode always five, line 46) |
| Training.SplitCountMonotone | src/models/train_baseline.py:74 | more labelled rows never mean fewer splits |
| Training.LeadLag | src/models/train_baseline.py:70 | `shift(-H)` followed by `shift(H)` gives back the value wherever both stay in range |
| Training.SomePositions | src/models/train_baseline.py:71 | the rows `dropna(subset=['y'])` keeps: holding a label, in increasing order, all of them |
| Training.DropUnlabelled | src/models/train_baseline.py:71 | one sample per kept row |
| Training.StationLabelsAt | src/models/train_baseline.py:70 | the per-station label at i is the target at i + H, NaN within H of the end |
| Training.StationSamplesLabel | src/models/train_baseline.py:69-71 | every per-station sample is a row of the station labelled with the target H rows later, in increasing order, and no row with a future target is dropped |
| Training.GroupLeadSameStation | src/models/train_baseline.py:43 | the global `groupby(...).shift(-H)` never crosses stations: a label is a target of the same station |
| Training.GroupLeadOneStation | src/models/train_baseline.py:43 | on a single station's rows the grouped shift is the per-station shift, so both modes label alike |
| Training.InputsOfOwnFeatures | src/models/train_baseline.py:45 | selecting the `features_from` columns of a row never fails |
| Training.ScoreFold | src/models/train_baseline.py:48-51 | one scored point per test position of the fold, whose truth is that position's label |
| Training.ScoreFolds | src/models/train_baseline.py:47-52 | the concatenated scored points are non-empty when the first fold tests something |
| Training.ScoreGuarded | src/models/train_baseline.py:53-58 | the cross-validation MAE and NSE are the rolling scores on the same arrays; MAE and MSE are non-negative and NSE is at most one; the KGE is non-finite exactly on at most one point, constant truths, constant predictions or a zero mean truth, and otherwise the KGE formula |
| Training.ReportKeyParts | src/models/train_baseline.py:86 | `{sid}_{H}` splits on `_` into the station's parts followed by the horizon |
| Training.ReportKeyInjective | src/models/train_baseline.py:86 | distinct per-station scopes get distinct report keys, even when station ids contain `_` |
| Training.ArtifactDirInjective | src/models/train_baseline.py:87 | distinct scopes of either mode get distinct artifact directories |
| Training.TrainScope | src/models/train_baseline.py:73-92 | one scope: fails exactly when the splitter fails; otherwise key, directory, split count, cross-validation size, metadata (features in `features_from` order, target, raster, horizon, mode, station) and the three models fitted at 0.1/0.5/0.9 on all labelled rows; its report scores are those of its scored cross-validation points |
| Training.TrainGlobal | src/models/train_baseline.py:40-64 | global mode: a missing target aborts on the first horizon; otherwise it fails exactly when the splitter rejects some horizon's rows, reporting the first such horizon, and else gives one entry per horizon, in order, each trained on all stations' labelled rows at that horizon |
| Training.TrainStation | src/models/train_baseline.py:69-92 | one station at one horizon: below 120 labelled rows it is skipped, which is not an error; it fails exactly when it has enough rows and the splitter rejects them, naming the scope; otherwise one entry for that scope |
| Training.StationScopesIff | src/models/train_baseline.py:68-72 | a station is trained at a horizon exactly when it is listed and has at least 120 labelled rows there |
| Training.PerStationScopesIff | src/models/train_baseline.py:67-72 | the per-station run trains exactly the listed (station, horizon) pairs with at least 120 labelled rows |
| Training.TrainStations | src/models/train_baseline.py:68-92 | at one horizon: a missing target aborts when there is a station; otherwise it fails exactly when some listed station's scope fails, and else the entries are exactly the trained scopes in station order, each trained as promised |
| Training.TrainPerStation | src/models/train_baseline.py:65-92 | per-station mode: a missing target aborts when there is a scope; otherwise it fails exactly when some (horizon, station) scope fails, and else horizons outermost, stations innermost, exactly the scopes with enough rows |
| Training.SortedInput | src/models/train_baseline.py:36 | the table ordered by (station, ts), each station's rows stably sorted by ts |
| Training.StationOrder | src/models/train_baseline.py:66 | `unique()` of the station column: exactly the stations that occur, none twice, in order of first appearance |
| Training.StationOrderSorted | src/models/train_baseline.py:36-66 | on the table sorted by (station, ts), order of first appearance is ascending station order: the stations trained are the groupby keys |
| Training.Train | src/models/train_baseline.py:35-94 | an unknown mode fails before anything is trained; a missing target fails when there is a scope; otherwise the run fails exactly when the splitter rejects a scope that is trained, and else global mode gives one entry per horizon and per-station mode exactly the scopes with enough rows, stations ascending, on the sorted table |
| Training.Artifacts | src/models/train_baseline.py:87-92 | the directories left behind are exactly those of the trained entries |
| Training.ArtifactsLastWrite | src/models/train_baseline.py:87-92 | each directory holds the metadata and models of the last entry written to it |
| Training.Put | src/models/train_baseline.py:58 | `report[key] = v` on an insertion-ordered dict: a present key keeps its place, a new one goes last; that key now holds v, every other pair is unchanged, and keys stay distinct |
| Training.Report | src/models/train_baseline.py:58-96 | `report.json`'s keys are the entries' keys without repeats, in order of first appearance (a repeated horizon keeps its first place) |
| Training.ReportLastWrite | src/models/train_baseline.py:58-86 | a key holds the scores (MAE, MSE, NSE and KGE) of the last entry that wrote it |
| Hindcast.FirstMissing | src/eval/hindcast.py:47 | the KeyError of `g[feats]`: some listed feature is not a column exactly when one is reported, and the reported one is such a feature |
| Hindcast.StationHindcast | src/eval/hindcast.py:34-63 | one station at one horizon fails exactly when a metadata feature or the target is not a column |
| Hindcast.HindcastMatchesTraining | src/eval/hindcast.py:47-63 | the hindcast rows are the per-station training rows: same rows, same order, `y_true` equal to the training label; each names the station, H and 15·H minutes; p10/p50/p90 are the three models on the metadata's features in stored order, unordered among themselves |
| Hindcast.HindcastOrdered | src/eval/hindcast.py:54-63 | a station in strictly increasing time gets a hindcast in strictly increasing time |
| Hindcast.HorizonScopesIff | src/eval/hindcast.py:35-39 | a horizon of a station is hindcast exactly when it was asked for and its model directory exists |
| Hindcast.HindcastScopesIff | src/eval/hindcast.py:33-39 | a (station, horizon) pair is hindcast exactly when both were asked for and its model directory exists |
| Hindcast.HindcastScopesStored | src/eval/hindcast.py:36-39 | every pair hindcast has a model directory |
| Hindcast.HindcastAll | src/eval/hindcast.py:33-67 | fails exactly when some pair's model lists a feature that is not a column or there is no target column; otherwise one file per pair in order, named `hindcast_{sid}_{H}`, holding that pair's hindcast |
| Hindcast.RunHindcast | src/eval/hindcast.py:28-69 | `run_hindcast`: fails exactly when a stored pair's model lists a missing feature or the target is missing; otherwise one file per stored pair, stations ascending (their order of appearance in the sorted table) outermost, each named after its pair and holding that pair's hindcast on the sorted table |
| Rolling.ScoreSlice | src/eval/rolling_metrics.py:84-88 | the scores of one slice: MAE and coverage missing exactly on an empty slice, MAE non-negative, NSE at most one, coverage within [0, 1] |
| Rolling.ScoresAt | src/eval/rolling_metrics.py:76-88 | the scores at position k are present exactly when a full window of w > 0 points ends there |
| Rolling.EmptySlice | src/eval/rolling_metrics.py:20-36 | every score of an empty slice is NaN |
| Rolling.RollingMetrics | src/eval/rolling_metrics.py:76-88 | the loop `for i in range(w, n+1)`: an IndexError exactly when the file is empty and w is 0; otherwise one entry per row, each the scores of the trailing window ending there |
| Rolling.LookBackOnly | src/eval/rolling_metrics.py:83-88 | the scores at a position depend only on the w points ending there |
| Rolling.ShortSeriesUnscored | src/eval/rolling_metrics.py:78-83 | a file shorter than the window gets no scores at all |
| Rolling.FullCoverage | src/eval/rolling_metrics.py:35-36 | a window whose observations all lie in their bands has coverage one |
| Rolling.HorizonOf | src/eval/rolling_metrics.py:68 | the file's `horizon_steps` when present, otherwise the floor of `horizon_minutes / 15` |
| Rolling.HorizonFallbackAgrees | src/eval/rolling_metrics.py:68 | on a hindcast record both ways give the same horizon |
| Rolling.SeriesOf | src/eval/rolling_metrics.py:70-73 | the four columns read from a file are aligned and as long as the file |
| Rolling.FileMetrics | src/eval/rolling_metrics.py:66-101 | an empty file fails (the `iloc[0]`); otherwise one row per record in ts order, each with the first sorted row's station, one horizon (its `horizon_steps`, or without that column its minutes floor-divided by 15), the window, and the rolling scores of the sorted series; written to `metrics_{sid}_{H}_w{w}` |
| Rolling.RunMetrics | src/eval/rolling_metrics.py:61-65 | fails exactly when there is no hindcast file or some file is empty; otherwise one metrics file per hindcast file, each that file's metrics |
| Rolling.MetricsEach | src/eval/rolling_metrics.py:65-99 | the files in turn: fails exactly when some file is empty |
| Metrics.Mae | src/utils/metrics.py:7-9 | `mae(obs, sim)` is non-negative |
| Metrics.MaeSymmetric | src/utils/metrics.py:7-9 | `mae` is symmetric |
| Metrics.MaeZeroIff | src/utils/metrics.py:7-9 | `mae` is zero exactly when the forecast is the observation |
| Metrics.Mse | src/utils/metrics.py:3-5 | the square of `rmse` is non-negative |
| Metrics.MseZeroIff | src/utils/metrics.py:3-5 | the square of `rmse` is zero exactly when the forecast is the observation |
| Metrics.Nse | src/utils/metrics.py:11-13 | `nse(obs, sim)` on non-constant observations is at most one |
| Metrics.NseOneIff | src/utils/metrics.py:11-13 | `nse` is one exactly when the forecast is the observation |
| Metrics.SpreadIff | src/eval/rolling_metrics.py:23-24 | the NSE denominator is positive exactly when the observations are not all equal |
| Metrics.WindowMae | src/eval/rolling_metrics.py:20 | NaN exactly on an empty window, otherwise non-negative |
| Metrics.WindowNse | src/eval/rolling_metrics.py:21-25 | NaN exactly on an empty window or constant observations, otherwise at most one |
| Metrics.WindowKge | src/eval/rolling_metrics.py:26-33 | NaN exactly on at most one point, constant observations, a constant forecast or a zero observed mean; otherwise the KGE formula |
| Metrics.WindowScoresAgree | src/utils/metrics.py:7-13 | where the rolling guards do not fire, the rolling MAE and NSE equal the unguarded ones |
| Metrics.CoveredCountBounds | src/eval/rolling_metrics.py:36 | the covered count is the window length exactly when every point is covered, zero exactly when none is |
| Metrics.WindowCoverage | src/eval/rolling_metrics.py:35-36 | NaN exactly on an empty window, otherwise within [0, 1] |
| Metrics.CoverageExtremes | src/eval/rolling_metrics.py:35-36 | coverage is one exactly when p10 ≤ y ≤ p90 at every point and zero exactly when at none (a crossed band covers nothing) |
| Render.ParseStem | src/plots/batch_render.py:58-64 | a stem parses exactly when its last `_`-part is an integer, and the horizon is that integer |
| Render.StemRoundTrip | src/plots/batch_render.py:59-62 | the stem `hindcast_{sid}_{H}` the hindcast writes parses back to (sid, H), even when sid contains `_` |
| Render.NonNumericStemSkipped | src/plots/batch_render.py:62-64 | a stem whose last part holds no digit is skipped |
| Render.Charts | src/plots/batch_render.py:56-73 | every chart comes from one of the files, parses to its own station and horizon, passes both filters and is named `fanchart_{station}_{H}.png` |
| Render.ChartsComplete | src/plots/batch_render.py:56-69 | a file gets a chart exactly when it parses and passes the station and horizon filters (an empty filter passes everything) |
| Render.RenderPlan | src/plots/batch_render.py:52-54 | no hindcast file at all is fatal |
| Render.TitleMinutes | src/plots/batch_render.py:32 | `horizon_minutes` when present, else 15 × `horizon_steps` |
| Render.TitleAgrees | src/plots/batch_render.py:32 | on a hindcast record both ways title the chart alike |
| Render.HindcastFilesCharted | src/plots/batch_render.py:72 | without filters, a hindcast file gets the chart named after its own station and horizon |
| Publish.LatestRow | src/serve/publish.py:11-12 | the newest row of a station belongs to that station |
| Publish.LatestIsGreatest | src/serve/publish.py:11-12 | it is one of the station's rows, and no row of that station is later |
| Publish.Latest | src/serve/publish.py:12 | `groupby(...).tail(1)`: one row per station, stations ascending, each the last of its station's rows in (station, ts) order: a row of the table with no later row of its station |
| Publish.LatestOnePerStation | src/serve/publish.py:12 | the latest rows cover exactly the stations of the table, no station twice |
| Publish.MessageFor | src/serve/publish.py:27-33 | a message carries the row's ts and station, the configured target, H and 15·H minutes, and the three models' predictions on the metadata's features in stored order |
| Publish.PublishGlobal | src/serve/publish.py:20-34 | global mode, with the corrected lookup of Findings: succeeds exactly when every horizon has its directory (and its features when there is a row); then |horizons| × |latest| messages |
| Publish.GlobalOrder | src/serve/publish.py:21-34 | horizon-major order: message i·|latest| + k is the one for horizon i and latest row k, predicted from that row (the corrected lookup of Findings) |
| Publish.FirstWithLabel | src/serve/publish.py:28-32 | the row `latest.loc[[idx]]` then `predict(x)[0]` uses: the first latest row with the same index label |
| Publish.GlobalBlockAsWritten | src/serve/publish.py:27-34 | one global horizon as written: message k names row k's station and time but carries the predictions on the features of the first latest row with k's label |
| Publish.DistinctLabelsOwnRows | src/serve/publish.py:27-34 | with distinct labels the code as written and the corrected block agree |
| Publish.RepeatedLabelBorrows | src/serve/publish.py:27-34 | two stations whose newest rows share a label: the second station's message carries the first station's prediction |
| Publish.StationMessages | src/serve/publish.py:37-50 | a station's messages: fails exactly when some requested horizon's directory exists and lists a missing feature (a missing directory is skipped, never an error); otherwise one message per requested horizon with a directory, in order, each predicted by that directory's models |
| Publish.FirstBlocked | src/serve/publish.py:37-50 | the feature the loop fails on: reported exactly when some requested horizon's directory exists and lists a missing feature |
| Publish.HorizonMessages | src/serve/publish.py:37-50 | with no blocked horizon: one message per horizon with a directory, in order, each predicted by that directory's models |
| Publish.StationMessagesMatch | src/serve/publish.py:37-50 | each of those messages names the station and its pair's horizon |
| Publish.PublishPerStation | src/serve/publish.py:35-50 | per-station mode: fails exactly when some station's messages fail; otherwise station-major, skipping pairs without a directory — the same pairs in the same order as the hindcast — each message that of its station's latest row |
| Publish.ScopeRowsAt | src/serve/publish.py:35-50 | the row behind each published pair is a latest row of the pair's station |
| Publish.PerStationLatest | src/serve/publish.py:11-50 | on the table's latest rows, message j is the message of the newest row of pair j's station at pair j's horizon |
| Publish.PerStationLatestFails | src/serve/publish.py:11-50 | on the table's latest rows, per-station mode fails exactly when some station of the table is blocked |
| Publish.GlobalLatest | src/serve/publish.py:11-34 | on the table's latest rows, global message i·|stations| + k is the message of station k's newest row under horizon i's model (the corrected lookup of Findings) |
| Publish.TopicIgnoresTrailingSlash | src/serve/publish.py:61 | a trailing `/` on the base topic makes no difference |
| Publish.TopicLevels | src/serve/publish.py:61-63 | a topic splits into the base topic's levels, then station, `forecast`, `{minutes}min` and the target |
| Publish.Topics | src/serve/publish.py:57-65 | MQTT disabled: nothing is published; enabled: one topic per written message, in message order, each that message's topic under the base |
| Publish.Publish | src/serve/publish.py:20-65 | an unknown mode fails before anything is written; global mode succeeds exactly when every horizon is ready and emits, horizon-major, the message of every station's newest row (the corrected lookup of Findings); per-station mode fails exactly when some station has a stored model listing a missing feature and otherwise emits the hindcast's pairs, each the message of its station's newest row; with MQTT on, one topic per message, else none |
| Publish.ModeMessages | src/serve/publish.py:20-50 | the messages of the mode on the latest rows: the same failure conditions, order and contents as stated for the publication, global mode with the corrected lookup of Findings |
| Strings.NatToString | src/eval/hindcast.py:65 | `str(H)`: non-empty decimal digits without a leading zero |
| Strings.Split | src/plots/batch_render.py:60 | `split('_')`: at least one part, none containing the separator |
| Strings.JoinSplit | src/plots/batch_render.py:60-61 | joining the parts of a split gives back the string |
| Strings.ParseIntRoundTrip | src/plots/batch_render.py:62 | `int(str(i)) == i` for every integer |
| Strings.ParseIntRejects | src/plots/batch_render.py:62 | a string with no digit is a ValueError |
| Strings.RStrip | src/serve/publish.py:61 | `rstrip('/')`: a prefix of the input with no trailing `/`, having removed only `/` |
| Strings.SortDistinct | src/features/build_features.py:31 | the distinct station ids, strictly ascending, as `groupby` orders its keys |
| Seqs.Unique | src/models/train_baseline.py:66 | `unique()`: the same elements, none twice, in order of first appearance |
| Strings.StrictlySortedEqual | src/features/build_features.py:31 | two strictly ascending lists of the same strings are equal |
| Seqs.SortBy | src/features/build_features.py:13 | the sort is ordered by the key and a permutation of its input |
| Seqs.SortByIdentity | src/features/build_features.py:13 | sorting rows already in order changes nothing |

## Left out

- **I/O.** Reading and writing CSV, parquet, JSON and YAML, directory
  creation and joblib persistence are not modelled. The artifact tree is a
  map, a raw file is a table, and the list of files found is a parameter.
  Glob order is the order of that list.
- **Partial output.** The partial output a run leaves behind before a fatal
  error (scopes trained or files written before it) is not modelled. A
  failure result carries only the error.
- **LightGBM and scikit-learn.** Fitting and prediction are a symbolic
  fitted-on record and the `predict` parameter. `TimeSeriesSplit` is the
  `split` parameter; its fold layout is not derived.
- **Calendar.** `doy` and `hod` are functions passed as parameters, because
  datetime semantics are not modelled.
- **Timestamp format.** `str(ts)` in the messages is not modelled; a message
  carries the integer timestamp.
- Metrics.WindowKge: the formula `1 - sqrt(...)` and `np.corrcoef` are a parameter, and only the guards in front of them are modelled.
- Training.ScoreGuarded: the training KGE (`src/utils/metrics.py:15-20`) uses the same formula parameter; where numpy makes it NaN or infinite the model has `None` and does not tell NaN from infinity.
- Metrics.Mse: RMSE is carried as its square, because the square root is not modelled.
- **Float edge cases.** Float rounding and NaN/inf propagation inside the
  unguarded scores are not modelled. Non-empty, non-constant observations are
  a precondition of `Metrics.Nse`, and the model relies on this where the
  source would produce inf or NaN.
- Rolling.RollingMetrics: the window is a natural number; a negative `--window` (a Python slice with negative bounds) is not modelled.
- Training.Train: horizons are natural numbers; a negative horizon is not modelled.
- **Integer parsing.** `int()` of a stem part is modelled for ASCII white
  space, sign and digits only. Unicode digits and `_` separators cannot
  occur in a part split on `_`.
- **Column quirks.**
  - Duplicate column names are not modelled.
  - Neither are derived names that collide with existing columns.
  - Neither are pandas' `_x`/`_y` suffixes when a merged source repeats a
    column. The merge appends the source's columns as they are.
- **Ties.** The relative order of rows with equal (station, ts) keys in the
  sorts is the input order; pandas' default quicksort does not promise it.
- **Plotting.** `plot_fan`, `plot_metric` and `src/plots/plot_fanchart.py`
  (matplotlib drawing) are left out. So are the optional per-metric plot
  files of `rolling_metrics.py`.
- **Output formats.** The CSV copy of the metrics file is the same table as
  the parquet one and is not modelled separately.
- **MQTT and the CLI.** MQTT connection and sending (network), and argparse,
  are left out. The base topic is an optional configuration value, and the
  filters and window are parameters.
- Training.ScoreFolds: states only non-emptiness; that predictions and truths stay paired in fold order holds by construction, since each scored point carries both.
- Training.Artifacts: the per-scope directories and their contents are modelled; `report.json` is `Training.Report`, the insertion-ordered dict of report keys to scores.
- Publish.PublishGlobal: predicts each station from its own newest row, the corrected lookup of Findings; the code's label lookup is `Publish.GlobalBlockAsWritten`.
- Publish.GlobalOrder: the message content it states is the corrected one of Findings; see `Publish.GlobalBlockAsWritten` for the code as written.
- Publish.GlobalLatest: the corrected lookup of Findings; the labels the latest rows carry through feature building and the parquet round trip are not tracked by the table model, so `Publish.GlobalBlockAsWritten` takes them as a parameter.
- Publish.Publish: global contents follow the corrected lookup of Findings.
- Publish.ModeMessages: global contents follow the corrected lookup of Findings.
- **Index labels.** The table model carries no pandas index. Only the labels QC gives (`Qc.KeptLabels`) and their use in global publishing are modelled; `groupby(...).apply` in `build_features.py`, the parquet round trip, `sort_values` and `tail(1)` keep them unchanged.
- **Inputs outside the modelled schema.**
  - A raw or exogenous CSV without `ts` or `station_id` (the `KeyError` of `src/etl/load.py:14,18,35`) cannot be represented, because every row carries both keys.
  - A hindcast file without `y_true` or `p50` (the `KeyError` of `src/eval/rolling_metrics.py:70-73`) cannot be represented, because every record carries its fields.
  - `plot_fan`'s `iloc[0]` on an empty hindcast file (the `IndexError` of `src/plots/batch_render.py:31-32`) is not a failure: `Render.RenderPlan` plans the chart, and drawing is left out with the plotting.
- FeaturesByStation: the result is stated in (station, ts) order. pandas' `groupby(..., group_keys=False).apply` reindexes the result back to input order when no group's `sort_values('ts')` moves a row, so an input that is not station-ascending (or interleaves stations) comes back in input order there. The cleaned table the pipeline feeds in is already in (station, ts) order, where both agree.

## Findings

| source | as written | input that shows it | evidently intended | confidence | as-written member | corrected member |
|---|---|---|---|---|---|---|
| src/etl/load.py:19-22 | `asfreq` runs on every column of the group, including `station_id`, so the inserted raster rows get a missing station id; `qc.py`'s `groupby('station_id')` then drops them and the series is no longer on the raster | one station with readings at 0 and 30 minutes on a 15-minute raster: the row at 15 has no station | every raster row keeps its station id, so a gap is a row of missing values of that station | not executed; depends on the pandas version passing the grouping column to `apply` | Load.AsFreqStationsAsWritten, Load.GapRowLosesStation | Load.AsFreq |
| src/serve/publish.py:28 | `latest.loc[[idx], features]` selects every latest row whose index label is `idx`, and `predict(x)[0]` takes the first; the labels come from `reset_index()` in `qc_group` (`src/etl/qc.py:19`), which numbers each station's rows from 0, so they repeat across stations | stations A and B with 96 QC'd rows each, newest rows kept: both carry label 95, and B's message gets A's p10/p50/p90 | each station's message is predicted from its own newest row, selected by position as per-station mode does with `iloc` at line 44 | not executed; follows from pandas' label semantics for `loc` | Publish.GlobalBlockAsWritten, Publish.RepeatedLabelBorrows, Qc.SharedNewestLabel | Publish.PublishGlobal, Publish.GlobalOrder, Publish.DistinctLabelsOwnRows |

=== FILE: features.dfy ===
/**
 * Feature building (src/features/build_features.py): per station, after
 * sorting by ts, lagged copies and trailing rolling aggregates of the
 * target and of the exogenous columns that exist, then two calendar
 * columns. Everything looks backwards only.
 */
module Features {
  import opened Wrappers
  import opened Strings
  import opened Seqs
  import opened Frame

  const DefaultLags: seq<nat> := [1, 2, 4, 8, 12, 24, 48]
  const DefaultRolls: seq<nat> := [4, 8, 24]

  /** `shift(l)`: position `i` takes the value `l` rows earlier; the first `l` are NaN (see `LagAt`). */
  function Lag(col: seq<Value>, l: nat): (r: seq<Value>)
    ensures |r| == |col|
    decreases |col|
  {
    if |col| == 0 then []
    else
      var n := |col| - 1;
      Lag(col[..n], l) + [if n < l then None else col[n - l]]
  }

  lemma {:induction false} LagAt(col: seq<Value>, l: nat, i: nat)
    requires i < |col|
    ensures Lag(col, l)[i] == if i < l then None else col[i - l]
    decreases |col|
  {
    var n := |col| - 1;
    if i < n {
      LagAt(col[..n], l, i);
    }
  }

  function Present(w: seq<Value>): (p: seq<real>)
    ensures |p| == 0 <==> forall k :: 0 <= k < |w| ==> w[k].None?
    decreases |w|
  {
    if |w| == 0 then []
    else
      var rest := Present(w[1..]);
      assert forall k :: 1 <= k < |w| ==> w[k] == w[1..][k - 1];
      if w[0].Some? then [w[0].value] + rest else rest
  }

  /** First position of the trailing window of `r` rows ending at `i`. */
  function WindowStart(i: nat, r: nat): (s: nat)
    requires r >= 1
    ensures s <= i && i + 1 - s <= r
    ensures i + 1 >= r ==> i + 1 - s == r
  {
    if i + 1 >= r then i + 1 - r else 0
  }

  /**
   * `rolling(r, min_periods=1)` at position `i`: the sum or mean of the
   * present values among the last `r` positions up to `i`, NaN if none is present.
   */
  function RollAt(col: seq<Value>, i: nat, r: nat, sum: bool): Value
    requires r >= 1 && i < |col|
  {
    var p := Present(col[WindowStart(i, r)..i + 1]);
    if |p| == 0 then None
    else if sum then Some(Sum(p))
    else Some(Sum(p) / (|p| as real))
  }

  /** `rolling(r, min_periods=1).sum()` or `.mean()` of a whole column (see `RollIndex`). */
  function Roll(col: seq<Value>, r: nat, sum: bool): (out: seq<Value>)
    requires r >= 1
    ensures |out| == |col|
    decreases |col|
  {
    if |col| == 0 then []
    else
      var n := |col| - 1;
      Roll(col[..n], r, sum) + [RollAt(col, n, r, sum)]
  }

  lemma {:induction false} RollIndex(col: seq<Value>, r: nat, sum: bool, i: nat)
    requires r >= 1 && i < |col|
    ensures Roll(col, r, sum)[i] == RollAt(col, i, r, sum)
    decreases |col|
  {
    var n := |col| - 1;
    if i < n {
      RollIndex(col[..n], r, sum, i);
      var lo := WindowStart(i, r);
      assert col[..n][lo..i + 1] == col[lo..i + 1];
    }
  }

  datatype Agg = LagBy(l: nat) | MeanOver(r: nat) | SumOver(r: nat)

  /** A derived column: its name, the column it is computed from, and how. */
  datatype Derived = Derived(name: string, source: string, agg: Agg)

  /** A column that gets lags and rolls, the prefix of its derived names, and whether it rolls by sum. */
  datatype Source = Source(col: string, prefix: string, sums: bool)

  function Sources(target: string): seq<Source> {
    [Source(target, target, false), Source("rain_mm", "rain", true),
     Source("icon_rr_mm", "icon_rr", true), Source("sm_pct", "sm", false)]
  }

  /** The sources that are columns of the table (`if 'rain_mm' in g: ...`). */
  function PresentSources(cols: seq<string>, target: string): (ps: seq<Source>)
    ensures forall k :: 0 <= k < |ps| ==> ps[k].col in cols && ps[k] in Sources(target)
  {
    var all := Sources(target);
    var ps := seq(0, k => all[0]);
    var ps := if all[0].col in cols then ps + [all[0]] else ps;
    var ps := if all[1].col in cols then ps + [all[1]] else ps;
    var ps := if all[2].col in cols then ps + [all[2]] else ps;
    if all[3].col in cols then ps + [all[3]] else ps
  }

  /** Every source whose column exists is among the present ones. */
  lemma PresentSourcesComplete(cols: seq<string>, target: string, s: Source)
    requires s in Sources(target) && s.col in cols
    ensures s in PresentSources(cols, target)
  {
  }

  function Positive(xs: seq<nat>): bool {
    forall k :: 0 <= k < |xs| ==> xs[k] >= 1
  }

  function LagName(s: Source, l: nat): string {
    s.prefix + "_lag" + IntToString(l)
  }

  function RollName(s: Source, r: nat): string {
    s.prefix + "_roll" + IntToString(r)
  }

  function RollOf(s: Source, r: nat): Agg {
    if s.sums then SumOver(r) else MeanOver(r)
  }

  /** One pass of the lag loop: lag `l` of every present source, in source order. */
  function LagBlock(ps: seq<Source>, l: nat): (r: seq<Derived>)
    ensures |r| == |ps| && forall b :: 0 <= b < |ps| ==> r[b] == Derived(LagName(ps[b], l), ps[b].col, LagBy(l))
    decreases |ps|
  {
    if |ps| == 0 then [] else [Derived(LagName(ps[0], l), ps[0].col, LagBy(l))] + LagBlock(ps[1..], l)
  }

  /** One pass of the roll loop: window `r` of every present source, in source order. */
  function RollBlock(ps: seq<Source>, r: nat): (out: seq<Derived>)
    ensures |out| == |ps| && forall b :: 0 <= b < |ps| ==> out[b] == Derived(RollName(ps[b], r), ps[b].col, RollOf(ps[b], r))
    decreases |ps|
  {
    if |ps| == 0 then [] else [Derived(RollName(ps[0], r), ps[0].col, RollOf(ps[0], r))] + RollBlock(ps[1..], r)
  }

  function LagSpecs(ps: seq<Source>, lags: seq<nat>): seq<Derived>
    decreases |lags|
  {
    if |lags| == 0 then [] else LagBlock(ps, lags[0]) + LagSpecs(ps, lags[1..])
  }

  function RollSpecs(ps: seq<Source>, rolls: seq<nat>): seq<Derived>
    decreases |rolls|
  {
    if |rolls| == 0 then [] else RollBlock(ps, rolls[0]) + RollSpecs(ps, rolls[1..])
  }

  /** The derived columns of `make_features`, in the order the source adds them. */
  function Specs(cols: seq<string>, target: string, lags: seq<nat>, rolls: seq<nat>): seq<Derived> {
    var ps := PresentSources(cols, target);
    LagSpecs(ps, lags) + RollSpecs(ps, rolls)
  }

  function Apply(agg: Agg, col: seq<Value>): (r: seq<Value>)
    requires !agg.LagBy? ==> agg.r >= 1
    ensures |r| == |col|
  {
    match agg
    case LagBy(l) => Lag(col, l)
    case MeanOver(r) => Roll(col, r, false)
    case SumOver(r) => Roll(col, r, true)
  }

  predicate WellFormedSpec(cols: seq<string>, d: Derived) {
    d.source in cols && (!d.agg.LagBy? ==> d.agg.r >= 1)
  }

  lemma {:induction false} LagSpecsSound(ps: seq<Source>, lags: seq<nat>, cols: seq<string>)
    requires forall b :: 0 <= b < |ps| ==> ps[b].col in cols
    ensures forall k :: 0 <= k < |LagSpecs(ps, lags)| ==> WellFormedSpec(cols, LagSpecs(ps, lags)[k])
    decreases |lags|
  {
    if |lags| > 0 {
      LagSpecsSound(ps, lags[1..], cols);
      var block := LagBlock(ps, lags[0]);
      forall k | 0 <= k < |LagSpecs(ps, lags)| ensures WellFormedSpec(cols, LagSpecs(ps, lags)[k]) {
        if k >= |block| {
          assert LagSpecs(ps, lags)[k] == LagSpecs(ps, lags[1..])[k - |block|];
        }
      }
    }
  }

  lemma {:induction false} RollSpecsSound(ps: seq<Source>, rolls: seq<nat>, cols: seq<string>)
    requires forall b :: 0 <= b < |ps| ==> ps[b].col in cols
    requires Positive(rolls)
    ensures forall k :: 0 <= k < |RollSpecs(ps, rolls)| ==> WellFormedSpec(cols, RollSpecs(ps, rolls)[k])
    decreases |rolls|
  {
    if |rolls| > 0 {
      assert Positive(rolls[1..]) by {
        forall k | 0 <= k < |rolls[1..]| ensures rolls[1..][k] >= 1 {
          assert rolls[1..][k] == rolls[k + 1];
        }
      }
      RollSpecsSound(ps, rolls[1..], cols);
      var block := RollBlock(ps, rolls[0]);
      forall k | 0 <= k < |RollSpecs(ps, rolls)| ensures WellFormedSpec(cols, RollSpecs(ps, rolls)[k]) {
        if k >= |block| {
          assert RollSpecs(ps, rolls)[k] == RollSpecs(ps, rolls[1..])[k - |block|];
        }
      }
    }
  }

  /** Every derived column reads an existing column; rolls have a window of at least one row. */
  lemma SpecsWellFormed(cols: seq<string>, target: string, lags: seq<nat>, rolls: seq<nat>)
    requires Positive(rolls)
    ensures forall k :: 0 <= k < |Specs(cols, target, lags, rolls)| ==> WellFormedSpec(cols, Specs(cols, target, lags, rolls)[k])
  {
    var ps := PresentSources(cols, target);
    LagSpecsSound(ps, lags, cols);
    RollSpecsSound(ps, rolls, cols);
    var specs := Specs(cols, target, lags, rolls);
    forall k | 0 <= k < |specs| ensures WellFormedSpec(cols, specs[k]) {
      if k >= |LagSpecs(ps, lags)| {
        assert specs[k] == RollSpecs(ps, rolls)[k - |LagSpecs(ps, lags)|];
      }
    }
  }

  lemma {:induction false} LagSpecsComplete(ps: seq<Source>, lags: seq<nat>, s: Source, l: nat)
    requires s in ps && l in lags
    ensures Derived(LagName(s, l), s.col, LagBy(l)) in LagSpecs(ps, lags)
    decreases |lags|
  {
    if lags[0] == l {
      var b :| 0 <= b < |ps| && ps[b] == s;
      assert LagSpecs(ps, lags)[b] == LagBlock(ps, l)[b];
    } else {
      LagSpecsComplete(ps, lags[1..], s, l);
    }
  }

  lemma {:induction false} RollSpecsComplete(ps: seq<Source>, rolls: seq<nat>, s: Source, r: nat)
    requires s in ps && r in rolls
    ensures Derived(RollName(s, r), s.col, RollOf(s, r)) in RollSpecs(ps, rolls)
    decreases |rolls|
  {
    if rolls[0] == r {
      var b :| 0 <= b < |ps| && ps[b] == s;
      assert RollSpecs(ps, rolls)[b] == RollBlock(ps, r)[b];
    } else {
      RollSpecsComplete(ps, rolls[1..], s, r);
    }
  }

  /** A source column that exists gets every configured lag and roll, under its prefixed name. */
  lemma SpecsFollowSources(cols: seq<string>, target: string, lags: seq<nat>, rolls: seq<nat>, s: Source)
    requires s in Sources(target) && s.col in cols
    ensures forall l :: l in lags ==> Derived(LagName(s, l), s.col, LagBy(l)) in Specs(cols, target, lags, rolls)
    ensures forall r :: r in rolls ==> Derived(RollName(s, r), s.col, RollOf(s, r)) in Specs(cols, target, lags, rolls)
  {
    var ps := PresentSources(cols, target);
    PresentSourcesComplete(cols, target, s);
    forall l | l in lags ensures Derived(LagName(s, l), s.col, LagBy(l)) in Specs(cols, target, lags, rolls) {
      LagSpecsComplete(ps, lags, s, l);
    }
    forall r | r in rolls ensures Derived(RollName(s, r), s.col, RollOf(s, r)) in Specs(cols, target, lags, rolls) {
      RollSpecsComplete(ps, rolls, s, r);
    }
  }

  /** Whether a lagged or rolled column at `i` equals the other one there, given equal histories up to `i`. */
  lemma ApplyLooksBack(agg: Agg, a: seq<Value>, b: seq<Value>, i: nat)
    requires !agg.LagBy? ==> agg.r >= 1
    requires i < |a| && i < |b| && a[..i + 1] == b[..i + 1]
    ensures Apply(agg, a)[i] == Apply(agg, b)[i]
  {
    match agg
    case LagBy(l) =>
      LagAt(a, l, i);
      LagAt(b, l, i);
      if i >= l {
        assert a[i - l] == a[..i + 1][i - l] == b[..i + 1][i - l] == b[i - l];
      }
    case MeanOver(r) =>
      RollIndex(a, r, false, i);
      RollIndex(b, r, false, i);
      var lo := WindowStart(i, r);
      assert a[lo..i + 1] == b[lo..i + 1];
    case SumOver(r) =>
      RollIndex(a, r, true, i);
      RollIndex(b, r, true, i);
      var lo := WindowStart(i, r);
      assert a[lo..i + 1] == b[lo..i + 1];
  }

  /** The columns after assigning each of `names` in turn: an existing name stays in place, a new one is appended. */
  function ColsAfter(cols: seq<string>, names: seq<string>): (r: seq<string>)
    ensures |cols| <= |r| && r[..|cols|] == cols
    decreases |names|
  {
    if |names| == 0 then cols
    else ColsAfter(if names[0] in cols then cols else cols + [names[0]], names[1..])
  }

  /** Every row with the value at position `j` replaced by the row's entry of `col`. */
  function OverwriteAt(rows: seq<Row>, j: nat, col: seq<Value>): (r: seq<Row>)
    requires |col| == |rows| && forall i :: 0 <= i < |rows| ==> j < |rows[i].vals|
    ensures |r| == |rows|
    ensures forall i {:trigger r[i]} :: 0 <= i < |r| ==> r[i] == Row(rows[i].station, rows[i].ts, rows[i].vals[j := col[i]])
    decreases |rows|
  {
    if |rows| == 0 then []
    else [Row(rows[0].station, rows[0].ts, rows[0].vals[j := col[0]])] + OverwriteAt(rows[1..], j, col[1..])
  }

  /** Every row with its entry of `col` appended. */
  function AppendEach(rows: seq<Row>, col: seq<Value>): (r: seq<Row>)
    requires |col| == |rows|
    ensures |r| == |rows|
    ensures forall i {:trigger r[i]} :: 0 <= i < |r| ==> r[i] == Row(rows[i].station, rows[i].ts, rows[i].vals + [col[i]])
    decreases |rows|
  {
    if |rows| == 0 then []
    else [Row(rows[0].station, rows[0].ts, rows[0].vals + [col[0]])] + AppendEach(rows[1..], col[1..])
  }

  /** `g[name] = col`: overwrites the column `name` if the table has one, otherwise appends it. */
  function SetColumn(t: Table, name: string, col: seq<Value>): (r: Table)
    requires WellFormed(t) && |col| == |t.rows|
    ensures WellFormed(r) && |r.rows| == |t.rows|
    ensures r.cols == if name in t.cols then t.cols else t.cols + [name]
    ensures IndexOf(r.cols, name).Some?
    ensures forall i {:trigger r.rows[i]} :: 0 <= i < |r.rows| ==>
      r.rows[i].station == t.rows[i].station && r.rows[i].ts == t.rows[i].ts && r.rows[i].vals[IndexOf(r.cols, name).value] == col[i]
    ensures forall i, k {:trigger r.rows[i].vals[k]} :: 0 <= i < |r.rows| && 0 <= k < |t.cols| && t.cols[k] != name ==> r.rows[i].vals[k] == t.rows[i].vals[k]
  {
    match IndexOf(t.cols, name)
    case Some(j) => Table(t.cols, OverwriteAt(t.rows, j, col))
    case None =>
      assert IndexOf(t.cols + [name], name) == Some(|t.cols|) by {
        assert (t.cols + [name])[..|t.cols|] == t.cols;
      }
      Table(t.cols + [name], AppendEach(t.rows, col))
  }

  lemma ColsAfterOne(cols: seq<string>, name: string)
    ensures ColsAfter(cols, [name]) == if name in cols then cols else cols + [name]
  {
    assert ColsAfter(cols, [name]) == ColsAfter(if name in cols then cols else cols + [name], []);
  }

  function Names(specs: seq<Derived>): (r: seq<string>)
    ensures |r| == |specs| && forall k :: 0 <= k < |specs| ==> r[k] == specs[k].name
  {
    seq(|specs|, k requires 0 <= k < |specs| => specs[k].name)
  }

  predicate SourcesIn(cols: seq<string>, specs: seq<Derived>) {
    forall k :: 0 <= k < |specs| ==> WellFormedSpec(cols, specs[k])
  }

  /** The values of a derived column, computed from the table `t`. */
  function DerivedColumn(t: Table, d: Derived): (c: seq<Value>)
    requires WellFormed(t) && WellFormedSpec(t.cols, d)
    ensures |c| == |t.rows|
  {
    Apply(d.agg, ColumnOf(t.rows, IndexOf(t.cols, d.source).value))
  }

  /** Adds the derived columns one after the other, each computed from the table as it stands. */
  function AddDerived(t: Table, specs: seq<Derived>): (r: Table)
    requires WellFormed(t) && SourcesIn(t.cols, specs)
    ensures WellFormed(r) && |r.rows| == |t.rows|
    ensures r.cols == ColsAfter(t.cols, Names(specs))
    ensures forall i :: 0 <= i < |r.rows| ==> r.rows[i].station == t.rows[i].station && r.rows[i].ts == t.rows[i].ts
    decreases |specs|
  {
    if |specs| == 0 then t
    else
      var d := specs[0];
      var t' := SetColumn(t, d.name, DerivedColumn(t, d));
      assert Names(specs) == [d.name] + Names(specs[1..]);
      assert ColsAfter(t.cols, Names(specs)) == ColsAfter(t'.cols, Names(specs[1..]));
      assert SourcesIn(t'.cols, specs[1..]) by {
        forall k | 0 <= k < |specs[1..]| ensures WellFormedSpec(t'.cols, specs[1..][k]) {
          assert WellFormedSpec(t.cols, specs[k + 1]);
        }
      }
      AddDerived(t', specs[1..])
  }

  /** Column `cal(ts)` of `rows`; `CalendarValues` states what `AddCalendar` leaves in it. */
  function CalendarColumn(rows: seq<Row>, cal: int -> nat): (c: seq<Value>)
    ensures |c| == |rows| && forall i :: 0 <= i < |rows| ==> c[i] == Some(cal(rows[i].ts) as real)
  {
    seq(|rows|, i requires 0 <= i < |rows| => Some(cal(rows[i].ts) as real))
  }

  function FeatureNames(cols: seq<string>, target: string, lags: seq<nat>, rolls: seq<nat>): seq<string> {
    Names(Specs(cols, target, lags, rolls)) + ["doy", "hod"]
  }

  /** `sort_values('ts')` of one station's rows. */
  function SortRows(g: Table): (s: Table)
    requires WellFormed(g)
    ensures WellFormed(s) && s.cols == g.cols && s.rows == SortBy(g.rows, TsKey)
    ensures TsOrdered(s.rows, false)
  {
    var s := Table(g.cols, SortBy(g.rows, TsKey));
    assert WellFormed(s) by {
      forall i | 0 <= i < |s.rows| ensures |s.rows[i].vals| == |g.cols| {
        assert s.rows[i] in multiset(g.rows);
      }
    }
    assert forall i :: 0 <= i < |s.rows| ==> TsKey(s.rows[i]) == s.rows[i].ts;
    s
  }

  /** The `doy` and `hod` columns, in that order. */
  function AddCalendar(t: Table, doy: int -> nat, hod: int -> nat): (r: Table)
    requires WellFormed(t)
    ensures WellFormed(r) && |r.rows| == |t.rows|
    ensures r.cols == ColsAfter(t.cols, ["doy", "hod"])
    ensures forall i :: 0 <= i < |r.rows| ==> r.rows[i].station == t.rows[i].station && r.rows[i].ts == t.rows[i].ts
  {
    var t2 := SetColumn(t, "doy", CalendarColumn(t.rows, doy));
    assert ColsAfter(t.cols, ["doy", "hod"]) == ColsAfter(t2.cols, ["hod"]);
    ColsAfterOne(t2.cols, "hod");
    SetColumn(t2, "hod", CalendarColumn(t2.rows, hod))
  }

  /** The sorted rows with the lag and roll columns added. */
  function Derivation(g: Table, target: string, lags: seq<nat>, rolls: seq<nat>): (t: Table)
    requires WellFormed(g) && Positive(rolls)
    ensures WellFormed(t) && |t.rows| == |g.rows|
    ensures t.cols == ColsAfter(g.cols, Names(Specs(g.cols, target, lags, rolls)))
    ensures forall i :: 0 <= i < |t.rows| ==> t.rows[i].station == SortRows(g).rows[i].station && t.rows[i].ts == SortRows(g).rows[i].ts
  {
    SpecsWellFormed(g.cols, target, lags, rolls);
    AddDerived(SortRows(g), Specs(g.cols, target, lags, rolls))
  }

  function FeatureCols(cols: seq<string>, target: string, lags: seq<nat>, rolls: seq<nat>): seq<string> {
    ColsAfter(cols, FeatureNames(cols, target, lags, rolls))
  }

  /**
   * `make_features`: sorts one station's rows by ts, adds the lags, then the
   * rolls, then day-of-year and hour-of-day (`doy`, `hod` stand for the
   * calendar of a timestamp).
   */
  function MakeFeatures(g: Table, target: string, lags: seq<nat>, rolls: seq<nat>, doy: int -> nat, hod: int -> nat): (r: Table)
    requires WellFormed(g) && Positive(rolls)
    ensures WellFormed(r) && |r.rows| == |g.rows| && r.cols == FeatureCols(g.cols, target, lags, rolls)
  {
    ColsAfterAppend(g.cols, Names(Specs(g.cols, target, lags, rolls)), ["doy", "hod"]);
    AddCalendar(Derivation(g, target, lags, rolls), doy, hod)
  }

  /** The feature rows are the input rows in ts order: same stations, same timestamps. */
  lemma MakeFeaturesRows(g: Table, target: string, lags: seq<nat>, rolls: seq<nat>, doy: int -> nat, hod: int -> nat)
    requires WellFormed(g) && Positive(rolls)
    ensures forall i :: 0 <= i < |g.rows| ==>
      MakeFeatures(g, target, lags, rolls, doy, hod).rows[i].station == SortRows(g).rows[i].station &&
      MakeFeatures(g, target, lags, rolls, doy, hod).rows[i].ts == SortRows(g).rows[i].ts
    ensures TsOrdered(MakeFeatures(g, target, lags, rolls, doy, hod).rows, false)
  {
    var s, d := SortRows(g), Derivation(g, target, lags, rolls);
    var r := MakeFeatures(g, target, lags, rolls, doy, hod);
    assert r == AddCalendar(d, doy, hod);
    SameKeysOrdered(r.rows, d.rows, s.rows);
  }

  /** Rows with the keys of key-for-key copies of ts-ordered rows are ts-ordered with those keys. */
  lemma SameKeysOrdered(r: seq<Row>, d: seq<Row>, s: seq<Row>)
    requires |r| == |d| == |s| && TsOrdered(s, false)
    requires forall i :: 0 <= i < |r| ==> r[i].station == d[i].station && r[i].ts == d[i].ts
    requires forall i :: 0 <= i < |d| ==> d[i].station == s[i].station && d[i].ts == s[i].ts
    ensures forall i :: 0 <= i < |r| ==> r[i].station == s[i].station && r[i].ts == s[i].ts
    ensures TsOrdered(r, false)
  {
  }

  lemma {:induction false} ColsAfterAppend(cols: seq<string>, a: seq<string>, b: seq<string>)
    ensures ColsAfter(cols, a + b) == ColsAfter(ColsAfter(cols, a), b)
    decreases |a|
  {
    if |a| == 0 {
      assert a + b == b;
    } else {
      assert (a + b)[1..] == a[1..] + b;
      ColsAfterAppend(if a[0] in cols then cols else cols + [a[0]], a[1..], b);
    }
  }

  /** Equal rows up to `i` give equal columns up to `i`. */
  lemma ColumnLooksBack(a: seq<Row>, b: seq<Row>, j: nat, i: nat)
    requires forall q :: 0 <= q < |a| ==> j < |a[q].vals|
    requires forall q :: 0 <= q < |b| ==> j < |b[q].vals|
    requires i < |a| && i < |b| && a[..i + 1] == b[..i + 1]
    ensures ColumnOf(a, j)[..i + 1] == ColumnOf(b, j)[..i + 1]
  {
    assert forall q :: 0 <= q <= i ==> a[q] == a[..i + 1][q] == b[..i + 1][q] == b[q];
  }

  lemma SetColumnLooksBack(t1: Table, t2: Table, name: string, c1: seq<Value>, c2: seq<Value>, i: nat)
    requires WellFormed(t1) && WellFormed(t2) && t1.cols == t2.cols
    requires |c1| == |t1.rows| && |c2| == |t2.rows|
    requires i < |t1.rows| && i < |t2.rows| && t1.rows[..i + 1] == t2.rows[..i + 1] && c1[..i + 1] == c2[..i + 1]
    ensures SetColumn(t1, name, c1).rows[..i + 1] == SetColumn(t2, name, c2).rows[..i + 1]
  {
    var r1 := SetColumn(t1, name, c1);
    var r2 := SetColumn(t2, name, c2);
    forall q | 0 <= q <= i ensures r1.rows[q] == r2.rows[q] {
      assert t1.rows[q] == t1.rows[..i + 1][q] == t2.rows[..i + 1][q] == t2.rows[q];
      assert c1[q] == c1[..i + 1][q] == c2[..i + 1][q] == c2[q];
    }
  }

  lemma {:induction false} AddDerivedLooksBack(t1: Table, t2: Table, specs: seq<Derived>, i: nat)
    requires WellFormed(t1) && WellFormed(t2) && t1.cols == t2.cols && SourcesIn(t1.cols, specs)
    requires i < |t1.rows| && i < |t2.rows| && t1.rows[..i + 1] == t2.rows[..i + 1]
    ensures AddDerived(t1, specs).rows[..i + 1] == AddDerived(t2, specs).rows[..i + 1]
    decreases |specs|
  {
    if |specs| > 0 {
      var d := specs[0];
      var j := IndexOf(t1.cols, d.source).value;
      var s1 := ColumnOf(t1.rows, j);
      var s2 := ColumnOf(t2.rows, j);
      ColumnLooksBack(t1.rows, t2.rows, j, i);
      var a1 := Apply(d.agg, s1);
      var a2 := Apply(d.agg, s2);
      forall q | 0 <= q <= i ensures a1[q] == a2[q] {
        assert s1[..q + 1] == s1[..i + 1][..q + 1];
        assert s2[..q + 1] == s2[..i + 1][..q + 1];
        ApplyLooksBack(d.agg, s1, s2, q);
      }
      assert a1[..i + 1] == a2[..i + 1];
      SetColumnLooksBack(t1, t2, d.name, a1, a2, i);
      var u1 := SetColumn(t1, d.name, a1);
      var u2 := SetColumn(t2, d.name, a2);
      assert SourcesIn(u1.cols, specs[1..]) by {
        forall k | 0 <= k < |specs[1..]| ensures WellFormedSpec(u1.cols, specs[1..][k]) {
          assert WellFormedSpec(t1.cols, specs[k + 1]);
        }
      }
      AddDerivedLooksBack(u1, u2, specs[1..], i);
    }
  }

  /**
   * No look-ahead: a feature row depends only on the rows up to it in ts
   * order, so two histories that agree up to row `i` give the same features there.
   */
  lemma FeaturesLookBack(g1: Table, g2: Table, target: string, lags: seq<nat>, rolls: seq<nat>, doy: int -> nat, hod: int -> nat, i: nat)
    requires WellFormed(g1) && WellFormed(g2) && g1.cols == g2.cols && Positive(rolls)
    requires i < |g1.rows| && i < |g2.rows| && SortBy(g1.rows, TsKey)[..i + 1] == SortBy(g2.rows, TsKey)[..i + 1]
    ensures MakeFeatures(g1, target, lags, rolls, doy, hod).rows[i] == MakeFeatures(g2, target, lags, rolls, doy, hod).rows[i]
  {
    var specs := Specs(g1.cols, target, lags, rolls);
    SpecsWellFormed(g1.cols, target, lags, rolls);
    var s1 := SortRows(g1);
    var s2 := SortRows(g2);
    AddDerivedLooksBack(s1, s2, specs, i);
    var t1 := Derivation(g1, target, lags, rolls);
    var t2 := Derivation(g2, target, lags, rolls);
    assert t1 == AddDerived(s1, specs) && t2 == AddDerived(s2, specs);
    AddCalendarLooksBack(t1, t2, doy, hod, i);
    var r1 := AddCalendar(t1, doy, hod);
    var r2 := AddCalendar(t2, doy, hod);
    assert r1 == MakeFeatures(g1, target, lags, rolls, doy, hod);
    assert r2 == MakeFeatures(g2, target, lags, rolls, doy, hod);
    assert r1.rows[i] == r1.rows[..i + 1][i] == r2.rows[..i + 1][i] == r2.rows[i];
  }

  lemma AddCalendarLooksBack(t1: Table, t2: Table, doy: int -> nat, hod: int -> nat, i: nat)
    requires WellFormed(t1) && WellFormed(t2) && t1.cols == t2.cols
    requires i < |t1.rows| && i < |t2.rows| && t1.rows[..i + 1] == t2.rows[..i + 1]
    ensures AddCalendar(t1, doy, hod).rows[..i + 1] == AddCalendar(t2, doy, hod).rows[..i + 1]
  {
    var c1 := CalendarColumn(t1.rows, doy);
    var c2 := CalendarColumn(t2.rows, doy);
    assert c1[..i + 1] == c2[..i + 1] by {
      forall q | 0 <= q <= i ensures c1[q] == c2[q] {
        assert t1.rows[q] == t1.rows[..i + 1][q] == t2.rows[..i + 1][q] == t2.rows[q];
      }
    }
    SetColumnLooksBack(t1, t2, "doy", c1, c2, i);
    var u1 := SetColumn(t1, "doy", c1);
    var u2 := SetColumn(t2, "doy", c2);
    var d1 := CalendarColumn(u1.rows, hod);
    var d2 := CalendarColumn(u2.rows, hod);
    assert d1[..i + 1] == d2[..i + 1] by {
      forall q | 0 <= q <= i ensures d1[q] == d2[q] {
        assert u1.rows[q] == u1.rows[..i + 1][q] == u2.rows[..i + 1][q] == u2.rows[q];
      }
    }
    SetColumnLooksBack(u1, u2, "hod", d1, d2, i);
  }

  /** The table with `later` rows appended. */
  function Extend(g: Table, later: seq<Row>): (r: Table)
    requires WellFormed(g) && RowsFit(later, |g.cols|)
    ensures WellFormed(r) && r.cols == g.cols && r.rows == g.rows + later
  {
    var r := Table(g.cols, g.rows + later);
    assert WellFormed(r) by {
      forall i | 0 <= i < |r.rows| ensures |r.rows[i].vals| == |g.cols| {
        if i >= |g.rows| {
          assert r.rows[i] == later[i - |g.rows|];
        }
      }
    }
    r
  }

  /** For rows already in ts order: appending later rows leaves earlier feature rows as they were. */
  lemma FeaturesIgnoreLaterRows(g: Table, later: seq<Row>, target: string, lags: seq<nat>, rolls: seq<nat>, doy: int -> nat, hod: int -> nat, i: nat)
    requires WellFormed(g) && Positive(rolls) && RowsFit(later, |g.cols|)
    requires TsOrdered(g.rows + later, false) && i < |g.rows|
    ensures MakeFeatures(g, target, lags, rolls, doy, hod).rows[i] == MakeFeatures(Extend(g, later), target, lags, rolls, doy, hod).rows[i]
  {
    var all := g.rows + later;
    assert SortBy(all, TsKey) == all by {
      TsOrderedSorted(all);
    }
    assert SortBy(g.rows, TsKey) == g.rows by {
      assert g.rows == all[..|g.rows|];
      TsOrderedSorted(g.rows);
    }
    assert all[..i + 1] == g.rows[..i + 1];
    FeaturesLookBack(g, Extend(g, later), target, lags, rolls, doy, hod, i);
  }

  lemma TsOrderedSorted(rows: seq<Row>)
    requires TsOrdered(rows, false)
    ensures SortBy(rows, TsKey) == rows
  {
    assert SortedBy(rows, TsKey) by {
      forall i, j | 0 <= i < j < |rows| ensures TsKey(rows[i]) <= TsKey(rows[j]) {
      }
    }
    SortByIdentity(rows, TsKey);
  }

  /** A slice has no present value exactly when every position in it is missing. */
  lemma PresentSliceNone(col: seq<Value>, lo: nat, hi: nat)
    requires lo <= hi <= |col|
    ensures |Present(col[lo..hi])| == 0 <==> forall q :: lo <= q < hi ==> col[q].None?
  {
    var w := col[lo..hi];
    assert forall q :: lo <= q < hi ==> col[q] == w[q - lo];
  }

  /** A rolled value is missing exactly when every value in its window is missing. */
  lemma RollMissing(col: seq<Value>, r: nat, sum: bool, i: nat)
    requires r >= 1 && i < |col|
    ensures Roll(col, r, sum)[i].None? <==> forall q :: WindowStart(i, r) <= q <= i ==> col[q].None?
  {
    RollIndex(col, r, sum, i);
    PresentSliceNone(col, WindowStart(i, r), i + 1);
  }

  /** The part of the rows that `make_features` runs on for one station. */
  function StationTable(t: Table, sid: string): (g: Table)
    requires WellFormed(t)
    ensures WellFormed(g) && g.cols == t.cols
  {
    StationRowsFit(t.rows, sid, |t.cols|);
    Table(t.cols, StationRows(t.rows, sid))
  }

  /** The feature rows of one station: all of that station, in ts order. */
  function StationFeatures(t: Table, sid: string, target: string, lags: seq<nat>, rolls: seq<nat>, doy: int -> nat, hod: int -> nat): (rows: seq<Row>)
    requires WellFormed(t) && Positive(rolls)
    ensures rows == MakeFeatures(StationTable(t, sid), target, lags, rolls, doy, hod).rows
    ensures RowsFit(rows, |FeatureCols(t.cols, target, lags, rolls)|)
    ensures forall i :: 0 <= i < |rows| ==> rows[i].station == sid
    ensures TsOrdered(rows, false)
  {
    var g := StationTable(t, sid);
    var rows := MakeFeatures(g, target, lags, rolls, doy, hod).rows;
    MakeFeaturesRows(g, target, lags, rolls, doy, hod);
    forall i | 0 <= i < |rows| ensures rows[i].station == sid {
      assert SortRows(g).rows[i] in multiset(g.rows);
    }
    rows
  }

  /** One block of feature rows per station, stations ascending. */
  function FeatureBlocks(t: Table, target: string, lags: seq<nat>, rolls: seq<nat>, doy: int -> nat, hod: int -> nat): (blocks: seq<seq<Row>>)
    requires WellFormed(t) && Positive(rolls)
    ensures Blocked(blocks, Stations(t.rows)) && StrictlySorted(Stations(t.rows))
    ensures forall k :: 0 <= k < |blocks| ==> TsOrdered(blocks[k], false)
    ensures forall k :: 0 <= k < |blocks| ==> RowsFit(blocks[k], |FeatureCols(t.cols, target, lags, rolls)|)
    ensures forall k :: 0 <= k < |blocks| ==> blocks[k] == StationFeatures(t, Stations(t.rows)[k], target, lags, rolls, doy, hod)
  {
    var sids := Stations(t.rows);
    var blocks := seq(|sids|, k requires 0 <= k < |sids| => StationFeatures(t, sids[k], target, lags, rolls, doy, hod));
    forall k, m | 0 <= k < m < |sids|
      ensures sids[k] != sids[m]
    {
      StrLtIrreflexive(sids[k]);
    }
    blocks
  }

  /**
   * `groupby('station_id').apply(make_features)`: the stations in ascending
   * order, each station's feature rows computed from its own rows only.
   */
  function FeaturesByStation(t: Table, target: string, lags: seq<nat>, rolls: seq<nat>, doy: int -> nat, hod: int -> nat): (r: Table)
    requires WellFormed(t) && Positive(rolls)
    ensures WellFormed(r)
    ensures r.cols == FeatureCols(t.cols, target, lags, rolls)
    ensures OrderedByKey(r.rows, false)
    ensures forall sid :: StationRows(r.rows, sid) == MakeFeatures(StationTable(t, sid), target, lags, rolls, doy, hod).rows
  {
    var sids := Stations(t.rows);
    var blocks := FeatureBlocks(t, target, lags, rolls, doy, hod);
    FlattenOrdered(blocks, sids, false);
    FlattenFits(blocks, |FeatureCols(t.cols, target, lags, rolls)|);
    forall sid
      ensures StationRows(Flatten(blocks), sid) == StationFeatures(t, sid, target, lags, rolls, doy, hod)
    {
      StationRowsOfBlocks(blocks, sids, sid);
      if sid !in sids {
        StationRowsNone(t.rows, sid);
      }
    }
    Table(FeatureCols(t.cols, target, lags, rolls), Flatten(blocks))
  }

  /** None of `names` is a column already, and no name repeats. */
  predicate FreshNames(cols: seq<string>, names: seq<string>) {
    && (forall k :: 0 <= k < |names| ==> names[k] !in cols)
    && (forall k, m :: 0 <= k < m < |names| ==> names[k] != names[m])
  }

  lemma IndexOfAt(cols: seq<string>, name: string, j: nat)
    requires j < |cols| && cols[j] == name && name !in cols[..j]
    ensures IndexOf(cols, name) == Some(j)
  {
  }

  lemma IndexOfPrefix(a: seq<string>, b: seq<string>, name: string)
    requires name in a
    ensures IndexOf(a + b, name) == IndexOf(a, name)
  {
    var j := IndexOf(a, name).value;
    assert (a + b)[..j] == a[..j];
    IndexOfAt(a + b, name, j);
  }

  /** The `k`-th of the new names sits at position `|cols| + k` of `cols + names`. */
  lemma IndexOfFresh(cols: seq<string>, names: seq<string>, k: nat, p: nat)
    requires FreshNames(cols, names) && k < |names| && p == |cols| + k
    ensures IndexOf(cols + names, names[k]) == Some(p)
  {
    var all := cols + names;
    assert names[k] !in all[..p] by {
      forall m | 0 <= m < p ensures all[m] != names[k] {
        if m >= |cols| {
          assert all[m] == names[m - |cols|];
        }
      }
    }
    IndexOfAt(all, names[k], p);
  }

  /** Assigning only new, distinct names appends them in order. */
  lemma {:induction false} ColsAfterFresh(cols: seq<string>, names: seq<string>)
    requires FreshNames(cols, names)
    ensures ColsAfter(cols, names) == cols + names
    decreases |names|
  {
    if |names| == 0 {
      assert cols + names == cols;
    } else {
      assert FreshNames(cols + [names[0]], names[1..]) by {
        forall k | 0 <= k < |names[1..]| ensures names[1..][k] !in cols + [names[0]] {
          assert names[k + 1] != names[0];
        }
        forall k, m | 0 <= k < m < |names[1..]| ensures names[1..][k] != names[1..][m] {
          assert names[k + 1] != names[m + 1];
        }
      }
      ColsAfterFresh(cols + [names[0]], names[1..]);
      assert (cols + [names[0]]) + names[1..] == cols + names;
    }
  }

  /** The derived names are new columns and pairwise distinct. */
  predicate FreshSpecs(cols: seq<string>, specs: seq<Derived>) {
    && (forall k :: 0 <= k < |specs| ==> specs[k].name !in cols)
    && (forall k, m :: 0 <= k < m < |specs| ==> specs[k].name != specs[m].name)
  }

  lemma FreshSpecsNames(cols: seq<string>, specs: seq<Derived>)
    requires FreshSpecs(cols, specs)
    ensures FreshNames(cols, Names(specs))
  {
  }

  /** The facts about the first step of `AddDerived` that its induction uses. */
  lemma AddDerivedStep(t: Table, specs: seq<Derived>)
    requires WellFormed(t) && SourcesIn(t.cols, specs) && FreshSpecs(t.cols, specs) && |specs| > 0
    ensures SetColumn(t, specs[0].name, DerivedColumn(t, specs[0])).cols == t.cols + [specs[0].name]
    ensures SourcesIn(t.cols + [specs[0].name], specs[1..])
    ensures FreshSpecs(t.cols + [specs[0].name], specs[1..])
    ensures forall i, j {:trigger SetColumn(t, specs[0].name, DerivedColumn(t, specs[0])).rows[i].vals[j]} :: 0 <= i < |t.rows| && 0 <= j <= |t.cols| ==>
      SetColumn(t, specs[0].name, DerivedColumn(t, specs[0])).rows[i].vals[j]
        == if j < |t.cols| then t.rows[i].vals[j] else DerivedColumn(t, specs[0])[i]
  {
    var d := specs[0];
    var a := DerivedColumn(t, d);
    var t' := SetColumn(t, d.name, a);
    assert SourcesIn(t'.cols, specs[1..]) by {
      forall k | 0 <= k < |specs[1..]| ensures WellFormedSpec(t'.cols, specs[1..][k]) {
        assert WellFormedSpec(t.cols, specs[k + 1]);
      }
    }
    assert FreshSpecs(t'.cols, specs[1..]) by {
      forall k | 0 <= k < |specs[1..]| ensures specs[1..][k].name !in t'.cols {
        assert specs[k + 1].name != specs[0].name;
      }
      forall k, m | 0 <= k < m < |specs[1..]| ensures specs[1..][k].name != specs[1..][m].name {
        assert specs[k + 1].name != specs[m + 1].name;
      }
    }
    IndexOfAt(t'.cols, d.name, |t.cols|);
  }

  /** Adding new columns leaves the existing cells as they were. */
  lemma {:induction false} AddDerivedKeeps(t: Table, specs: seq<Derived>)
    requires WellFormed(t) && SourcesIn(t.cols, specs) && FreshSpecs(t.cols, specs)
    ensures forall i, j {:trigger AddDerived(t, specs).rows[i].vals[j]} :: 0 <= i < |t.rows| && 0 <= j < |t.cols| ==> AddDerived(t, specs).rows[i].vals[j] == t.rows[i].vals[j]
    decreases |specs|
  {
    if |specs| > 0 {
      var d := specs[0];
      var t' := SetColumn(t, d.name, DerivedColumn(t, d));
      AddDerivedStep(t, specs);
      AddDerivedKeeps(t', specs[1..]);
      assert AddDerived(t, specs) == AddDerived(t', specs[1..]);
    }
  }

  /** Appending a column does not change what a derived column computes from the existing ones. */
  lemma DerivedColumnAfterSet(t: Table, name: string, col: seq<Value>, e: Derived)
    requires WellFormed(t) && |col| == |t.rows| && name !in t.cols && WellFormedSpec(t.cols, e)
    ensures WellFormedSpec(SetColumn(t, name, col).cols, e)
    ensures DerivedColumn(SetColumn(t, name, col), e) == DerivedColumn(t, e)
  {
    var t' := SetColumn(t, name, col);
    IndexOfPrefix(t.cols, [name], e.source);
    var j := IndexOf(t.cols, e.source).value;
    assert t.cols[j] != name;
    assert ColumnOf(t'.rows, j) == ColumnOf(t.rows, j);
  }

  /** The first derived column lands right after the existing ones. */
  lemma AddDerivedFirst(t: Table, specs: seq<Derived>, i: nat, p: nat)
    requires WellFormed(t) && SourcesIn(t.cols, specs) && FreshSpecs(t.cols, specs) && 0 < |specs| && i < |t.rows|
    requires p == |t.cols|
    ensures p < |AddDerived(t, specs).rows[i].vals|
    ensures AddDerived(t, specs).rows[i].vals[p] == DerivedColumn(t, specs[0])[i]
  {
    var d := specs[0];
    var t' := SetColumn(t, d.name, DerivedColumn(t, d));
    AddDerivedStep(t, specs);
    AddDerivedKeeps(t', specs[1..]);
    assert AddDerived(t, specs) == AddDerived(t', specs[1..]);
    assert AddDerived(t', specs[1..]).rows[i].vals[p] == t'.rows[i].vals[p];
  }

  /** With fresh names, the `k`-th derived column lands at position `|t.cols| + k`, computed from `t`. */
  lemma {:induction false} AddDerivedValue(t: Table, specs: seq<Derived>, k: nat, i: nat, p: nat)
    requires WellFormed(t) && SourcesIn(t.cols, specs) && FreshSpecs(t.cols, specs) && k < |specs| && i < |t.rows|
    requires p == |t.cols| + k
    ensures p < |AddDerived(t, specs).rows[i].vals|
    ensures AddDerived(t, specs).rows[i].vals[p] == DerivedColumn(t, specs[k])[i]
    decreases k
  {
    if k == 0 {
      AddDerivedFirst(t, specs, i, p);
    } else {
      var d := specs[0];
      var t' := SetColumn(t, d.name, DerivedColumn(t, d));
      AddDerivedStep(t, specs);
      assert AddDerived(t, specs) == AddDerived(t', specs[1..]);
      AddDerivedValue(t', specs[1..], k - 1, i, p);
      DerivedColumnAfterSet(t, d.name, DerivedColumn(t, d), specs[k]);
      assert specs[1..][k - 1] == specs[k];
    }
  }

  /** With `doy` and `hod` new, they become the last two columns. */
  lemma CalendarCols(t: Table, doy: int -> nat, hod: int -> nat)
    requires WellFormed(t) && "doy" !in t.cols && "hod" !in t.cols
    ensures AddCalendar(t, doy, hod).cols == t.cols + ["doy", "hod"]
  {
    var t2 := SetColumn(t, "doy", CalendarColumn(t.rows, doy));
    assert "hod" !in t2.cols by {
      assert "hod"[0] != "doy"[0];
    }
    assert t2.cols + ["hod"] == t.cols + ["doy", "hod"];
  }

  /** Adding the calendar columns leaves the existing cells as they were. */
  lemma CalendarKeeps(t: Table, doy: int -> nat, hod: int -> nat, i: nat, j: nat)
    requires WellFormed(t) && "doy" !in t.cols && "hod" !in t.cols && i < |t.rows| && j < |t.cols|
    ensures AddCalendar(t, doy, hod).rows[i].vals[j] == t.rows[i].vals[j]
  {
    var t2 := SetColumn(t, "doy", CalendarColumn(t.rows, doy));
    assert AddCalendar(t, doy, hod).rows[i].vals[j] == t2.rows[i].vals[j];
  }

  /** With `doy` and `hod` new, positions `p` and `p + 1` hold the calendar of the row's timestamp. */
  lemma CalendarValues(t: Table, doy: int -> nat, hod: int -> nat, i: nat, p: nat)
    requires WellFormed(t) && "doy" !in t.cols && "hod" !in t.cols && i < |t.rows| && p == |t.cols|
    ensures p + 1 < |AddCalendar(t, doy, hod).rows[i].vals|
    ensures AddCalendar(t, doy, hod).rows[i].vals[p] == Some(doy(t.rows[i].ts) as real)
    ensures AddCalendar(t, doy, hod).rows[i].vals[p + 1] == Some(hod(t.rows[i].ts) as real)
  {
    var t2 := SetColumn(t, "doy", CalendarColumn(t.rows, doy));
    var r := SetColumn(t2, "hod", CalendarColumn(t2.rows, hod));
    assert r == AddCalendar(t, doy, hod);
    IndexOfAt(t2.cols, "doy", p);
    IndexOfAt(r.cols, "hod", p + 1);
    assert r.rows[i].vals[p] == t2.rows[i].vals[p];
  }

  /** The derived columns of a table whose derived names, `doy` and `hod` are all new. */
  predicate FreshFeatures(g: Table, target: string, lags: seq<nat>, rolls: seq<nat>) {
    FreshNames(g.cols, FeatureNames(g.cols, target, lags, rolls))
  }

  /** With fresh names: the derivation appends one column per spec, and the calendar appends two more. */
  lemma FreshLayout(g: Table, target: string, lags: seq<nat>, rolls: seq<nat>, doy: int -> nat, hod: int -> nat)
    requires WellFormed(g) && Positive(rolls) && FreshFeatures(g, target, lags, rolls)
    ensures SourcesIn(g.cols, Specs(g.cols, target, lags, rolls))
    ensures FreshSpecs(g.cols, Specs(g.cols, target, lags, rolls))
    ensures Derivation(g, target, lags, rolls) == AddDerived(SortRows(g), Specs(g.cols, target, lags, rolls))
    ensures Derivation(g, target, lags, rolls).cols == g.cols + Names(Specs(g.cols, target, lags, rolls))
    ensures "doy" !in Derivation(g, target, lags, rolls).cols && "hod" !in Derivation(g, target, lags, rolls).cols
    ensures MakeFeatures(g, target, lags, rolls, doy, hod) == AddCalendar(Derivation(g, target, lags, rolls), doy, hod)
    ensures MakeFeatures(g, target, lags, rolls, doy, hod).cols == g.cols + FeatureNames(g.cols, target, lags, rolls)
  {
    var specs := Specs(g.cols, target, lags, rolls);
    SpecsWellFormed(g.cols, target, lags, rolls);
    var names := FeatureNames(g.cols, target, lags, rolls);
    assert names == Names(specs) + ["doy", "hod"];
    ColsAfterFresh(g.cols, names);
    assert FreshSpecs(g.cols, specs) by {
      forall k | 0 <= k < |specs| ensures specs[k].name == names[k] {
      }
    }
    FreshSpecsNames(g.cols, specs);
    ColsAfterFresh(g.cols, Names(specs));
    assert "doy" == names[|specs|] && "hod" == names[|specs| + 1];
    assert "doy" !in Names(specs) && "hod" !in Names(specs) by {
      forall m | 0 <= m < |specs| ensures Names(specs)[m] != "doy" && Names(specs)[m] != "hod" {
        assert names[m] != names[|specs|] && names[m] != names[|specs| + 1];
      }
    }
  }

  /** With fresh names, the columns of the input keep their cells (in ts order). */
  lemma FeatureKeeps(g: Table, target: string, lags: seq<nat>, rolls: seq<nat>, doy: int -> nat, hod: int -> nat, i: nat, j: nat)
    requires WellFormed(g) && Positive(rolls) && FreshFeatures(g, target, lags, rolls)
    requires i < |g.rows| && j < |g.cols|
    ensures MakeFeatures(g, target, lags, rolls, doy, hod).cols == g.cols + FeatureNames(g.cols, target, lags, rolls)
    ensures MakeFeatures(g, target, lags, rolls, doy, hod).rows[i].vals[j] == SortRows(g).rows[i].vals[j]
  {
    FreshLayout(g, target, lags, rolls, doy, hod);
    var t := Derivation(g, target, lags, rolls);
    AddDerivedKeeps(SortRows(g), Specs(g.cols, target, lags, rolls));
    CalendarKeeps(t, doy, hod, i, j);
  }

  /** With fresh names, `doy` and `hod` are the last two columns and hold the calendar of the row's timestamp. */
  lemma FeatureCalendar(g: Table, target: string, lags: seq<nat>, rolls: seq<nat>, doy: int -> nat, hod: int -> nat, i: nat, p: nat)
    requires WellFormed(g) && Positive(rolls) && FreshFeatures(g, target, lags, rolls)
    requires i < |g.rows| && p == |g.cols| + |Specs(g.cols, target, lags, rolls)|
    ensures MakeFeatures(g, target, lags, rolls, doy, hod).cols == g.cols + FeatureNames(g.cols, target, lags, rolls)
    ensures MakeFeatures(g, target, lags, rolls, doy, hod).rows[i].vals[p] == Some(doy(SortRows(g).rows[i].ts) as real)
    ensures MakeFeatures(g, target, lags, rolls, doy, hod).rows[i].vals[p + 1] == Some(hod(SortRows(g).rows[i].ts) as real)
  {
    FreshLayout(g, target, lags, rolls, doy, hod);
    var t := Derivation(g, target, lags, rolls);
    CalendarValues(t, doy, hod, i, p);
  }

  /** With fresh names, the `k`-th derived column holds that spec applied to the sorted source column. */
  lemma FeatureValue(g: Table, target: string, lags: seq<nat>, rolls: seq<nat>, doy: int -> nat, hod: int -> nat, k: nat, i: nat, p: nat)
    requires WellFormed(g) && Positive(rolls) && FreshFeatures(g, target, lags, rolls)
    requires k < |Specs(g.cols, target, lags, rolls)| && i < |g.rows| && p == |g.cols| + k
    ensures WellFormedSpec(g.cols, Specs(g.cols, target, lags, rolls)[k])
    ensures MakeFeatures(g, target, lags, rolls, doy, hod).cols == g.cols + FeatureNames(g.cols, target, lags, rolls)
    ensures MakeFeatures(g, target, lags, rolls, doy, hod).rows[i].vals[p] == DerivedColumn(SortRows(g), Specs(g.cols, target, lags, rolls)[k])[i]
  {
    FreshLayout(g, target, lags, rolls, doy, hod);
    var specs := Specs(g.cols, target, lags, rolls);
    var t := Derivation(g, target, lags, rolls);
    AddDerivedValue(SortRows(g), specs, k, i, p);
    CalendarKeeps(t, doy, hod, i, p);
  }

  /** With fresh names, the column named after the `k`-th spec sits at position `p == |g.cols| + k`. */
  lemma FeatureColumnAt(g: Table, target: string, lags: seq<nat>, rolls: seq<nat>, doy: int -> nat, hod: int -> nat, k: nat, i: nat, p: nat)
    requires WellFormed(g) && Positive(rolls) && FreshFeatures(g, target, lags, rolls)
    requires k < |Specs(g.cols, target, lags, rolls)| && i < |g.rows| && p == |g.cols| + k
    ensures WellFormedSpec(g.cols, Specs(g.cols, target, lags, rolls)[k])
    ensures IndexOf(MakeFeatures(g, target, lags, rolls, doy, hod).cols, Specs(g.cols, target, lags, rolls)[k].name) == Some(p)
    ensures MakeFeatures(g, target, lags, rolls, doy, hod).rows[i].vals[p] == DerivedColumn(SortRows(g), Specs(g.cols, target, lags, rolls)[k])[i]
  {
    FeatureValue(g, target, lags, rolls, doy, hod, k, i, p);
    var names := FeatureNames(g.cols, target, lags, rolls);
    IndexOfFresh(g.cols, names, k, p);
    assert names[k] == Specs(g.cols, target, lags, rolls)[k].name;
  }

  /** A lag column at row `i`: missing on the first `l` rows, else the source `l` rows earlier. */
  lemma DerivedLagAt(t: Table, d: Derived, i: nat, l: nat, j: nat)
    requires WellFormed(t) && d.agg == LagBy(l) && IndexOf(t.cols, d.source) == Some(j) && i < |t.rows|
    ensures WellFormedSpec(t.cols, d)
    ensures DerivedColumn(t, d)[i] == if i < l then None else t.rows[i - l].vals[j]
  {
    var col := ColumnOf(t.rows, j);
    LagAt(col, l, i);
  }

  /** With fresh names, a lag spec's column holds the sorted source `l` rows earlier. */
  lemma FeatureLagAt(g: Table, target: string, lags: seq<nat>, rolls: seq<nat>, doy: int -> nat, hod: int -> nat, k: nat, i: nat, p: nat, l: nat, j: nat)
    requires WellFormed(g) && Positive(rolls) && FreshFeatures(g, target, lags, rolls)
    requires k < |Specs(g.cols, target, lags, rolls)| && i < |g.rows| && p == |g.cols| + k
    requires Specs(g.cols, target, lags, rolls)[k].agg == LagBy(l)
    requires IndexOf(g.cols, Specs(g.cols, target, lags, rolls)[k].source) == Some(j)
    ensures IndexOf(MakeFeatures(g, target, lags, rolls, doy, hod).cols, Specs(g.cols, target, lags, rolls)[k].name) == Some(p)
    ensures MakeFeatures(g, target, lags, rolls, doy, hod).rows[i].vals[p] == if i < l then None else SortRows(g).rows[i - l].vals[j]
  {
    var d := Specs(g.cols, target, lags, rolls)[k];
    var sorted := SortRows(g);
    FeatureColumnAt(g, target, lags, rolls, doy, hod, k, i, p);
    assert sorted.cols == g.cols;
    DerivedLagAt(sorted, d, i, l, j);
  }

  /**
   * The column named `{prefix}_lag{l}` holds, at row `i` in ts order, the
   * source column's value at row `i - l`, and is missing on the first `l` rows.
   */
  lemma LagColumn(g: Table, target: string, lags: seq<nat>, rolls: seq<nat>, doy: int -> nat, hod: int -> nat, s: Source, l: nat, i: nat)
    requires WellFormed(g) && Positive(rolls) && FreshFeatures(g, target, lags, rolls)
    requires s in Sources(target) && s.col in g.cols && l in lags && i < |g.rows|
    ensures Cell(MakeFeatures(g, target, lags, rolls, doy, hod), LagName(s, l), i)
      == if i < l then Some(None) else Cell(SortRows(g), s.col, i - l)
  {
    var specs := Specs(g.cols, target, lags, rolls);
    SpecsFollowSources(g.cols, target, lags, rolls, s);
    var k :| 0 <= k < |specs| && specs[k] == Derived(LagName(s, l), s.col, LagBy(l));
    var p := |g.cols| + k;
    var j := IndexOf(g.cols, s.col).value;
    FeatureLagAt(g, target, lags, rolls, doy, hod, k, i, p, l, j);
    assert SortRows(g).cols == g.cols;
  }
}

=== FILE: frame.dfy ===
/**
 * The tabular data model shared by every stage: a table is a list of column
 * names and a list of rows; each row is keyed by its station id and its
 * timestamp (in minutes) and holds one optional real per column, `None`
 * being pandas' NaN.
 */
module Frame {
  import opened Wrappers
  import opened Strings
  import opened Seqs

  type Value = Option<real>

  datatype Row = Row(station: string, ts: int, vals: seq<Value>)

  datatype Table = Table(cols: seq<string>, rows: seq<Row>)

  predicate RowsFit(rows: seq<Row>, width: nat) {
    forall i :: 0 <= i < |rows| ==> |rows[i].vals| == width
  }

  predicate WellFormed(t: Table) {
    RowsFit(t.rows, |t.cols|)
  }

  function Missing(n: nat): (r: seq<Value>)
    ensures |r| == n
    ensures forall k :: 0 <= k < n ==> r[k] == None
  {
    seq(n, k => None)
  }

  /** Position of the first column called `name`, if any. */
  function IndexOf(cols: seq<string>, name: string): (r: Option<nat>)
    ensures r.None? <==> name !in cols
    ensures r.Some? ==> r.value < |cols| && cols[r.value] == name && name !in cols[..r.value]
    decreases |cols|
  {
    if |cols| == 0 then None
    else if cols[0] == name then Some(0)
    else
      var r := IndexOf(cols[1..], name);
      assert cols == [cols[0]] + cols[1..];
      if r.None? then None
      else
        assert cols[..r.value + 1] == [cols[0]] + cols[1..][..r.value];
        Some(r.value + 1)
  }

  /** `t.loc[i, name]`: the cell of row `i` in column `name`, or `None` if there is no such row or column. */
  function Cell(t: Table, name: string, i: nat): (v: Option<Value>)
    requires WellFormed(t)
    ensures v.Some? <==> name in t.cols && i < |t.rows|
  {
    match IndexOf(t.cols, name)
    case None => None
    case Some(j) => if i < |t.rows| then Some(t.rows[i].vals[j]) else None
  }

  /** Column `j` of `rows`, top to bottom. */
  function ColumnOf(rows: seq<Row>, j: nat): (c: seq<Value>)
    requires forall i :: 0 <= i < |rows| ==> j < |rows[i].vals|
    ensures |c| == |rows|
  {
    seq(|rows|, i requires 0 <= i < |rows| => rows[i].vals[j])
  }

  /**
   * pandas `df[names]` on one row: the values of the named columns in the
   * order of `names`; `None` (the KeyError) as soon as one name is not a column.
   */
  function Select(cols: seq<string>, vals: seq<Value>, names: seq<string>): (r: Option<seq<Value>>)
    requires |vals| == |cols|
    ensures r.Some? <==> forall k :: 0 <= k < |names| ==> names[k] in cols
    ensures r.Some? ==> |r.value| == |names|
    ensures r.Some? ==> forall k :: 0 <= k < |names| ==> r.value[k] == vals[IndexOf(cols, names[k]).value]
    decreases |names|
  {
    if |names| == 0 then Some([])
    else
      match IndexOf(cols, names[0])
      case None => None
      case Some(j) =>
        match Select(cols, vals, names[1..])
        case None => None
        case Some(rest) => Some([vals[j]] + rest)
  }

  /** The rows of one station, in their original order (`df[df.station_id == sid]`). */
  function StationRows(rows: seq<Row>, sid: string): (r: seq<Row>)
    ensures |r| <= |rows|
    ensures forall i :: 0 <= i < |r| ==> r[i].station == sid && r[i] in rows
    ensures forall i :: 0 <= i < |rows| && rows[i].station == sid ==> rows[i] in r
    decreases |rows|
  {
    if |rows| == 0 then []
    else
      var rest := StationRows(rows[1..], sid);
      assert forall i :: 1 <= i < |rows| ==> rows[i] == rows[1..][i - 1];
      if rows[0].station == sid then [rows[0]] + rest else rest
  }

  lemma StationRowsFit(rows: seq<Row>, sid: string, width: nat)
    requires RowsFit(rows, width)
    ensures RowsFit(StationRows(rows, sid), width)
  {
    var r := StationRows(rows, sid);
    forall i | 0 <= i < |r|
      ensures |r[i].vals| == width
    {
      assert r[i] in rows;
    }
  }

  lemma {:induction false} StationRowsAppend(a: seq<Row>, b: seq<Row>, sid: string)
    ensures StationRows(a + b, sid) == StationRows(a, sid) + StationRows(b, sid)
    decreases |a|
  {
    if |a| == 0 {
      assert a + b == b;
    } else {
      assert (a + b)[1..] == a[1..] + b;
      StationRowsAppend(a[1..], b, sid);
    }
  }

  lemma {:induction false} StationRowsAll(rows: seq<Row>, sid: string)
    requires forall i :: 0 <= i < |rows| ==> rows[i].station == sid
    ensures StationRows(rows, sid) == rows
    decreases |rows|
  {
    if |rows| > 0 {
      StationRowsAll(rows[1..], sid);
    }
  }

  lemma {:induction false} StationRowsNone(rows: seq<Row>, sid: string)
    requires forall i :: 0 <= i < |rows| ==> rows[i].station != sid
    ensures StationRows(rows, sid) == []
    decreases |rows|
  {
    if |rows| > 0 {
      StationRowsNone(rows[1..], sid);
    }
  }

  /** A station appears in `rows` exactly when its selection is non-empty. */
  lemma StationPresent(rows: seq<Row>, sid: string)
    ensures (exists i :: 0 <= i < |rows| && rows[i].station == sid) <==> |StationRows(rows, sid)| > 0
  {
    var r := StationRows(rows, sid);
    if |r| > 0 {
      assert r[0] in rows;
    }
  }

  function StationColumn(rows: seq<Row>): (r: seq<string>)
    ensures |r| == |rows| && forall i :: 0 <= i < |rows| ==> r[i] == rows[i].station
  {
    seq(|rows|, i requires 0 <= i < |rows| => rows[i].station)
  }

  /** The group keys of `groupby('station_id')`: the distinct stations, ascending. */
  function Stations(rows: seq<Row>): (r: seq<string>)
    ensures StrictlySorted(r)
    ensures forall s :: s in r <==> exists i :: 0 <= i < |rows| && rows[i].station == s
  {
    var col := StationColumn(rows);
    assert forall s :: s in col <==> exists i :: 0 <= i < |rows| && rows[i].station == s;
    SortDistinct(col)
  }

  /** `blocks[k]` holds rows of station `sids[k]` only, and no station repeats. */
  predicate Blocked(blocks: seq<seq<Row>>, sids: seq<string>) {
    && |blocks| == |sids|
    && (forall k, i :: 0 <= k < |blocks| && 0 <= i < |blocks[k]| ==> blocks[k][i].station == sids[k])
    && (forall k, m :: 0 <= k < m < |sids| ==> sids[k] != sids[m])
  }

  /** Picking one station out of a concatenation of station blocks gives back its block. */
  lemma {:induction false} StationRowsOfBlocks(blocks: seq<seq<Row>>, sids: seq<string>, sid: string)
    requires Blocked(blocks, sids)
    ensures forall k :: 0 <= k < |sids| && sids[k] == sid ==> StationRows(Flatten(blocks), sid) == blocks[k]
    ensures sid !in sids ==> StationRows(Flatten(blocks), sid) == []
    decreases |blocks|
  {
    if |blocks| > 0 {
      assert Blocked(blocks[1..], sids[1..]);
      StationRowsOfBlocks(blocks[1..], sids[1..], sid);
      StationRowsAppend(blocks[0], Flatten(blocks[1..]), sid);
      if sids[0] == sid {
        StationRowsAll(blocks[0], sid);
        assert sid !in sids[1..];
      } else {
        StationRowsNone(blocks[0], sid);
        forall k | 0 < k < |sids| && sids[k] == sid
          ensures StationRows(Flatten(blocks), sid) == blocks[k]
        {
          assert sids[1..][k - 1] == sid;
        }
      }
    }
  }

  /** Lexicographic order on (station_id, ts); `strict` forbids equal keys. */
  predicate KeyBefore(a: Row, b: Row, strict: bool) {
    StrLt(a.station, b.station) || (a.station == b.station && (if strict then a.ts < b.ts else a.ts <= b.ts))
  }

  predicate OrderedByKey(rows: seq<Row>, strict: bool) {
    forall i, j :: 0 <= i < j < |rows| ==> KeyBefore(rows[i], rows[j], strict)
  }

  predicate TsOrdered(rows: seq<Row>, strict: bool) {
    forall i, j :: 0 <= i < j < |rows| ==> (if strict then rows[i].ts < rows[j].ts else rows[i].ts <= rows[j].ts)
  }

  /** Station blocks in ascending station order, each ordered by ts, concatenate to a key-ordered table. */
  lemma {:induction false} FlattenOrdered(blocks: seq<seq<Row>>, sids: seq<string>, strict: bool)
    requires Blocked(blocks, sids) && StrictlySorted(sids)
    requires forall k :: 0 <= k < |blocks| ==> TsOrdered(blocks[k], strict)
    ensures OrderedByKey(Flatten(blocks), strict)
    decreases |blocks|
  {
    if |blocks| > 0 {
      var tail := Flatten(blocks[1..]);
      assert Blocked(blocks[1..], sids[1..]);
      FlattenOrdered(blocks[1..], sids[1..], strict);
      forall r | r in tail
        ensures StrLt(sids[0], r.station)
      {
        FlattenMember(blocks[1..], r);
        var k :| 0 <= k < |blocks[1..]| && r in blocks[1..][k];
        var i :| 0 <= i < |blocks[k + 1]| && blocks[k + 1][i] == r;
        assert r.station == sids[k + 1];
      }
      var all := blocks[0] + tail;
      forall i, j | 0 <= i < j < |all|
        ensures KeyBefore(all[i], all[j], strict)
      {
        if j < |blocks[0]| {
        } else if i < |blocks[0]| {
          assert all[j] == tail[j - |blocks[0]|];
          assert all[j] in tail;
        } else {
          assert all[i] == tail[i - |blocks[0]|] && all[j] == tail[j - |blocks[0]|];
        }
      }
    }
  }

  function TsKey(r: Row): int {
    r.ts
  }

  /** One block per station, in ascending station order, each block sorted by ts. */
  function SortedBlocks(rows: seq<Row>): (blocks: seq<seq<Row>>)
    ensures Blocked(blocks, Stations(rows))
    ensures forall k :: 0 <= k < |blocks| ==> blocks[k] == SortBy(StationRows(rows, Stations(rows)[k]), TsKey)
    ensures forall k :: 0 <= k < |blocks| ==> TsOrdered(blocks[k], false)
  {
    var sids := Stations(rows);
    var blocks := seq(|sids|, k requires 0 <= k < |sids| => SortBy(StationRows(rows, sids[k]), TsKey));
    forall k, i | 0 <= k < |blocks| && 0 <= i < |blocks[k]|
      ensures blocks[k][i].station == sids[k]
    {
      var b := StationRows(rows, sids[k]);
      assert blocks[k][i] in multiset(b);
    }
    forall k, m | 0 <= k < m < |sids|
      ensures sids[k] != sids[m]
    {
      StrLtIrreflexive(sids[k]);
    }
    blocks
  }

  /**
   * `sort_values(['station_id', 'ts'])`: the stations in ascending order,
   * each station's rows in ascending ts (ties kept in input order).
   */
  function SortByKey(rows: seq<Row>): (r: seq<Row>)
    ensures OrderedByKey(r, false)
    ensures forall sid :: StationRows(r, sid) == SortBy(StationRows(rows, sid), TsKey)
  {
    var sids := Stations(rows);
    var blocks := SortedBlocks(rows);
    FlattenOrdered(blocks, sids, false);
    forall sid
      ensures StationRows(Flatten(blocks), sid) == SortBy(StationRows(rows, sid), TsKey)
    {
      StationRowsOfBlocks(blocks, sids, sid);
      if sid !in sids {
        StationRowsNone(rows, sid);
      }
    }
    Flatten(blocks)
  }

  lemma {:induction false} FlattenFits(blocks: seq<seq<Row>>, width: nat)
    requires forall k :: 0 <= k < |blocks| ==> RowsFit(blocks[k], width)
    ensures RowsFit(Flatten(blocks), width)
    decreases |blocks|
  {
    if |blocks| > 0 {
      FlattenFits(blocks[1..], width);
      var all := Flatten(blocks);
      forall i | 0 <= i < |all|
        ensures |all[i].vals| == width
      {
        if i >= |blocks[0]| {
          assert all[i] == Flatten(blocks[1..])[i - |blocks[0]|];
        }
      }
    }
  }
}

=== FILE: hindcast.dfy ===
/**
 * The per-station hindcast (`hindcast.py`): for every station and horizon
 * with a model directory, the three quantile predictions over the station's
 * whole history, next to the observed target `H` steps later.
 */
module Hindcast {
  import opened Wrappers
  import opened Strings
  import opened Frame
  import opened Training

  /** Minutes per raster step: `horizon_minutes = 15 * horizon_steps`. */
  const StepMinutes: nat := 15

  /** One row of a hindcast file. */
  datatype Record = Record(ts: int, station: string, steps: nat, minutes: nat, p10: real, p50: real, p90: real, yTrue: real)

  /** One written hindcast file: its stem (`hindcast_{sid}_{H}`) and its rows. */
  datatype HindcastFile = HindcastFile(stem: string, sid: string, h: nat, records: seq<Record>)

  datatype HindcastError = MissingColumn(name: string)

  /** The stem of the file written for station `sid` at horizon `h`. */
  function FileStem(sid: string, h: nat): string {
    "hindcast_" + sid + "_" + NatToString(h)
  }

  /** The first of `names` that is not a column: the KeyError `g[feats]` raises. */
  function FirstMissing(cols: seq<string>, names: seq<string>): (r: Option<string>)
    ensures r.None? <==> forall k :: 0 <= k < |names| ==> names[k] in cols
    ensures r.Some? ==> r.value in names && r.value !in cols
    decreases |names|
  {
    if |names| == 0 then None
    else if names[0] !in cols then Some(names[0])
    else FirstMissing(cols, names[1..])
  }

  /** The hindcast row for position `p` of the station, whose target `h` rows later is present. */
  function RecordAt(cols: seq<string>, g: seq<Row>, sid: string, h: nat, j: nat, b: Bundle, predict: Predictor, p: nat): Record
    requires RowsFit(g, |cols|) && j < |cols| && p + h < |g| && g[p + h].vals[j].Some?
    requires forall k :: 0 <= k < |b.meta.features| ==> b.meta.features[k] in cols
  {
    var x := Inputs(cols, b.meta.features, g[p]).value;
    Record(g[p].ts, sid, h, h * StepMinutes, predict(b.p10, x), predict(b.p50, x), predict(b.p90, x), g[p + h].vals[j].value)
  }

  /**
   * One station at one horizon: select the metadata's features (a missing
   * one is fatal), shift the target up by `h` for `y_true`, predict every
   * row, and keep the rows whose `y_true` exists.
   */
  function StationHindcast(t: Table, sid: string, h: nat, target: string, b: Bundle, predict: Predictor): (r: Result<seq<Record>, HindcastError>)
    requires WellFormed(t)
    ensures r.Failure? <==> FirstMissing(t.cols, b.meta.features).Some? || target !in t.cols
  {
    match FirstMissing(t.cols, b.meta.features)
    case Some(name) => Failure(MissingColumn(name))
    case None =>
      match IndexOf(t.cols, target)
      case None => Failure(MissingColumn(target))
      case Some(j) =>
        StationRowsFit(t.rows, sid, |t.cols|);
        Success(Records(t.cols, StationRows(t.rows, sid), sid, h, j, b, predict))
  }

  /** The predicted rows of one station, keeping those whose `y_true` exists. */
  function Records(cols: seq<string>, g: seq<Row>, sid: string, h: nat, j: nat, b: Bundle, predict: Predictor): (r: seq<Record>)
    requires RowsFit(g, |cols|) && j < |cols|
    requires forall k :: 0 <= k < |b.meta.features| ==> b.meta.features[k] in cols
    ensures |r| == |SomePositions(StationLabels(g, j, h))|
  {
    var pos := SomePositions(StationLabels(g, j, h));
    seq(|pos|, k requires 0 <= k < |pos| => RecordAt(cols, g, sid, h, j, b, predict, pos[k]))
  }

  /**
   * The hindcast rows are the per-station training rows: the same rows in the
   * same order, with `y_true` equal to the label the model was trained on;
   * every row names the station and the horizon in steps and in minutes, and
   * the predictions are the three models' outputs on the metadata's features,
   * passed through without any ordering between them.
   */
  lemma HindcastMatchesTraining(t: Table, sid: string, h: nat, target: string, b: Bundle, predict: Predictor)
    requires WellFormed(t) && target in t.cols
    requires StationHindcast(t, sid, h, target, b, predict).Success?
    ensures var recs := StationHindcast(t, sid, h, target, b, predict).value;
      var s := StationSamples(t, sid, IndexOf(t.cols, target).value, h);
      && |recs| == |s|
      && forall k :: 0 <= k < |recs| ==>
           && recs[k].ts == s[k].row.ts && recs[k].yTrue == s[k].y
           && recs[k].station == sid && recs[k].steps == h && recs[k].minutes == StepMinutes * h
           && Inputs(t.cols, b.meta.features, s[k].row).Some?
           && recs[k].p10 == predict(b.p10, Inputs(t.cols, b.meta.features, s[k].row).value)
           && recs[k].p50 == predict(b.p50, Inputs(t.cols, b.meta.features, s[k].row).value)
           && recs[k].p90 == predict(b.p90, Inputs(t.cols, b.meta.features, s[k].row).value)
  {
    StationRowsFit(t.rows, sid, |t.cols|);
  }

  /** A station whose rows are in strictly increasing time gets a hindcast in strictly increasing time. */
  lemma HindcastOrdered(t: Table, sid: string, h: nat, target: string, b: Bundle, predict: Predictor)
    requires WellFormed(t) && TsOrdered(StationRows(t.rows, sid), true)
    requires StationHindcast(t, sid, h, target, b, predict).Success?
    ensures var recs := StationHindcast(t, sid, h, target, b, predict).value;
      forall k, m :: 0 <= k < m < |recs| ==> recs[k].ts < recs[m].ts
  {
    StationRowsFit(t.rows, sid, |t.cols|);
  }

  /** The (station, horizon) pairs that have a model directory, stations outermost. */
  function HindcastScopes(sids: seq<string>, hs: seq<nat>, store: Store): (scopes: seq<(string, nat)>)
    decreases |sids|
  {
    if |sids| == 0 then []
    else HorizonScopes(sids[0], hs, store) + HindcastScopes(sids[1..], hs, store)
  }

  function HorizonScopes(sid: string, hs: seq<nat>, store: Store): (scopes: seq<(string, nat)>)
    decreases |hs|
  {
    if |hs| == 0 then []
    else
      (if ArtifactDir(StationScope(sid, hs[0])) in store then [(sid, hs[0])] else [])
      + HorizonScopes(sid, hs[1..], store)
  }

  /** A pair is hindcast exactly when its station and horizon were asked for and its model directory exists. */
  lemma {:induction false} HorizonScopesIff(sid: string, hs: seq<nat>, store: Store, x: (string, nat))
    ensures x in HorizonScopes(sid, hs, store) <==> x.0 == sid && x.1 in hs && ArtifactDir(StationScope(sid, x.1)) in store
    decreases |hs|
  {
    if |hs| > 0 {
      HorizonScopesIff(sid, hs[1..], store, x);
      assert forall y :: y in hs <==> y == hs[0] || y in hs[1..];
    }
  }

  lemma {:induction false} HindcastScopesIff(sids: seq<string>, hs: seq<nat>, store: Store, x: (string, nat))
    ensures x in HindcastScopes(sids, hs, store) <==> x.0 in sids && x.1 in hs && ArtifactDir(StationScope(x.0, x.1)) in store
    decreases |sids|
  {
    if |sids| > 0 {
      HindcastScopesIff(sids[1..], hs, store, x);
      HorizonScopesIff(sids[0], hs, store, x);
      assert forall y :: y in sids <==> y == sids[0] || y in sids[1..];
    }
  }

  /** The hindcast of `scope` cannot be computed: its model asks for a missing feature, or there is no target column. */
  predicate ScopeBlocked(cols: seq<string>, target: string, store: Store, scope: (string, nat)) {
    var dir := ArtifactDir(StationScope(scope.0, scope.1));
    dir in store && (FirstMissing(cols, store[dir].meta.features).Some? || target !in cols)
  }

  /** The files of the scopes, in order; the first failing scope aborts the run. */
  function HindcastAll(t: Table, scopes: seq<(string, nat)>, target: string, store: Store, predict: Predictor): (r: Result<seq<HindcastFile>, HindcastError>)
    requires WellFormed(t)
    requires forall k :: 0 <= k < |scopes| ==> ArtifactDir(StationScope(scopes[k].0, scopes[k].1)) in store
    ensures r.Failure? <==> exists k :: 0 <= k < |scopes| && ScopeBlocked(t.cols, target, store, scopes[k])
    ensures r.Success? ==> |r.value| == |scopes|
    ensures r.Success? ==> forall k :: 0 <= k < |scopes| ==>
      && r.value[k].sid == scopes[k].0 && r.value[k].h == scopes[k].1
      && r.value[k].stem == FileStem(scopes[k].0, scopes[k].1)
      && StationHindcast(t, scopes[k].0, scopes[k].1, target, store[ArtifactDir(StationScope(scopes[k].0, scopes[k].1))], predict)
         == Success(r.value[k].records)
    decreases |scopes|
  {
    if |scopes| == 0 then Success([])
    else
      var (sid, h) := scopes[0];
      var b := store[ArtifactDir(StationScope(sid, h))];
      assert forall k :: 1 <= k < |scopes| ==> scopes[1..][k - 1] == scopes[k];
      match StationHindcast(t, sid, h, target, b, predict)
      case Failure(e) => Failure(e)
      case Success(recs) =>
        match HindcastAll(t, scopes[1..], target, store, predict)
        case Failure(e) => Failure(e)
        case Success(rest) => Success([HindcastFile(FileStem(sid, h), sid, h, recs)] + rest)
  }

  lemma HindcastScopesStored(sids: seq<string>, hs: seq<nat>, store: Store)
    ensures forall k :: 0 <= k < |HindcastScopes(sids, hs, store)| ==>
      ArtifactDir(StationScope(HindcastScopes(sids, hs, store)[k].0, HindcastScopes(sids, hs, store)[k].1)) in store
  {
    forall k | 0 <= k < |HindcastScopes(sids, hs, store)|
      ensures ArtifactDir(StationScope(HindcastScopes(sids, hs, store)[k].0, HindcastScopes(sids, hs, store)[k].1)) in store
    {
      HindcastScopesIff(sids, hs, store, HindcastScopes(sids, hs, store)[k]);
    }
  }

  /**
   * `run_hindcast`: the table sorted by station and time, its stations in
   * order, every requested horizon of each; pairs without a model directory
   * are skipped. The result lists the written files in that order.
   */
  function RunHindcast(t: Table, hs: seq<nat>, target: string, store: Store, predict: Predictor): (r: Result<seq<HindcastFile>, HindcastError>)
    requires WellFormed(t)
    ensures var scopes := HindcastScopes(Stations(t.rows), hs, store);
      r.Failure? <==> exists k :: 0 <= k < |scopes| && ScopeBlocked(t.cols, target, store, scopes[k])
    ensures var scopes := HindcastScopes(Stations(t.rows), hs, store);
      r.Success? ==> |r.value| == |scopes| && forall k :: 0 <= k < |scopes| ==>
        && r.value[k].sid == scopes[k].0 && r.value[k].h == scopes[k].1
        && r.value[k].stem == FileStem(scopes[k].0, scopes[k].1)
        && ArtifactDir(StationScope(scopes[k].0, scopes[k].1)) in store
        && StationHindcast(SortedInput(t), scopes[k].0, scopes[k].1, target, store[ArtifactDir(StationScope(scopes[k].0, scopes[k].1))], predict)
           == Success(r.value[k].records)
  {
    var u := SortedInput(t);
    StationOrderSorted(t);
    var sids := StationOrder(u.rows);
    assert sids == Stations(t.rows);
    var scopes := HindcastScopes(sids, hs, store);
    HindcastScopesStored(sids, hs, store);
    HindcastAll(u, scopes, target, store, predict)
  }
}

=== FILE: load.dfy ===
/**
 * Raster alignment and exogenous merging (src/etl/load.py).
 *
 * `load_raw` concatenates the raw readings, sorts them by (station_id, ts)
 * and puts each station onto a fixed raster with `asfreq`: one row per
 * raster point from the station's earliest to its latest reading. A raster
 * point that has a reading keeps it; one that has none becomes a row of
 * missing values. `merge_exogenous` left-joins every enabled auxiliary
 * source whose file exists.
 */
module Load {
  import opened Wrappers
  import opened Strings
  import opened Seqs
  import opened Frame

  datatype LoadError =
    | NoInputFiles
    | DuplicateTimestamp(station: string, ts: int)

  // ---------------------------------------------------------------- concat

  /** The values of one row re-laid onto the columns `dst`, NaN where `src` lacks one. */
  function Reindex(src: seq<string>, vals: seq<Value>, dst: seq<string>): (r: seq<Value>)
    requires |vals| == |src|
    ensures |r| == |dst|
    ensures forall k :: 0 <= k < |dst| ==> r[k] == (if dst[k] in src then vals[IndexOf(src, dst[k]).value] else None)
  {
    seq(|dst|, k requires 0 <= k < |dst| =>
      match IndexOf(src, dst[k])
      case Some(j) => vals[j]
      case None => None)
  }

  /** Every file's column names, file after file. */
  function ColumnList(files: seq<Table>): (all: seq<string>)
    ensures forall c :: c in all <==> exists f :: 0 <= f < |files| && c in files[f].cols
  {
    var ss := seq(|files|, f requires 0 <= f < |files| => files[f].cols);
    forall c
      ensures c in Flatten(ss) <==> exists f :: 0 <= f < |files| && c in files[f].cols
    {
      FlattenMember(ss, c);
      if exists f :: 0 <= f < |files| && c in files[f].cols {
        var f :| 0 <= f < |files| && c in files[f].cols;
        assert c in ss[f];
      }
    }
    Flatten(ss)
  }

  /** The columns of the concatenation: each name once, in order of first appearance across the files. */
  function AllColumns(files: seq<Table>): (cols: seq<string>)
    ensures forall c :: c in cols <==> c in ColumnList(files)
    ensures forall c :: c in cols <==> exists f :: 0 <= f < |files| && c in files[f].cols
    ensures forall i, j :: 0 <= i < j < |cols| ==> cols[i] != cols[j]
    ensures forall i, j :: 0 <= i < j < |cols| ==> FirstIndex(ColumnList(files), cols[i]) < FirstIndex(ColumnList(files), cols[j])
  {
    Unique(ColumnList(files))
  }

  /** The number of rows of all files together. */
  function TotalRows(files: seq<Table>): nat
    decreases |files|
  {
    if |files| == 0 then 0 else |files[0].rows| + TotalRows(files[1..])
  }

  /** Where row `k` of file `f` lands in the concatenation: after every row of the files before it. */
  function Position(files: seq<Table>, f: nat, k: nat): nat
    requires f <= |files|
  {
    TotalRows(files[..f]) + k
  }

  lemma {:induction false} BlocksLength(blocks: seq<seq<Row>>, files: seq<Table>)
    requires |blocks| == |files| && forall f :: 0 <= f < |files| ==> |blocks[f]| == |files[f].rows|
    ensures |Flatten(blocks)| == TotalRows(files)
    decreases |files|
  {
    if |files| > 0 {
      BlocksLength(blocks[1..], files[1..]);
    }
  }

  /** Row `i` of `t` with its values re-laid onto `cols`. */
  function Relaid(t: Table, i: nat, cols: seq<string>): (r: Row)
    requires WellFormed(t) && i < |t.rows|
  {
    Row(t.rows[i].station, t.rows[i].ts, Reindex(t.cols, t.rows[i].vals, cols))
  }

  function RelaidRows(t: Table, cols: seq<string>): (rows: seq<Row>)
    requires WellFormed(t)
    ensures |rows| == |t.rows| && RowsFit(rows, |cols|)
    ensures forall i :: 0 <= i < |rows| ==> rows[i] == Relaid(t, i, cols)
  {
    seq(|t.rows|, i requires 0 <= i < |t.rows| => Relaid(t, i, cols))
  }

  /**
   * `pd.concat(dfs, ignore_index=True)`: the union of the columns in order
   * of first appearance, and every file's rows, file after file, each row
   * re-laid onto the union with NaN under the columns its file lacks.
   */
  function Concat(files: seq<Table>): (t: Table)
    requires forall f :: 0 <= f < |files| ==> WellFormed(files[f])
    ensures WellFormed(t)
    ensures t.cols == AllColumns(files)
    ensures |t.rows| == TotalRows(files)
    ensures forall f, k :: 0 <= f < |files| && 0 <= k < |files[f].rows| ==>
      Position(files, f, k) < |t.rows| && t.rows[Position(files, f, k)] == Relaid(files[f], k, t.cols)
  {
    var cols := AllColumns(files);
    var blocks := seq(|files|, f requires 0 <= f < |files| => RelaidRows(files[f], cols));
    FlattenFits(blocks, |cols|);
    BlocksLength(blocks, files);
    RelaidAt(files, cols, blocks);
    Table(cols, Flatten(blocks))
  }

  /** Row `k` of file `f` sits, re-laid, after the rows of the files before it. */
  lemma RelaidAt(files: seq<Table>, cols: seq<string>, blocks: seq<seq<Row>>)
    requires forall f :: 0 <= f < |files| ==> WellFormed(files[f])
    requires |blocks| == |files| && forall f :: 0 <= f < |files| ==> blocks[f] == RelaidRows(files[f], cols)
    ensures forall f, k :: 0 <= f < |files| && 0 <= k < |files[f].rows| ==>
      Position(files, f, k) < |Flatten(blocks)| && Flatten(blocks)[Position(files, f, k)] == Relaid(files[f], k, cols)
  {
    forall f, k | 0 <= f < |files| && 0 <= k < |files[f].rows|
      ensures Position(files, f, k) < |Flatten(blocks)| && Flatten(blocks)[Position(files, f, k)] == Relaid(files[f], k, cols)
    {
      FlattenAt(blocks, f, k);
      BlocksLength(blocks[..f], files[..f]);
    }
  }

  // ---------------------------------------------------------------- raster

  function MinTs(rows: seq<Row>): (m: int)
    requires |rows| > 0
    ensures exists i :: 0 <= i < |rows| && rows[i].ts == m
    ensures forall i :: 0 <= i < |rows| ==> m <= rows[i].ts
    decreases |rows|
  {
    if |rows| == 1 then rows[0].ts
    else
      var m := MinTs(rows[1..]);
      assert forall i :: 1 <= i < |rows| ==> rows[i] == rows[1..][i - 1];
      if rows[0].ts <= m then rows[0].ts else m
  }

  function MaxTs(rows: seq<Row>): (m: int)
    requires |rows| > 0
    ensures exists i :: 0 <= i < |rows| && rows[i].ts == m
    ensures forall i :: 0 <= i < |rows| ==> rows[i].ts <= m
    decreases |rows|
  {
    if |rows| == 1 then rows[0].ts
    else
      var m := MaxTs(rows[1..]);
      assert forall i :: 1 <= i < |rows| ==> rows[i] == rows[1..][i - 1];
      if rows[0].ts >= m then rows[0].ts else m
  }

  /** The first reading stamped exactly `t`, if any. */
  function ReadingAt(rows: seq<Row>, t: int): (r: Option<Row>)
    ensures r.Some? ==> r.value in rows && r.value.ts == t
    ensures r.None? <==> forall i :: 0 <= i < |rows| ==> rows[i].ts != t
    decreases |rows|
  {
    if |rows| == 0 then None
    else if rows[0].ts == t then Some(rows[0])
    else
      assert forall i :: 1 <= i < |rows| ==> rows[i] == rows[1..][i - 1];
      ReadingAt(rows[1..], t)
  }

  /** A timestamp that occurs twice among the readings, if any (the `reindex` ValueError). */
  function Duplicate(rows: seq<Row>): (r: Option<int>)
    ensures r.None? <==> forall i, j :: 0 <= i < j < |rows| ==> rows[i].ts != rows[j].ts
    ensures r.Some? ==> exists i, j :: 0 <= i < j < |rows| && rows[i].ts == r.value && rows[j].ts == r.value
    decreases |rows|
  {
    if |rows| == 0 then None
    else if ReadingAt(rows[1..], rows[0].ts).Some? then
      var w := ReadingAt(rows[1..], rows[0].ts).value;
      var j :| 0 <= j < |rows[1..]| && rows[1..][j] == w;
      assert rows[j + 1].ts == rows[0].ts;
      Some(rows[0].ts)
    else
      var r := Duplicate(rows[1..]);
      assert forall i :: 1 <= i < |rows| ==> rows[i] == rows[1..][i - 1];
      if r.Some? then
        var i, j :| 0 <= i < j < |rows[1..]| && rows[1..][i].ts == r.value && rows[1..][j].ts == r.value;
        assert rows[i + 1].ts == r.value && rows[j + 1].ts == r.value;
        r
      else r
  }

  /** The number of raster points from `lo` up to at most `hi`. */
  function RasterLength(lo: int, hi: int, step: int): (n: nat)
    requires lo <= hi && step > 0
    ensures n >= 1
    ensures lo + (n - 1) * step <= hi < lo + n * step
  {
    (hi - lo) / step + 1
  }

  function ValuesAt(rows: seq<Row>, t: int, width: nat): seq<Value> {
    match ReadingAt(rows, t)
    case Some(r) => r.vals
    case None => Missing(width)
  }

  lemma MulMonotone(k: int, m: int, step: int)
    requires 0 <= k < m && step > 0
    ensures k * step < m * step
  {
    assert (m - k) * step > 0;
  }

  lemma MulLe(k: int, m: int, step: int)
    requires k <= m && step > 0
    ensures k * step <= m * step
  {
    assert (m - k) * step >= 0;
  }

  lemma DivExact(x: int, step: int)
    requires step > 0 && x % step == 0
    ensures (x / step) * step == x
  {
  }

  lemma MulNext(k: int, step: int)
    ensures (k + 1) * step == k * step + step
  {
  }

  /** The raster points of a non-empty reading set, each with its reading's values or NaNs. */
  function Raster(sid: string, rows: seq<Row>, width: nat, step: int): (out: seq<Row>)
    requires |rows| > 0 && step > 0
    ensures |out| == RasterLength(MinTs(rows), MaxTs(rows), step)
    ensures forall k :: 0 <= k < |out| ==>
      out[k].station == sid && out[k].ts == MinTs(rows) + k * step && out[k].vals == ValuesAt(rows, out[k].ts, width)
  {
    var lo, hi := MinTs(rows), MaxTs(rows);
    seq(RasterLength(lo, hi, step), k requires 0 <= k => Row(sid, lo + k * step, ValuesAt(rows, lo + k * step, width)))
  }

  /** The shape of a raster: from the earliest reading in exact steps, never past the latest. */
  ghost predicate OnRaster(sid: string, rows: seq<Row>, step: int, out: seq<Row>)
    requires |rows| > 0
  {
    && |out| >= 1
    && out[0].ts == MinTs(rows)
    && out[|out| - 1].ts <= MaxTs(rows) < out[|out| - 1].ts + step
    && (forall k :: 0 <= k < |out| ==> out[k].station == sid)
    && (forall k :: 0 <= k && k + 1 < |out| ==> out[k + 1].ts == out[k].ts + step)
    && TsOrdered(out, true)
  }

  /** Every raster row carries the values of the reading at its timestamp, or NaN if there is none. */
  ghost predicate ValuesFromReadings(rows: seq<Row>, width: nat, out: seq<Row>) {
    forall k :: 0 <= k < |out| ==>
      || (exists i :: 0 <= i < |rows| && rows[i].ts == out[k].ts && out[k].vals == rows[i].vals)
      || ((forall i :: 0 <= i < |rows| ==> rows[i].ts != out[k].ts) && out[k].vals == Missing(width))
  }

  /** Every reading stamped on a raster point appears unchanged in the raster. */
  ghost predicate KeepsOnRasterReadings(rows: seq<Row>, step: int, out: seq<Row>)
    requires |rows| > 0 && step > 0
  {
    forall i :: 0 <= i < |rows| && (rows[i].ts - MinTs(rows)) % step == 0 ==>
      exists k :: 0 <= k < |out| && out[k] == Row(out[k].station, rows[i].ts, rows[i].vals)
  }

  lemma RasterShape(sid: string, rows: seq<Row>, width: nat, step: int)
    requires |rows| > 0 && step > 0
    ensures OnRaster(sid, rows, step, Raster(sid, rows, width, step))
  {
    var out := Raster(sid, rows, width, step);
    var lo, n := MinTs(rows), |out|;
    assert out[0].ts == lo;
    assert out[n - 1].ts == lo + (n - 1) * step;
    MulNext(n - 1, step);
    forall k | 0 <= k && k + 1 < n
      ensures out[k + 1].ts == out[k].ts + step
    {
      MulNext(k, step);
    }
    forall k, m | 0 <= k < m < n
      ensures out[k].ts < out[m].ts
    {
      MulMonotone(k, m, step);
    }
  }

  lemma RasterValues(sid: string, rows: seq<Row>, width: nat, step: int)
    requires |rows| > 0 && step > 0
    ensures ValuesFromReadings(rows, width, Raster(sid, rows, width, step))
  {
    var out := Raster(sid, rows, width, step);
    forall k | 0 <= k < |out|
      ensures || (exists i :: 0 <= i < |rows| && rows[i].ts == out[k].ts && out[k].vals == rows[i].vals)
              || ((forall i :: 0 <= i < |rows| ==> rows[i].ts != out[k].ts) && out[k].vals == Missing(width))
    {
      match ReadingAt(rows, out[k].ts)
      case None =>
      case Some(w) =>
        var i :| 0 <= i < |rows| && rows[i] == w;
    }
  }

  lemma RasterKeepsReadings(sid: string, rows: seq<Row>, width: nat, step: int)
    requires |rows| > 0 && step > 0
    requires forall i, j :: 0 <= i < j < |rows| ==> rows[i].ts != rows[j].ts
    ensures KeepsOnRasterReadings(rows, step, Raster(sid, rows, width, step))
  {
    var out := Raster(sid, rows, width, step);
    forall i | 0 <= i < |rows| && (rows[i].ts - MinTs(rows)) % step == 0
      ensures exists k :: 0 <= k < |out| && out[k] == Row(out[k].station, rows[i].ts, rows[i].vals)
    {
      RasterKeepsReading(sid, rows, width, step, i);
    }
  }

  /** The raster position of an on-raster time between the ends. */
  lemma RasterIndex(lo: int, hi: int, step: int, t: int) returns (k: nat)
    requires lo <= t <= hi && step > 0 && (t - lo) % step == 0
    ensures k < RasterLength(lo, hi, step) && lo + k * step == t
  {
    k := (t - lo) / step;
    DivExact(t - lo, step);
    var n := RasterLength(lo, hi, step);
    if k >= n {
      MulLe(n, k, step);
    }
  }

  lemma UniqueTs(rows: seq<Row>, a: nat, b: nat)
    requires a < |rows| && b < |rows| && rows[a].ts == rows[b].ts
    requires forall i, j :: 0 <= i < j < |rows| ==> rows[i].ts != rows[j].ts
    ensures a == b
  {
  }

  lemma RasterKeepsReading(sid: string, rows: seq<Row>, width: nat, step: int, i: nat)
    requires |rows| > 0 && step > 0 && i < |rows|
    requires forall i, j :: 0 <= i < j < |rows| ==> rows[i].ts != rows[j].ts
    requires (rows[i].ts - MinTs(rows)) % step == 0
    ensures var out := Raster(sid, rows, width, step);
      exists k :: 0 <= k < |out| && out[k] == Row(out[k].station, rows[i].ts, rows[i].vals)
  {
    var out := Raster(sid, rows, width, step);
    var k := RasterIndex(MinTs(rows), MaxTs(rows), step, rows[i].ts);
    var w := ReadingAt(rows, rows[i].ts).value;
    var i' :| 0 <= i' < |rows| && rows[i'] == w;
    UniqueTs(rows, i', i);
    assert out[k].vals == rows[i].vals;
  }

  lemma RasterFits(sid: string, rows: seq<Row>, width: nat, step: int)
    requires |rows| > 0 && step > 0
    ensures RowsFit(rows, width) ==> RowsFit(Raster(sid, rows, width, step), width)
  {
    var out := Raster(sid, rows, width, step);
    forall k | 0 <= k < |out| && RowsFit(rows, width)
      ensures |out[k].vals| == width
    {
      match ReadingAt(rows, out[k].ts)
      case None =>
      case Some(w) =>
        var i :| 0 <= i < |rows| && rows[i] == w;
    }
  }

  /**
   * `g.set_index('ts').asfreq(step)` for the readings of one station, with the
   * station id kept on every row: the raster runs from the earliest reading
   * in steps of `step` and stops at the last point not after the latest
   * reading. No reading gives no row; duplicate timestamps make pandas'
   * reindex fail.
   */
  function AsFreq(sid: string, rows: seq<Row>, width: nat, step: int): (r: Result<seq<Row>, LoadError>)
    requires step > 0
    ensures r.Failure? <==> exists i, j :: 0 <= i < j < |rows| && rows[i].ts == rows[j].ts
    ensures r.Failure? ==> r.error.DuplicateTimestamp? && r.error.station == sid
    ensures r.Success? && |rows| == 0 ==> r.value == []
    ensures r.Success? && |rows| > 0 ==>
      && OnRaster(sid, rows, step, r.value)
      && ValuesFromReadings(rows, width, r.value)
      && KeepsOnRasterReadings(rows, step, r.value)
    ensures r.Success? && RowsFit(rows, width) ==> RowsFit(r.value, width)
    ensures r.Success? ==> TsOrdered(r.value, true) && forall k :: 0 <= k < |r.value| ==> r.value[k].station == sid
  {
    match Duplicate(rows)
    case Some(t) => Failure(DuplicateTimestamp(sid, t))
    case None =>
      if |rows| == 0 then Success([])
      else
        RasterShape(sid, rows, width, step);
        RasterValues(sid, rows, width, step);
        RasterKeepsReadings(sid, rows, width, step);
        RasterFits(sid, rows, width, step);
        Success(Raster(sid, rows, width, step))
  }

  /**
   * The station column of `asfreq` as the source computes it: `station_id` is
   * an ordinary column of the group, so `reindex` fills it with NaN on every
   * inserted raster point, exactly as it fills the measurements.
   */
  function AsFreqStationsAsWritten(sid: string, rows: seq<Row>, step: int): (st: seq<Option<string>>)
    requires |rows| > 0 && step > 0
    ensures |st| == RasterLength(MinTs(rows), MaxTs(rows), step)
    ensures forall k :: 0 <= k < |st| ==>
      (st[k].None? <==> forall i :: 0 <= i < |rows| ==> rows[i].ts != MinTs(rows) + k * step)
  {
    var lo, hi := MinTs(rows), MaxTs(rows);
    var n := RasterLength(lo, hi, step);
    seq(n, k requires 0 <= k < n => if ReadingAt(rows, lo + k * step).Some? then Some(sid) else None)
  }

  /**
   * Readings at 0 and 30 min on a 15 min raster: the source's raster row at 15
   * has no station id, so the next stage's `groupby('station_id')` drops it and
   * the station's series is no longer on the raster; the corrected `AsFreq`
   * keeps three rows of the station, 15 min apart.
   */
  lemma GapRowLosesStation()
    ensures var rows := [Row("S", 0, [Some(1.0)]), Row("S", 30, [Some(2.0)])];
      && AsFreqStationsAsWritten("S", rows, 15) == [Some("S"), None, Some("S")]
      && AsFreq("S", rows, 1, 15) == Success([Row("S", 0, [Some(1.0)]), Row("S", 15, [None]), Row("S", 30, [Some(2.0)])])
  {
    var rows := [Row("S", 0, [Some(1.0)]), Row("S", 30, [Some(2.0)])];
    assert MinTs(rows) == 0 && MaxTs(rows) == 30;
    assert RasterLength(0, 30, 15) == 3;
    assert ReadingAt(rows, 0) == Some(rows[0]);
    assert ReadingAt(rows, 15) == None;
    assert ReadingAt(rows, 30) == Some(rows[1]);
    assert Duplicate(rows) == None;
    var out := Raster("S", rows, 1, 15);
    assert out[0].vals == [Some(1.0)];
    assert out[1].vals == [None];
    assert out[2].vals == [Some(2.0)];
    assert out == [Row("S", 0, [Some(1.0)]), Row("S", 15, [None]), Row("S", 30, [Some(2.0)])];
  }

  predicate StationFails(rows: seq<Row>, sid: string, width: nat, step: int)
    requires step > 0
  {
    AsFreq(sid, StationRows(rows, sid), width, step).Failure?
  }

  /** Rasters every station in turn; the first station with a duplicate timestamp aborts. */
  function RasterStations(sids: seq<string>, rows: seq<Row>, width: nat, step: int): (r: Result<seq<seq<Row>>, LoadError>)
    requires step > 0
    ensures r.Success? ==> |r.value| == |sids|
    decreases |sids|
  {
    if |sids| == 0 then Success([])
    else
      match AsFreq(sids[0], StationRows(rows, sids[0]), width, step)
      case Failure(e) => Failure(e)
      case Success(block) =>
        var rest := RasterStations(sids[1..], rows, width, step);
        if rest.Failure? then Failure(rest.error) else Success([block] + rest.value)
  }

  /** A successful rastering is the first station's series followed by the rest's. */
  lemma RasterStationsCons(sids: seq<string>, rows: seq<Row>, width: nat, step: int)
    requires step > 0 && |sids| > 0 && RasterStations(sids, rows, width, step).Success?
    ensures AsFreq(sids[0], StationRows(rows, sids[0]), width, step) == Success(RasterStations(sids, rows, width, step).value[0])
    ensures RasterStations(sids[1..], rows, width, step).Success?
    ensures RasterStations(sids, rows, width, step).value[1..] == RasterStations(sids[1..], rows, width, step).value
  {
    var head := AsFreq(sids[0], StationRows(rows, sids[0]), width, step);
    var rest := RasterStations(sids[1..], rows, width, step);
    assert head.Success? && rest.Success?;
    assert RasterStations(sids, rows, width, step).value == [head.value] + rest.value;
  }

  /** On success, block `k` is the rastered series of station `sids[k]`. */
  lemma {:induction false} RasterStationsBlock(sids: seq<string>, rows: seq<Row>, width: nat, step: int, k: nat)
    requires step > 0 && k < |sids| && RasterStations(sids, rows, width, step).Success?
    ensures AsFreq(sids[k], StationRows(rows, sids[k]), width, step) == Success(RasterStations(sids, rows, width, step).value[k])
    decreases k
  {
    RasterStationsCons(sids, rows, width, step);
    if k > 0 {
      var blocks := RasterStations(sids, rows, width, step).value;
      var rest := RasterStations(sids[1..], rows, width, step).value;
      RasterStationsBlock(sids[1..], rows, width, step, k - 1);
      assert sids[1..][k - 1] == sids[k];
      assert blocks[k] == blocks[1..][k - 1] == rest[k - 1];
    }
  }

  /** On success every block holds its own station's rows only, in strictly increasing time. */
  lemma RasterBlocks(sids: seq<string>, rows: seq<Row>, width: nat, step: int)
    requires step > 0 && RasterStations(sids, rows, width, step).Success?
    ensures forall k, i :: 0 <= k < |sids| && 0 <= i < |RasterStations(sids, rows, width, step).value[k]| ==>
      RasterStations(sids, rows, width, step).value[k][i].station == sids[k]
    ensures forall k :: 0 <= k < |sids| ==> TsOrdered(RasterStations(sids, rows, width, step).value[k], true)
  {
    forall k | 0 <= k < |sids|
      ensures TsOrdered(RasterStations(sids, rows, width, step).value[k], true)
      ensures forall i :: 0 <= i < |RasterStations(sids, rows, width, step).value[k]| ==>
        RasterStations(sids, rows, width, step).value[k][i].station == sids[k]
    {
      RasterStationsBlock(sids, rows, width, step, k);
    }
  }

  /** The rastering aborts exactly when some station has a duplicate timestamp. */
  lemma {:induction false} RasterStationsFails(sids: seq<string>, rows: seq<Row>, width: nat, step: int)
    requires step > 0
    ensures RasterStations(sids, rows, width, step).Failure? <==> exists sid :: sid in sids && StationFails(rows, sid, width, step)
    decreases |sids|
  {
    if |sids| > 0 {
      RasterStationsFails(sids[1..], rows, width, step);
      if StationFails(rows, sids[0], width, step) {
        assert sids[0] in sids;
      } else {
        assert forall sid :: sid in sids ==> sid == sids[0] || sid in sids[1..];
        if exists sid :: sid in sids[1..] && StationFails(rows, sid, width, step) {
          var sid :| sid in sids[1..] && StationFails(rows, sid, width, step);
          assert sid in sids;
        }
      }
    }
  }

  /**
   * `load_raw`: concatenate the raw files, then raster every station, the
   * stations in ascending order. No input file at all is the fatal
   * "No CSV files found" exit.
   */
  function LoadRaw(files: seq<Table>, step: int): (r: Result<Table, LoadError>)
    requires step > 0
    requires forall f :: 0 <= f < |files| ==> WellFormed(files[f])
    ensures |files| == 0 ==> r == Failure(NoInputFiles)
    ensures r.Success? ==>
      && WellFormed(r.value) && r.value.cols == Concat(files).cols
      && OrderedByKey(r.value.rows, true)
      && forall sid :: AsFreq(sid, StationRows(Concat(files).rows, sid), |Concat(files).cols|, step)
                       == Success(StationRows(r.value.rows, sid))
    ensures |files| > 0 ==> (r.Failure? <==> exists sid :: (sid in Stations(Concat(files).rows) &&
      StationFails(Concat(files).rows, sid, |Concat(files).cols|, step)))
  {
    if |files| == 0 then Failure(NoInputFiles)
    else
      var raw := Concat(files);
      var width := |raw.cols|;
      var sids := Stations(raw.rows);
      RasterStationsFails(sids, raw.rows, width, step);
      match RasterStations(sids, raw.rows, width, step)
      case Failure(e) => Failure(e)
      case Success(blocks) =>
        RasterBlocks(sids, raw.rows, width, step);
        assert Blocked(blocks, sids) by {
          forall k, m | 0 <= k < m < |sids|
            ensures sids[k] != sids[m]
          {
            StrLtIrreflexive(sids[k]);
          }
        }
        FlattenOrdered(blocks, sids, true);
        forall k | 0 <= k < |blocks|
          ensures RowsFit(blocks[k], width)
        {
          StationRowsFit(raw.rows, sids[k], width);
          RasterStationsBlock(sids, raw.rows, width, step, k);
        }
        FlattenFits(blocks, width);
        forall sid
          ensures AsFreq(sid, StationRows(raw.rows, sid), width, step) == Success(StationRows(Flatten(blocks), sid))
        {
          StationRowsOfBlocks(blocks, sids, sid);
          if sid in sids {
            var k :| 0 <= k < |sids| && sids[k] == sid;
            RasterStationsBlock(sids, raw.rows, width, step, k);
          } else {
            StationRowsNone(raw.rows, sid);
          }
        }
        Success(Table(raw.cols, Flatten(blocks)))
  }

  // ---------------------------------------------------------------- merge

  datatype ExoSource = ExoSource(name: string, enabled: bool, fileExists: bool, data: Table)

  /** The exogenous values a merged row of `b` can carry: each matching row's, or NaN when nothing matches. */
  function ExoTails(b: Row, x: Table): (tails: seq<seq<Value>>)
    ensures |tails| >= 1
  {
    var ms := MatchesOf(x.rows, b.station, b.ts);
    if |ms| == 0 then [Missing(|x.cols|)]
    else seq(|ms|, k requires 0 <= k < |ms| => ms[k].vals)
  }

  /** `o` is a row the left merge makes of base row `b`: its key, its values, then one exogenous tail. */
  predicate MergedRow(o: Row, b: Row, x: Table) {
    && o.station == b.station && o.ts == b.ts
    && |b.vals| <= |o.vals| && o.vals[..|b.vals|] == b.vals
    && o.vals[|b.vals|..] in ExoTails(b, x)
  }

  /** Base row `b` has a merged row among `rows`. */
  predicate Survives(rows: seq<Row>, b: Row, x: Table) {
    exists j :: 0 <= j < |rows| && MergedRow(rows[j], b, x)
  }

  /** `o` is a merged row of one of the base rows. */
  predicate FromBase(o: Row, base: seq<Row>, x: Table) {
    exists i :: 0 <= i < |base| && MergedRow(o, base[i], x)
  }

  /** The rows `df.merge(x, on=['ts','station_id'], how='left')` makes of one base row. */
  function MergeBlock(b: Row, x: Table): (out: seq<Row>)
    requires WellFormed(x)
    ensures |out| >= 1
    ensures forall k :: 0 <= k < |out| ==> MergedRow(out[k], b, x) && |out[k].vals| == |b.vals| + |x.cols|
    // no exogenous row with the key: the base row once, padded with NaN
    ensures |MatchesOf(x.rows, b.station, b.ts)| == 0 ==> out == [Row(b.station, b.ts, b.vals + Missing(|x.cols|))]
    // otherwise one row per match, in the exogenous table's order
    ensures var ms := MatchesOf(x.rows, b.station, b.ts);
      |ms| > 0 ==> |out| == |ms| && forall k :: 0 <= k < |ms| ==> out[k] == Row(b.station, b.ts, b.vals + ms[k].vals)
  {
    var ms := MatchesOf(x.rows, b.station, b.ts);
    if |ms| == 0 then
      assert (b.vals + Missing(|x.cols|))[|b.vals|..] == Missing(|x.cols|);
      [Row(b.station, b.ts, b.vals + Missing(|x.cols|))]
    else
      var out := seq(|ms|, k requires 0 <= k < |ms| =>
        assert ms[k] in x.rows;
        Row(b.station, b.ts, b.vals + ms[k].vals));
      assert forall k :: 0 <= k < |ms| ==> out[k].vals[|b.vals|..] == ExoTails(b, x)[k];
      out
  }

  /** The rows of `x` with key (station, ts), in `x`'s order. */
  function MatchesOf(rows: seq<Row>, station: string, ts: int): (ms: seq<Row>)
    ensures forall k :: 0 <= k < |ms| ==> ms[k] in rows && ms[k].station == station && ms[k].ts == ts
    ensures forall i :: 0 <= i < |rows| && rows[i].station == station && rows[i].ts == ts ==> rows[i] in ms
    decreases |rows|
  {
    if |rows| == 0 then []
    else
      var rest := MatchesOf(rows[1..], station, ts);
      assert forall i :: 1 <= i < |rows| ==> rows[i] == rows[1..][i - 1];
      if rows[0].station == station && rows[0].ts == ts then [rows[0]] + rest else rest
  }

  /**
   * Left merge on (ts, station_id); the base columns come first, then `x`'s.
   * Every base row survives, and every merged row comes from a base row.
   */
  function LeftMerge(base: Table, x: Table): (t: Table)
    requires WellFormed(base) && WellFormed(x)
    ensures WellFormed(t) && t.cols == base.cols + x.cols
    ensures |t.rows| >= |base.rows|
    ensures forall i :: 0 <= i < |base.rows| ==> Survives(t.rows, base.rows[i], x)
    ensures forall j :: 0 <= j < |t.rows| ==> FromBase(t.rows[j], base.rows, x)
  {
    var blocks := MergeBlocks(base, x);
    var all := Flatten(blocks);
    FlattenFits(blocks, |base.cols| + |x.cols|);
    FlattenAtLeast(blocks);
    MergeBlocksRows(base, x, blocks);
    Table(base.cols + x.cols, all)
  }

  function MergeBlocks(base: Table, x: Table): (blocks: seq<seq<Row>>)
    requires WellFormed(x)
    ensures |blocks| == |base.rows|
    ensures forall i :: 0 <= i < |blocks| ==> blocks[i] == MergeBlock(base.rows[i], x)
  {
    seq(|base.rows|, i requires 0 <= i < |base.rows| => MergeBlock(base.rows[i], x))
  }

  lemma MergeBlocksRows(base: Table, x: Table, blocks: seq<seq<Row>>)
    requires WellFormed(x) && blocks == MergeBlocks(base, x)
    ensures forall i :: 0 <= i < |base.rows| ==> Survives(Flatten(blocks), base.rows[i], x)
    ensures forall j :: 0 <= j < |Flatten(blocks)| ==> FromBase(Flatten(blocks)[j], base.rows, x)
  {
    var all := Flatten(blocks);
    forall i | 0 <= i < |base.rows|
      ensures Survives(all, base.rows[i], x)
    {
      FlattenAt(blocks, i, 0);
      var j := |Flatten(blocks[..i])|;
      assert MergedRow(all[j], base.rows[i], x);
    }
    forall j | 0 <= j < |all|
      ensures FromBase(all[j], base.rows, x)
    {
      FlattenMember(blocks, all[j]);
      var i :| 0 <= i < |blocks| && all[j] in blocks[i];
      var k :| 0 <= k < |blocks[i]| && blocks[i][k] == all[j];
      assert MergedRow(all[j], base.rows[i], x);
    }
  }

  lemma {:induction false} FlattenAtLeast(blocks: seq<seq<Row>>)
    requires forall k :: 0 <= k < |blocks| ==> |blocks[k]| >= 1
    ensures |Flatten(blocks)| >= |blocks|
    decreases |blocks|
  {
    if |blocks| > 0 {
      FlattenAtLeast(blocks[1..]);
    }
  }

  /** With at most one exogenous row per key, the merge is row-for-row. */
  lemma {:induction false} LeftMergeUniqueKeys(base: Table, x: Table)
    requires WellFormed(base) && WellFormed(x)
    requires forall i, j :: 0 <= i < j < |x.rows| ==> x.rows[i].station != x.rows[j].station || x.rows[i].ts != x.rows[j].ts
    ensures |LeftMerge(base, x).rows| == |base.rows|
    ensures forall i :: 0 <= i < |base.rows| ==> MergedRow(LeftMerge(base, x).rows[i], base.rows[i], x)
  {
    var blocks := MergeBlocks(base, x);
    forall m | 0 <= m < |blocks|
      ensures |blocks[m]| == 1
    {
      SingleMatch(x.rows, base.rows[m].station, base.rows[m].ts);
    }
    SingletonFlatten(blocks);
  }

  lemma {:induction false} SingleMatch(rows: seq<Row>, station: string, ts: int)
    requires forall i, j :: 0 <= i < j < |rows| ==> rows[i].station != rows[j].station || rows[i].ts != rows[j].ts
    ensures |MatchesOf(rows, station, ts)| <= 1
    decreases |rows|
  {
    if |rows| > 0 {
      SingleMatch(rows[1..], station, ts);
      if rows[0].station == station && rows[0].ts == ts {
        forall j | 0 <= j < |rows[1..]|
          ensures rows[1..][j].station != station || rows[1..][j].ts != ts
        {
          assert rows[1..][j] == rows[j + 1];
        }
        NoMatches(rows[1..], station, ts);
      }
    }
  }

  lemma {:induction false} NoMatches(rows: seq<Row>, station: string, ts: int)
    requires forall j :: 0 <= j < |rows| ==> rows[j].station != station || rows[j].ts != ts
    ensures MatchesOf(rows, station, ts) == []
    decreases |rows|
  {
    if |rows| > 0 {
      NoMatches(rows[1..], station, ts);
    }
  }

  lemma {:induction false} SingletonFlatten(blocks: seq<seq<Row>>)
    requires forall k :: 0 <= k < |blocks| ==> |blocks[k]| == 1
    ensures |Flatten(blocks)| == |blocks|
    ensures forall k :: 0 <= k < |blocks| ==> Flatten(blocks)[k] == blocks[k][0]
    decreases |blocks|
  {
    if |blocks| > 0 {
      SingletonFlatten(blocks[1..]);
    }
  }

  predicate Active(s: ExoSource) {
    s.enabled && s.fileExists
  }

  /** `o` carries the key of `b` and begins with all of `b`'s values. */
  predicate Descends(o: Row, b: Row) {
    o.station == b.station && o.ts == b.ts && b.vals <= o.vals
  }

  /** Base row `b` is still present, possibly widened, among `rows`. */
  predicate KeptIn(rows: seq<Row>, b: Row) {
    exists j :: 0 <= j < |rows| && Descends(rows[j], b)
  }

  /** `o` is a widened copy of one of the base rows. */
  predicate DescendsFromSome(o: Row, base: seq<Row>) {
    exists i :: 0 <= i < |base| && Descends(o, base[i])
  }

  lemma DescendsTransitive(o: Row, m: Row, b: Row)
    requires Descends(o, m) && Descends(m, b)
    ensures Descends(o, b)
  {
  }

  /** What one step of the merge keeps: every row of `before` survives in `after`, and every row of `after` comes from one. */
  predicate Widens(after: seq<Row>, before: seq<Row>) {
    && (forall i :: 0 <= i < |before| ==> KeptIn(after, before[i]))
    && (forall j :: 0 <= j < |after| ==> DescendsFromSome(after[j], before))
  }

  lemma LeftMergeWidens(base: Table, x: Table)
    requires WellFormed(base) && WellFormed(x)
    ensures Widens(LeftMerge(base, x).rows, base.rows)
  {
    var rows := LeftMerge(base, x).rows;
    forall i | 0 <= i < |base.rows|
      ensures KeptIn(rows, base.rows[i])
    {
      assert Survives(rows, base.rows[i], x);
      var j :| 0 <= j < |rows| && MergedRow(rows[j], base.rows[i], x);
      assert Descends(rows[j], base.rows[i]);
    }
    forall j | 0 <= j < |rows|
      ensures DescendsFromSome(rows[j], base.rows)
    {
      assert FromBase(rows[j], base.rows, x);
      var i :| 0 <= i < |base.rows| && MergedRow(rows[j], base.rows[i], x);
      assert Descends(rows[j], base.rows[i]);
    }
  }

  lemma WidensItself(rows: seq<Row>)
    ensures Widens(rows, rows)
  {
    forall i | 0 <= i < |rows|
      ensures KeptIn(rows, rows[i]) && DescendsFromSome(rows[i], rows)
    {
      assert rows[i].vals[..|rows[i].vals|] == rows[i].vals;
      assert Descends(rows[i], rows[i]);
    }
  }

  lemma KeptTransitive(c: seq<Row>, b: seq<Row>, x: Row)
    requires KeptIn(b, x) && forall j :: 0 <= j < |b| ==> KeptIn(c, b[j])
    ensures KeptIn(c, x)
  {
    var j :| 0 <= j < |b| && Descends(b[j], x);
    assert KeptIn(c, b[j]);
    var k :| 0 <= k < |c| && Descends(c[k], b[j]);
    DescendsTransitive(c[k], b[j], x);
  }

  lemma FromTransitive(o: Row, b: seq<Row>, a: seq<Row>)
    requires DescendsFromSome(o, b) && forall j :: 0 <= j < |b| ==> DescendsFromSome(b[j], a)
    ensures DescendsFromSome(o, a)
  {
    var j :| 0 <= j < |b| && Descends(o, b[j]);
    assert DescendsFromSome(b[j], a);
    var i :| 0 <= i < |a| && Descends(b[j], a[i]);
    DescendsTransitive(o, b[j], a[i]);
  }

  lemma WidensTransitive(c: seq<Row>, b: seq<Row>, a: seq<Row>)
    requires Widens(c, b) && Widens(b, a)
    ensures Widens(c, a)
  {
    forall i | 0 <= i < |a|
      ensures KeptIn(c, a[i])
    {
      KeptTransitive(c, b, a[i]);
    }
    forall k | 0 <= k < |c|
      ensures DescendsFromSome(c[k], a)
    {
      FromTransitive(c[k], b, a);
    }
  }

  /** One source of `merge_exogenous`: left-merged when active, skipped otherwise. */
  function MergeStep(base: Table, src: ExoSource): (next: Table)
    requires WellFormed(base) && WellFormed(src.data)
    ensures WellFormed(next) && base.cols <= next.cols && |next.rows| >= |base.rows|
    ensures Widens(next.rows, base.rows)
    ensures !Active(src) ==> next == base
  {
    if Active(src) then
      LeftMergeWidens(base, src.data);
      LeftMerge(base, src.data)
    else
      WidensItself(base.rows);
      base
  }

  /**
   * `merge_exogenous`: sources in configuration order; a disabled source and
   * one whose file is missing are skipped, the others are left-merged. Every
   * base row survives with its key and values, and every row of the result
   * is a widened base row.
   */
  function MergeExogenous(base: Table, sources: seq<ExoSource>): (t: Table)
    requires WellFormed(base)
    requires forall k :: 0 <= k < |sources| ==> WellFormed(sources[k].data)
    ensures WellFormed(t)
    ensures base.cols <= t.cols
    ensures |t.rows| >= |base.rows|
    ensures Widens(t.rows, base.rows)
    decreases |sources|
  {
    if |sources| == 0 then
      WidensItself(base.rows);
      base
    else
      var next := MergeStep(base, sources[0]);
      var t := MergeExogenous(next, sources[1..]);
      WidensTransitive(t.rows, next.rows, base.rows);
      t
  }

  function ActiveOnly(sources: seq<ExoSource>): (r: seq<ExoSource>)
    ensures forall k :: 0 <= k < |r| ==> r[k] in sources && Active(r[k])
    decreases |sources|
  {
    if |sources| == 0 then []
    else if Active(sources[0]) then [sources[0]] + ActiveOnly(sources[1..])
    else ActiveOnly(sources[1..])
  }

  /** Skipped sources play no part: merging everything equals merging only the active sources. */
  lemma {:induction false} MergeSkipsInactive(base: Table, sources: seq<ExoSource>)
    requires WellFormed(base)
    requires forall k :: 0 <= k < |sources| ==> WellFormed(sources[k].data)
    ensures MergeExogenous(base, sources) == MergeExogenous(base, ActiveOnly(sources))
    decreases |sources|
  {
    if |sources| > 0 {
      var next := MergeStep(base, sources[0]);
      MergeSkipsInactive(next, sources[1..]);
      if Active(sources[0]) {
        assert ActiveOnly(sources)[1..] == ActiveOnly(sources[1..]);
      }
    }
  }

  lemma {:induction false} NoneActive(sources: seq<ExoSource>)
    requires forall k :: 0 <= k < |sources| ==> !Active(sources[k])
    ensures ActiveOnly(sources) == []
    decreases |sources|
  {
    if |sources| > 0 {
      NoneActive(sources[1..]);
    }
  }

  /** With every source disabled or missing on disk, the table is left as it was. */
  lemma NoActiveSourceKeepsTable(base: Table, sources: seq<ExoSource>)
    requires WellFormed(base)
    requires forall k :: 0 <= k < |sources| ==> WellFormed(sources[k].data) && !Active(sources[k])
    ensures MergeExogenous(base, sources) == base
  {
    MergeSkipsInactive(base, sources);
    NoneActive(sources);
  }
}

=== FILE: metrics.dfy ===
/**
 * Skill scores of a forecast `sim` (or `yhat`) against observations `obs`
 * (or `y`), on exact reals. Two families exist side by side: the unguarded
 * scores used after cross-validation, which simply divide (so the model asks
 * for a non-empty, non-constant observation series), and the guarded scores
 * of the rolling windows, which return NaN (`None`) on the degenerate windows.
 * RMSE is carried as its square, the mean squared error; the final KGE formula
 * is a parameter and only its guards are modelled.
 */
module Metrics {
  import opened Wrappers
  import opened Seqs

  function Abs(x: real): (a: real)
    ensures a >= 0.0 && (a == 0.0 <==> x == 0.0)
  {
    if x < 0.0 then -x else x
  }

  function Square(x: real): (s: real)
    ensures s >= 0.0
  {
    x * x
  }

  lemma SquareZero(x: real)
    ensures Square(x) == 0.0 <==> x == 0.0
  {
    if x > 0.0 {
      PositiveSquare(x);
    } else if x < 0.0 {
      PositiveSquare(-x);
      assert Square(x) == Square(-x);
    }
  }

  lemma PositiveSquare(x: real)
    requires x > 0.0
    ensures Square(x) > 0.0
  {
    PositiveProduct(x, x);
  }

  function Product(a: real, b: real): real {
    a * b
  }

  lemma PositiveProduct(a: real, b: real)
    requires a > 0.0 && b > 0.0
    ensures Product(a, b) > 0.0
  {
  }

  /** The element-wise absolute errors `|b - a|`. */
  function AbsErrors(a: seq<real>, b: seq<real>): (e: seq<real>)
    requires |a| == |b|
    ensures |e| == |a|
    ensures forall i :: 0 <= i < |e| ==> e[i] == Abs(b[i] - a[i])
  {
    seq(|a|, i requires 0 <= i < |a| => Abs(b[i] - a[i]))
  }

  /** The element-wise squared errors `(b - a)**2`. */
  function SqErrors(a: seq<real>, b: seq<real>): (e: seq<real>)
    requires |a| == |b|
    ensures |e| == |a|
    ensures forall i :: 0 <= i < |e| ==> e[i] == Square(b[i] - a[i])
  {
    seq(|a|, i requires 0 <= i < |a| => Square(b[i] - a[i]))
  }

  /** `np.mean` of a non-empty list. */
  function Mean(xs: seq<real>): real
    requires |xs| > 0
  {
    Sum(xs) / (|xs| as real)
  }

  /** The squared deviations from the mean, whose sum is NSE's denominator and n times the variance. */
  function Deviations(xs: seq<real>): (d: seq<real>)
    requires |xs| > 0
    ensures |d| == |xs|
    ensures forall i :: 0 <= i < |d| ==> d[i] == Square(xs[i] - Mean(xs))
  {
    var m := Mean(xs);
    seq(|xs|, i requires 0 <= i < |xs| => Square(xs[i] - m))
  }

  /** Every observation the same: the variance (and standard deviation) is zero. */
  predicate Constant(xs: seq<real>) {
    forall i, j :: 0 <= i < |xs| && 0 <= j < |xs| ==> xs[i] == xs[j]
  }

  predicate NonNegatives(xs: seq<real>) {
    forall i :: 0 <= i < |xs| ==> xs[i] >= 0.0
  }

  lemma {:induction false} SumNonNegative(xs: seq<real>)
    requires NonNegatives(xs)
    ensures Sum(xs) >= 0.0
    decreases |xs|
  {
    if |xs| > 0 {
      SumNonNegative(xs[1..]);
    }
  }

  /** A sum of non-negative terms is zero exactly when every term is. */
  lemma {:induction false} SumZeroIff(xs: seq<real>)
    requires NonNegatives(xs)
    ensures Sum(xs) == 0.0 <==> forall i :: 0 <= i < |xs| ==> xs[i] == 0.0
    decreases |xs|
  {
    if |xs| > 0 {
      SumZeroIff(xs[1..]);
      SumNonNegative(xs[1..]);
      assert forall i :: 1 <= i < |xs| ==> xs[i] == xs[1..][i - 1];
    }
  }

  lemma {:induction false} SumConstant(xs: seq<real>, c: real)
    requires forall i :: 0 <= i < |xs| ==> xs[i] == c
    ensures Sum(xs) == (|xs| as real) * c
    decreases |xs|
  {
    if |xs| > 0 {
      SumConstant(xs[1..], c);
    }
  }

  lemma MeanZeroIff(xs: seq<real>)
    requires |xs| > 0 && NonNegatives(xs)
    ensures Mean(xs) == 0.0 <==> forall i :: 0 <= i < |xs| ==> xs[i] == 0.0
  {
    SumZeroIff(xs);
    var n := |xs| as real;
    assert Mean(xs) * n == Sum(xs);
  }

  /** The observations spread (non-zero variance) exactly when they are not all equal. */
  lemma SpreadIff(xs: seq<real>)
    requires |xs| > 0
    ensures Sum(Deviations(xs)) > 0.0 <==> !Constant(xs)
  {
    var d := Deviations(xs);
    var m := Mean(xs);
    SumNonNegative(d);
    SumZeroIff(d);
    if Constant(xs) {
      SumConstant(xs, xs[0]);
      assert m == xs[0];
      forall i | 0 <= i < |d|
        ensures d[i] == 0.0
      {
        SquareZero(xs[i] - m);
      }
    } else if Sum(d) == 0.0 {
      forall i | 0 <= i < |xs|
        ensures xs[i] == m
      {
        SquareZero(xs[i] - m);
      }
      assert Constant(xs);
    }
  }

  lemma AbsErrorsSymmetric(a: seq<real>, b: seq<real>)
    requires |a| == |b|
    ensures AbsErrors(a, b) == AbsErrors(b, a)
  {
    forall i | 0 <= i < |a|
      ensures AbsErrors(a, b)[i] == AbsErrors(b, a)[i]
    {
      assert Abs(b[i] - a[i]) == Abs(a[i] - b[i]);
    }
  }

  lemma SqErrorsSymmetric(a: seq<real>, b: seq<real>)
    requires |a| == |b|
    ensures SqErrors(a, b) == SqErrors(b, a)
  {
    forall i | 0 <= i < |a|
      ensures SqErrors(a, b)[i] == SqErrors(b, a)[i]
    {
      assert Square(b[i] - a[i]) == Square(a[i] - b[i]);
    }
  }

  // ------------------------------------------------ unguarded scores

  /** `mae(obs, sim)`: the mean absolute error. */
  function Mae(obs: seq<real>, sim: seq<real>): (m: real)
    requires |obs| == |sim| > 0
    ensures m >= 0.0
  {
    var e := AbsErrors(obs, sim);
    SumNonNegative(e);
    Mean(e)
  }

  /** The mean squared error, i.e. `rmse(obs, sim)**2`. */
  function Mse(obs: seq<real>, sim: seq<real>): (m: real)
    requires |obs| == |sim| > 0
    ensures m >= 0.0
  {
    var e := SqErrors(obs, sim);
    SumNonNegative(e);
    Mean(e)
  }

  /** `nse(obs, sim)`: one minus the squared error relative to the spread of the observations. */
  function Nse(obs: seq<real>, sim: seq<real>): (n: real)
    requires |obs| == |sim| > 0 && !Constant(obs)
    ensures n <= 1.0
  {
    var e := SqErrors(obs, sim);
    SumNonNegative(e);
    SpreadIff(obs);
    1.0 - Sum(e) / Sum(Deviations(obs))
  }

  lemma MaeSymmetric(obs: seq<real>, sim: seq<real>)
    requires |obs| == |sim| > 0
    ensures Mae(obs, sim) == Mae(sim, obs)
  {
    AbsErrorsSymmetric(obs, sim);
  }

  /** The errors vanish exactly when the forecast is the observation. */
  lemma ErrorsZeroIff(obs: seq<real>, sim: seq<real>)
    requires |obs| == |sim|
    ensures (forall i :: 0 <= i < |obs| ==> AbsErrors(obs, sim)[i] == 0.0) <==> obs == sim
    ensures (forall i :: 0 <= i < |obs| ==> SqErrors(obs, sim)[i] == 0.0) <==> obs == sim
  {
    forall i | 0 <= i < |obs|
      ensures SqErrors(obs, sim)[i] == 0.0 <==> obs[i] == sim[i]
    {
      SquareZero(sim[i] - obs[i]);
    }
    if obs != sim {
      var i :| 0 <= i < |obs| && obs[i] != sim[i];
      assert AbsErrors(obs, sim)[i] != 0.0;
    }
  }

  lemma MaeZeroIff(obs: seq<real>, sim: seq<real>)
    requires |obs| == |sim| > 0
    ensures Mae(obs, sim) == 0.0 <==> obs == sim
  {
    MeanZeroIff(AbsErrors(obs, sim));
    ErrorsZeroIff(obs, sim);
  }

  lemma MseZeroIff(obs: seq<real>, sim: seq<real>)
    requires |obs| == |sim| > 0
    ensures Mse(obs, sim) == 0.0 <==> obs == sim
  {
    MeanZeroIff(SqErrors(obs, sim));
    ErrorsZeroIff(obs, sim);
  }

  /** A perfect forecast, and only a perfect forecast, scores an NSE of one. */
  lemma NseOneIff(obs: seq<real>, sim: seq<real>)
    requires |obs| == |sim| > 0 && !Constant(obs)
    ensures Nse(obs, sim) == 1.0 <==> obs == sim
  {
    var e := SqErrors(obs, sim);
    var d := Sum(Deviations(obs));
    SpreadIff(obs);
    SumZeroIff(e);
    ErrorsZeroIff(obs, sim);
    assert Sum(e) / d == 0.0 <==> Sum(e) == 0.0;
  }

  // ------------------------------------------------ guarded window scores

  /** The rolling `mae(y, yhat)`: NaN on an empty window. */
  function WindowMae(y: seq<real>, yhat: seq<real>): (r: Option<real>)
    requires |y| == |yhat|
    ensures r.None? <==> |y| == 0
    ensures r.Some? ==> r.value >= 0.0
  {
    if |y| == 0 then None
    else
      var e := AbsErrors(yhat, y);
      SumNonNegative(e);
      Some(Mean(e))
  }

  /** The rolling `nse(y, yhat)`: NaN on an empty window or a zero denominator. */
  function WindowNse(y: seq<real>, yhat: seq<real>): (r: Option<real>)
    requires |y| == |yhat|
    ensures r.None? <==> |y| == 0 || Constant(y)
    ensures r.Some? ==> r.value <= 1.0
  {
    if |y| == 0 then None
    else
      var denom := Sum(Deviations(y));
      SpreadIff(y);
      SumNonNegative(Deviations(y));
      if denom == 0.0 then None
      else
        var e := SqErrors(yhat, y);
        SumNonNegative(e);
        Some(1.0 - Sum(e) / denom)
  }

  /** Where its guards do not fire, a rolling score is the unguarded one. */
  lemma WindowScoresAgree(y: seq<real>, yhat: seq<real>)
    requires |y| == |yhat| > 0
    ensures WindowMae(y, yhat) == Some(Mae(y, yhat))
    ensures !Constant(y) ==> WindowNse(y, yhat) == Some(Nse(y, yhat))
  {
    AbsErrorsSymmetric(y, yhat);
    SqErrorsSymmetric(y, yhat);
  }

  /** The KGE formula, applied only where its inputs are non-degenerate. */
  type KgeFormula = (seq<real>, seq<real>) -> real

  /**
   * The rolling `kge(y, yhat)`, down to its guards: NaN on a window of fewer
   * than two points (no correlation), on a constant `y` (zero standard
   * deviation, and an undefined correlation), on a constant `yhat` (undefined
   * correlation) and on a zero mean of `y`; otherwise the score `kge` gives.
   */
  function WindowKge(y: seq<real>, yhat: seq<real>, kge: KgeFormula): (r: Option<real>)
    requires |y| == |yhat|
    ensures r.None? <==> |y| <= 1 || Constant(y) || Constant(yhat) || Mean(y) == 0.0
    ensures r.Some? ==> r.value == kge(y, yhat)
  {
    if |y| == 0 then None
    else
      SpreadIff(y);
      SpreadIff(yhat);
      var corrDefined := |y| > 1 && Sum(Deviations(y)) > 0.0 && Sum(Deviations(yhat)) > 0.0;
      var alphaDefined := Sum(Deviations(y)) > 0.0;
      var betaDefined := Mean(y) != 0.0;
      if corrDefined && alphaDefined && betaDefined then Some(kge(y, yhat)) else None
  }

  /** Observation `y` lies in the band `[lo, hi]`, ends included; a crossed band covers nothing. */
  predicate Covered(y: real, lo: real, hi: real) {
    lo <= y && y <= hi
  }

  function CoveredCount(y: seq<real>, lo: seq<real>, hi: seq<real>): (c: nat)
    requires |y| == |lo| == |hi|
    ensures c <= |y|
    decreases |y|
  {
    if |y| == 0 then 0
    else CoveredCount(y[1..], lo[1..], hi[1..]) + (if Covered(y[0], lo[0], hi[0]) then 1 else 0)
  }

  lemma {:induction false} CoveredCountBounds(y: seq<real>, lo: seq<real>, hi: seq<real>)
    requires |y| == |lo| == |hi|
    ensures CoveredCount(y, lo, hi) == |y| <==> forall i :: 0 <= i < |y| ==> Covered(y[i], lo[i], hi[i])
    ensures CoveredCount(y, lo, hi) == 0 <==> forall i :: 0 <= i < |y| ==> !Covered(y[i], lo[i], hi[i])
    decreases |y|
  {
    if |y| > 0 {
      CoveredCountBounds(y[1..], lo[1..], hi[1..]);
      assert forall i :: 1 <= i < |y| ==> y[i] == y[1..][i - 1] && lo[i] == lo[1..][i - 1] && hi[i] == hi[1..][i - 1];
    }
  }

  /** The rolling `coverage(y, p10, p90)`: the share of covered points, NaN on an empty window. */
  function WindowCoverage(y: seq<real>, p10: seq<real>, p90: seq<real>): (r: Option<real>)
    requires |y| == |p10| == |p90|
    ensures r.None? <==> |y| == 0
    ensures r.Some? ==> 0.0 <= r.value <= 1.0
  {
    if |y| == 0 then None
    else Some((CoveredCount(y, p10, p90) as real) / (|y| as real))
  }

  /** Coverage is one exactly when every point is in its band, zero exactly when none is. */
  lemma CoverageExtremes(y: seq<real>, p10: seq<real>, p90: seq<real>)
    requires |y| == |p10| == |p90| > 0
    ensures WindowCoverage(y, p10, p90) == Some(1.0) <==> forall i :: 0 <= i < |y| ==> Covered(y[i], p10[i], p90[i])
    ensures WindowCoverage(y, p10, p90) == Some(0.0) <==> forall i :: 0 <= i < |y| ==> !Covered(y[i], p10[i], p90[i])
  {
    CoveredCountBounds(y, p10, p90);
    var c := CoveredCount(y, p10, p90) as real;
    var n := |y| as real;
    assert c / n == 1.0 <==> c == n;
    assert c / n == 0.0 <==> c == 0.0;
  }
}

=== FILE: publish.dfy ===
/**
 * Publishing the latest forecasts (`publish.py`): the newest row of every
 * station, one message per station and horizon with the three quantile
 * predictions, in the order the training mode dictates, and the MQTT topic
 * of each message.
 */
module Publish {
  import opened Wrappers
  import opened Strings
  import opened Seqs
  import opened Frame
  import opened Training
  import opened Hindcast

  /** A station of the table has at least one row after sorting. */
  lemma StationPresent(t: Table, sid: string)
    requires WellFormed(t) && sid in Stations(t.rows)
    ensures |StationRows(SortedInput(t).rows, sid)| > 0
  {
    var i :| 0 <= i < |t.rows| && t.rows[i].station == sid;
    assert t.rows[i] in StationRows(t.rows, sid);
  }

  /** The newest row of a station: the last of its rows once the table is sorted by station and time. */
  function LatestRow(t: Table, sid: string): (row: Row)
    requires WellFormed(t) && sid in Stations(t.rows)
    ensures row.station == sid && |row.vals| == |t.cols|
  {
    StationPresent(t, sid);
    var g := StationRows(SortedInput(t).rows, sid);
    StationRowsFit(SortedInput(t).rows, sid, |t.cols|);
    g[|g| - 1]
  }

  /** The newest row of a station is one of its rows, and no row of that station is later. */
  lemma LatestIsGreatest(t: Table, sid: string)
    requires WellFormed(t) && sid in Stations(t.rows)
    ensures LatestRow(t, sid) in t.rows
    ensures forall i :: 0 <= i < |t.rows| && t.rows[i].station == sid ==> t.rows[i].ts <= LatestRow(t, sid).ts
  {
    StationPresent(t, sid);
    var g := StationRows(t.rows, sid);
    var s := SortBy(g, TsKey);
    assert StationRows(SortedInput(t).rows, sid) == s;
    var last := s[|s| - 1];
    assert last in multiset(s);
    assert last in g;
    forall i | 0 <= i < |t.rows| && t.rows[i].station == sid
      ensures t.rows[i].ts <= last.ts
    {
      assert t.rows[i] in g;
      assert t.rows[i] in multiset(s);
      var j :| 0 <= j < |s| && s[j] == t.rows[i];
      if j < |s| - 1 {
        assert TsKey(s[j]) <= TsKey(s[|s| - 1]);
      }
    }
  }

  /**
   * `latest`: one row per station, stations ascending, each the station's
   * newest row.
   */
  function Latest(t: Table): (latest: seq<Row>)
    requires WellFormed(t)
    ensures |latest| == |Stations(t.rows)|
    ensures RowsFit(latest, |t.cols|)
    ensures forall k :: 0 <= k < |latest| ==> latest[k].station == Stations(t.rows)[k]
    ensures forall k :: 0 <= k < |latest| ==> latest[k] == LatestRow(t, latest[k].station)
    ensures forall k :: 0 <= k < |latest| ==> Newest(t.rows, latest[k])
  {
    var sids := Stations(t.rows);
    LatestRowsNewest(t);
    seq(|sids|, k requires 0 <= k < |sids| => LatestRow(t, sids[k]))
  }

  lemma LatestRowsNewest(t: Table)
    requires WellFormed(t)
    ensures forall k :: 0 <= k < |Stations(t.rows)| ==> Newest(t.rows, LatestRow(t, Stations(t.rows)[k]))
  {
    forall k | 0 <= k < |Stations(t.rows)|
      ensures Newest(t.rows, LatestRow(t, Stations(t.rows)[k]))
    {
      LatestIsGreatest(t, Stations(t.rows)[k]);
    }
  }

  /** `row` is a row of `rows`, and no row of its station is later. */
  predicate Newest(rows: seq<Row>, row: Row) {
    && row in rows
    && forall i :: 0 <= i < |rows| && rows[i].station == row.station ==> rows[i].ts <= row.ts
  }

  /** The stations of the latest rows, in order. */
  function StationsOf(rows: seq<Row>): (sids: seq<string>)
    ensures |sids| == |rows|
    ensures forall k :: 0 <= k < |rows| ==> sids[k] == rows[k].station
  {
    seq(|rows|, k requires 0 <= k < |rows| => rows[k].station)
  }

  /** Every station of the table has exactly one latest row, and no other row is there. */
  lemma LatestOnePerStation(t: Table)
    requires WellFormed(t)
    ensures forall sid :: sid in StationsOf(Latest(t)) <==> exists i :: 0 <= i < |t.rows| && t.rows[i].station == sid
    ensures forall k, m :: 0 <= k < m < |Latest(t)| ==> Latest(t)[k].station != Latest(t)[m].station
  {
    var latest := Latest(t);
    assert StationsOf(latest) == Stations(t.rows);
    forall k, m | 0 <= k < m < |latest|
      ensures latest[k].station != latest[m].station
    {
      StrLtAsymmetric(Stations(t.rows)[k], Stations(t.rows)[m]);
    }
  }

  /** One published forecast. */
  datatype Message = Message(ts: int, station: string, target: string, steps: nat, minutes: nat, p10: real, p50: real, p90: real)

  /** The features a bundle's metadata lists are all columns of the table. */
  predicate HasFeatures(cols: seq<string>, b: Bundle) {
    forall k :: 0 <= k < |b.meta.features| ==> b.meta.features[k] in cols
  }

  /** The message for one row at horizon `h`, predicted from the metadata's features in their stored order. */
  function MessageFor(cols: seq<string>, row: Row, target: string, h: nat, b: Bundle, predict: Predictor): (m: Message)
    requires |row.vals| == |cols| && HasFeatures(cols, b)
    ensures m.station == row.station && m.ts == row.ts && m.target == target
    ensures m.steps == h && m.minutes == StepMinutes * h
    ensures Inputs(cols, b.meta.features, row).Some?
    ensures m.p10 == predict(b.p10, Inputs(cols, b.meta.features, row).value)
    ensures m.p50 == predict(b.p50, Inputs(cols, b.meta.features, row).value)
    ensures m.p90 == predict(b.p90, Inputs(cols, b.meta.features, row).value)
  {
    var x := Inputs(cols, b.meta.features, row).value;
    Message(row.ts, row.station, target, h, h * StepMinutes, predict(b.p10, x), predict(b.p50, x), predict(b.p90, x))
  }

  datatype PublishError = ModeUnknown(mode: string) | NoArtifactDir(dir: seq<string>) | NoFeatureColumn(name: string)

  /**
   * A global horizon can be published: its artifact directory exists (reading
   * its metadata fails otherwise), and, when there is a row to predict, every
   * listed feature is a column.
   */
  predicate GlobalReady(cols: seq<string>, latest: seq<Row>, h: nat, store: Store) {
    && ArtifactDir(GlobalScope(h)) in store
    && (|latest| == 0 || HasFeatures(cols, store[ArtifactDir(GlobalScope(h))]))
  }

  /** The messages of one global horizon: every latest row, in order. */
  function GlobalBlock(cols: seq<string>, latest: seq<Row>, target: string, h: nat, b: Bundle, predict: Predictor): (ms: seq<Message>)
    requires RowsFit(latest, |cols|) && (|latest| == 0 || HasFeatures(cols, b))
    ensures |ms| == |latest|
  {
    seq(|latest|, k requires 0 <= k < |latest| => MessageFor(cols, latest[k], target, h, b, predict))
  }

  /** Global mode: horizons outermost, every latest row within each; the first unready horizon is fatal. */
  function PublishGlobal(cols: seq<string>, latest: seq<Row>, target: string, hs: seq<nat>, store: Store, predict: Predictor): (r: Result<seq<Message>, PublishError>)
    requires RowsFit(latest, |cols|)
    ensures r.Success? <==> forall i :: 0 <= i < |hs| ==> GlobalReady(cols, latest, hs[i], store)
    ensures r.Success? ==> |r.value| == |hs| * |latest|
    decreases |hs|
  {
    if |hs| == 0 then Success([])
    else
      var dir := ArtifactDir(GlobalScope(hs[0]));
      if dir !in store then Failure(NoArtifactDir(dir))
      else
        var b := store[dir];
        match (if |latest| == 0 then None else FirstMissing(cols, b.meta.features))
        case Some(name) => Failure(NoFeatureColumn(name))
        case None =>
          match PublishGlobal(cols, latest, target, hs[1..], store, predict)
          case Failure(e) => Failure(e)
          case Success(rest) =>
            assert |hs| * |latest| == |latest| + (|hs| - 1) * |latest|;
            Success(GlobalBlock(cols, latest, target, hs[0], b, predict) + rest)
  }

  /** Global mode on a non-empty horizon list: the first horizon's block, then the rest. */
  lemma GlobalCons(cols: seq<string>, latest: seq<Row>, target: string, hs: seq<nat>, store: Store, predict: Predictor)
    requires RowsFit(latest, |cols|) && |hs| > 0
    requires PublishGlobal(cols, latest, target, hs, store, predict).Success?
    ensures GlobalReady(cols, latest, hs[0], store)
    ensures PublishGlobal(cols, latest, target, hs[1..], store, predict).Success?
    ensures PublishGlobal(cols, latest, target, hs, store, predict).value
      == GlobalBlock(cols, latest, target, hs[0], store[ArtifactDir(GlobalScope(hs[0]))], predict)
         + PublishGlobal(cols, latest, target, hs[1..], store, predict).value
  {
  }

  /** The message at `p = i * |latest| + k` of global mode is the one for horizon `i` and latest row `k`. */
  lemma {:induction false} GlobalOrder(cols: seq<string>, latest: seq<Row>, target: string, hs: seq<nat>, store: Store, predict: Predictor, i: nat, k: nat, p: nat)
    requires RowsFit(latest, |cols|)
    requires PublishGlobal(cols, latest, target, hs, store, predict).Success?
    requires i < |hs| && k < |latest| && p == i * |latest| + k
    ensures GlobalReady(cols, latest, hs[i], store)
    ensures p < |PublishGlobal(cols, latest, target, hs, store, predict).value|
    ensures PublishGlobal(cols, latest, target, hs, store, predict).value[p]
      == MessageFor(cols, latest[k], target, hs[i], store[ArtifactDir(GlobalScope(hs[i]))], predict)
    decreases i
  {
    GlobalCons(cols, latest, target, hs, store, predict);
    var block := GlobalBlock(cols, latest, target, hs[0], store[ArtifactDir(GlobalScope(hs[0]))], predict);
    var rest := PublishGlobal(cols, latest, target, hs[1..], store, predict).value;
    if i == 0 {
      assert (block + rest)[p] == block[k];
    } else {
      assert p - |latest| == (i - 1) * |latest| + k;
      GlobalOrder(cols, latest, target, hs[1..], store, predict, i - 1, k, p - |latest|);
      assert hs[1..][i - 1] == hs[i];
      assert (block + rest)[p] == rest[p - |latest|];
    }
  }

  /**
   * The row `latest.loc[[idx]]` predicts from for latest row `k`: `loc`
   * selects every latest row whose index label is `k`'s, and `predict(x)[0]`
   * takes the first of them.
   */
  function FirstWithLabel(labels: seq<nat>, k: nat): (j: nat)
    requires k < |labels|
    ensures j <= k && labels[j] == labels[k]
    ensures forall i :: 0 <= i < j ==> labels[i] != labels[k]
    decreases k
  {
    if labels[0] == labels[k] then 0
    else
      var j := FirstWithLabel(labels[1..], k - 1);
      assert forall i :: 1 <= i <= j ==> labels[i] == labels[1..][i - 1];
      1 + j
  }

  /**
   * One global horizon as the code is written: message `k` names latest row
   * `k`'s station and time, but its three predictions are computed on the
   * features of the first latest row carrying the same index label.
   */
  function GlobalBlockAsWritten(cols: seq<string>, latest: seq<Row>, labels: seq<nat>, target: string, h: nat, b: Bundle, predict: Predictor): (ms: seq<Message>)
    requires RowsFit(latest, |cols|) && |labels| == |latest| && (|latest| == 0 || HasFeatures(cols, b))
    ensures |ms| == |latest|
    ensures forall k :: 0 <= k < |latest| ==>
      && ms[k].station == latest[k].station && ms[k].ts == latest[k].ts && ms[k].target == target
      && ms[k].steps == h && ms[k].minutes == StepMinutes * h
    ensures forall k :: 0 <= k < |latest| ==>
      var x := Inputs(cols, b.meta.features, latest[FirstWithLabel(labels, k)]);
      && x.Some?
      && ms[k].p10 == predict(b.p10, x.value)
      && ms[k].p50 == predict(b.p50, x.value)
      && ms[k].p90 == predict(b.p90, x.value)
  {
    seq(|latest|, k requires 0 <= k < |latest| =>
      var own := MessageFor(cols, latest[k], target, h, b, predict);
      var src := MessageFor(cols, latest[FirstWithLabel(labels, k)], target, h, b, predict);
      own.(p10 := src.p10, p50 := src.p50, p90 := src.p90))
  }

  /** When no two latest rows share an index label, the code's lookup finds each row itself. */
  lemma DistinctLabelsOwnRows(cols: seq<string>, latest: seq<Row>, labels: seq<nat>, target: string, h: nat, b: Bundle, predict: Predictor)
    requires RowsFit(latest, |cols|) && |labels| == |latest| && (|latest| == 0 || HasFeatures(cols, b))
    requires forall i, j :: 0 <= i < j < |labels| ==> labels[i] != labels[j]
    ensures GlobalBlockAsWritten(cols, latest, labels, target, h, b, predict) == GlobalBlock(cols, latest, target, h, b, predict)
  {
    var written := GlobalBlockAsWritten(cols, latest, labels, target, h, b, predict);
    var intended := GlobalBlock(cols, latest, target, h, b, predict);
    forall k | 0 <= k < |latest|
      ensures written[k] == intended[k]
    {
      assert FirstWithLabel(labels, k) == k;
    }
  }

  /** The predictor of the example below: the first feature's value. */
  function FirstFeature(m: Fitted, x: seq<Value>): real {
    if |x| > 0 && x[0].Some? then x[0].value else 0.0
  }

  /**
   * Stations "A" and "B" whose newest rows both carry index label 95 (as two
   * stations with 96 QC'd rows do): under the code, B's message carries A's
   * prediction 1.0 instead of its own 2.0.
   */
  lemma RepeatedLabelBorrows()
    ensures var cols := ["x"];
      var latest := [Row("A", 0, [Some(1.0)]), Row("B", 0, [Some(2.0)])];
      var f := Fitted(0.5, cols, []);
      var b := Bundle(Meta(cols, "15min", "q_cms", 24, "global", None), f, f, f);
      && GlobalBlockAsWritten(cols, latest, [95, 95], "q_cms", 24, b, FirstFeature)[1].p50 == 1.0
      && GlobalBlock(cols, latest, "q_cms", 24, b, FirstFeature)[1].p50 == 2.0
  {
    var cols := ["x"];
    var latest := [Row("A", 0, [Some(1.0)]), Row("B", 0, [Some(2.0)])];
    assert FirstWithLabel([95, 95], 1) == 0;
    assert IndexOf(cols, "x") == Some(0);
    assert cols[0] in cols;
    assert Inputs(cols, cols, latest[0]).value[0] == Some(1.0);
    assert Inputs(cols, cols, latest[1]).value[0] == Some(2.0);
  }

  /** `m` is the message of `row` at horizon `h`, predicted by the station's own bundle for `h`. */
  predicate StationMessage(cols: seq<string>, row: Row, target: string, store: Store, predict: Predictor, h: nat, m: Message)
    requires |row.vals| == |cols|
  {
    var dir := ArtifactDir(StationScope(row.station, h));
    && dir in store && HasFeatures(cols, store[dir])
    && m == MessageFor(cols, row, target, h, store[dir], predict)
  }

  /** The model directory of station `sid` at horizon `h` exists but lists a feature that is not a column. */
  predicate PairBlocked(cols: seq<string>, sid: string, store: Store, h: nat) {
    var dir := ArtifactDir(StationScope(sid, h));
    dir in store && FirstMissing(cols, store[dir].meta.features).Some?
  }

  /** Some requested horizon of station `sid` is blocked. */
  predicate StationBlocked(cols: seq<string>, sid: string, hs: seq<nat>, store: Store) {
    exists h :: h in hs && PairBlocked(cols, sid, store, h)
  }

  lemma StationBlockedCons(cols: seq<string>, sid: string, hs: seq<nat>, store: Store)
    requires |hs| > 0
    ensures StationBlocked(cols, sid, hs, store) <==> PairBlocked(cols, sid, store, hs[0]) || StationBlocked(cols, sid, hs[1..], store)
  {
    assert forall x :: x in hs <==> x == hs[0] || x in hs[1..];
  }

  /** The messages of one station's latest row: every horizon with an artifact directory, in order. */
  function StationMessages(cols: seq<string>, row: Row, target: string, hs: seq<nat>, store: Store, predict: Predictor): (r: Result<seq<Message>, PublishError>)
    requires |row.vals| == |cols|
    ensures r.Failure? <==> StationBlocked(cols, row.station, hs, store)
    ensures r.Success? ==> |r.value| == |HorizonScopes(row.station, hs, store)|
    ensures r.Success? ==> forall j :: 0 <= j < |r.value| ==>
      StationMessage(cols, row, target, store, predict, HorizonScopes(row.station, hs, store)[j].1, r.value[j])
    decreases |hs|
  {
    match FirstBlocked(cols, row.station, hs, store)
    case Some(name) => Failure(NoFeatureColumn(name))
    case None => Success(HorizonMessages(cols, row, target, hs, store, predict))
  }

  /** The missing feature of the first blocked horizon of station `sid`: the KeyError the loop stops at. */
  function FirstBlocked(cols: seq<string>, sid: string, hs: seq<nat>, store: Store): (r: Option<string>)
    ensures r.Some? <==> StationBlocked(cols, sid, hs, store)
    decreases |hs|
  {
    if |hs| == 0 then None
    else
      StationBlockedCons(cols, sid, hs, store);
      var dir := ArtifactDir(StationScope(sid, hs[0]));
      if PairBlocked(cols, sid, store, hs[0]) then FirstMissing(cols, store[dir].meta.features)
      else FirstBlocked(cols, sid, hs[1..], store)
  }

  /** The messages of a station none of whose horizons is blocked: one per stored horizon, in order. */
  function HorizonMessages(cols: seq<string>, row: Row, target: string, hs: seq<nat>, store: Store, predict: Predictor): (ms: seq<Message>)
    requires |row.vals| == |cols| && !StationBlocked(cols, row.station, hs, store)
    ensures |ms| == |HorizonScopes(row.station, hs, store)|
    ensures forall j :: 0 <= j < |ms| ==>
      StationMessage(cols, row, target, store, predict, HorizonScopes(row.station, hs, store)[j].1, ms[j])
    decreases |hs|
  {
    if |hs| == 0 then []
    else
      StationBlockedCons(cols, row.station, hs, store);
      var dir := ArtifactDir(StationScope(row.station, hs[0]));
      var rest := HorizonMessages(cols, row, target, hs[1..], store, predict);
      if dir !in store then rest
      else
        StationMessageHead(cols, row, target, hs, store, predict, rest);
        [MessageFor(cols, row, target, hs[0], store[dir], predict)] + rest
  }

  /** A stored, unblocked first horizon puts its message in front of the rest's. */
  lemma StationMessageHead(cols: seq<string>, row: Row, target: string, hs: seq<nat>, store: Store, predict: Predictor, rest: seq<Message>)
    requires |row.vals| == |cols| && |hs| > 0
    requires ArtifactDir(StationScope(row.station, hs[0])) in store && !PairBlocked(cols, row.station, store, hs[0])
    requires |rest| == |HorizonScopes(row.station, hs[1..], store)|
    requires forall j :: 0 <= j < |rest| ==>
      StationMessage(cols, row, target, store, predict, HorizonScopes(row.station, hs[1..], store)[j].1, rest[j])
    ensures var dir := ArtifactDir(StationScope(row.station, hs[0]));
      var ms := [MessageFor(cols, row, target, hs[0], store[dir], predict)] + rest;
      && |ms| == |HorizonScopes(row.station, hs, store)|
      && forall j :: 0 <= j < |ms| ==> StationMessage(cols, row, target, store, predict, HorizonScopes(row.station, hs, store)[j].1, ms[j])
  {
    var dir := ArtifactDir(StationScope(row.station, hs[0]));
    var ms := [MessageFor(cols, row, target, hs[0], store[dir], predict)] + rest;
    var scopes := HorizonScopes(row.station, hs, store);
    assert scopes == [(row.station, hs[0])] + HorizonScopes(row.station, hs[1..], store);
    forall j | 0 <= j < |ms|
      ensures StationMessage(cols, row, target, store, predict, scopes[j].1, ms[j])
    {
      if j > 0 {
        assert ms[j] == rest[j - 1] && scopes[j] == HorizonScopes(row.station, hs[1..], store)[j - 1];
      }
    }
  }

  /** A message names the station and horizon of its pair, in steps and minutes, and the configured target. */
  predicate Matches(m: Message, scope: (string, nat), target: string) {
    m.station == scope.0 && m.steps == scope.1 && m.minutes == StepMinutes * m.steps && m.target == target
  }

  predicate AllMatch(ms: seq<Message>, scopes: seq<(string, nat)>, target: string) {
    |ms| == |scopes| && forall j :: 0 <= j < |ms| ==> Matches(ms[j], scopes[j], target)
  }

  lemma AllMatchAppend(a: seq<Message>, sa: seq<(string, nat)>, b: seq<Message>, sb: seq<(string, nat)>, target: string)
    requires AllMatch(a, sa, target) && AllMatch(b, sb, target)
    ensures AllMatch(a + b, sa + sb, target)
  {
    forall j | 0 <= j < |a + b|
      ensures Matches((a + b)[j], (sa + sb)[j], target)
    {
      if j >= |a| {
        assert (a + b)[j] == b[j - |a|] && (sa + sb)[j] == sb[j - |a|];
      }
    }
  }

  /** A station's messages match the pairs it contributes to the hindcast scopes. */
  lemma StationMessagesMatch(cols: seq<string>, row: Row, target: string, hs: seq<nat>, store: Store, predict: Predictor)
    requires |row.vals| == |cols|
    requires StationMessages(cols, row, target, hs, store, predict).Success?
    ensures AllMatch(StationMessages(cols, row, target, hs, store, predict).value, HorizonScopes(row.station, hs, store), target)
  {
    HorizonScopesStation(row.station, hs, store);
  }

  /**
   * Per-station mode: stations ascending, each station's horizons within it,
   * skipping the pairs without an artifact directory — the same pairs, in the
   * same order, as the hindcast.
   */
  function PublishPerStation(cols: seq<string>, latest: seq<Row>, target: string, hs: seq<nat>, store: Store, predict: Predictor): (r: Result<seq<Message>, PublishError>)
    requires RowsFit(latest, |cols|)
    ensures r.Failure? <==> exists k :: 0 <= k < |latest| && StationBlocked(cols, latest[k].station, hs, store)
    ensures r.Success? ==> AllMatch(r.value, HindcastScopes(StationsOf(latest), hs, store), target)
    ensures r.Success? ==> MessagesFor(cols, ScopeRows(latest, hs, store), target, store, predict, HindcastScopes(StationsOf(latest), hs, store), r.value)
    decreases |latest|
  {
    if |latest| == 0 then Success([])
    else
      assert forall k :: 1 <= k < |latest| ==> latest[1..][k - 1] == latest[k];
      match StationMessages(cols, latest[0], target, hs, store, predict)
      case Failure(e) => Failure(e)
      case Success(first) =>
        match PublishPerStation(cols, latest[1..], target, hs, store, predict)
        case Failure(e) => Failure(e)
        case Success(rest) =>
          StationMessagesMatch(cols, latest[0], target, hs, store, predict);
          assert StationsOf(latest)[1..] == StationsOf(latest[1..]);
          AllMatchAppend(first, HorizonScopes(latest[0].station, hs, store), rest, HindcastScopes(StationsOf(latest[1..]), hs, store), target);
          var head := HorizonScopes(latest[0].station, hs, store);
          var rows := seq(|head|, _ => latest[0]);
          ScopeRowsAt(latest[1..], hs, store);
          assert MessagesFor(cols, rows, target, store, predict, head, first);
          assert ScopeRows(latest, hs, store) == rows + ScopeRows(latest[1..], hs, store);
          MessagesForAppend(cols, target, store, predict,
            rows, head, first, ScopeRows(latest[1..], hs, store), HindcastScopes(StationsOf(latest[1..]), hs, store), rest);
          Success(first + rest)
  }

  /** The latest row behind each pair of the hindcast scopes: station `k`'s row once per pair it contributes. */
  function ScopeRows(latest: seq<Row>, hs: seq<nat>, store: Store): (rows: seq<Row>)
    ensures |rows| == |HindcastScopes(StationsOf(latest), hs, store)|
    decreases |latest|
  {
    if |latest| == 0 then []
    else
      assert StationsOf(latest)[1..] == StationsOf(latest[1..]);
      seq(|HorizonScopes(latest[0].station, hs, store)|, _ => latest[0]) + ScopeRows(latest[1..], hs, store)
  }

  /** The row behind each pair is a latest row of the pair's station. */
  lemma {:induction false} ScopeRowsAt(latest: seq<Row>, hs: seq<nat>, store: Store)
    ensures var rows := ScopeRows(latest, hs, store);
      forall j :: 0 <= j < |rows| ==> rows[j] in latest && rows[j].station == HindcastScopes(StationsOf(latest), hs, store)[j].0
    decreases |latest|
  {
    if |latest| > 0 {
      var head: seq<(string, nat)> := HorizonScopes(latest[0].station, hs, store);
      var tail: seq<(string, nat)> := HindcastScopes(StationsOf(latest[1..]), hs, store);
      HorizonScopesStation(latest[0].station, hs, store);
      assert StationsOf(latest)[1..] == StationsOf(latest[1..]);
      assert HindcastScopes(StationsOf(latest), hs, store) == head + tail;
      var rest := ScopeRows(latest[1..], hs, store);
      ScopeRowsAt(latest[1..], hs, store);
      var rows := ScopeRows(latest, hs, store);
      assert rows == seq(|head|, _ => latest[0]) + rest;
      forall j | 0 <= j < |rows|
        ensures rows[j] in latest && rows[j].station == (head + tail)[j].0
      {
        if j < |head| {
          assert rows[j] == latest[0] && (head + tail)[j] == head[j];
        } else {
          assert rows[j] == rest[j - |head|] && (head + tail)[j] == tail[j - |head|];
          assert rest[j - |head|] in latest[1..];
        }
      }
    }
  }

  /** `ms[j]` is the message of `rows[j]` at the horizon of `scopes[j]`, for every `j`. */
  predicate MessagesFor(cols: seq<string>, rows: seq<Row>, target: string, store: Store, predict: Predictor, scopes: seq<(string, nat)>, ms: seq<Message>) {
    && |rows| == |scopes| == |ms| && RowsFit(rows, |cols|)
    && forall j :: 0 <= j < |ms| ==> StationMessage(cols, rows[j], target, store, predict, scopes[j].1, ms[j])
  }

  lemma MessagesForAppend(cols: seq<string>, target: string, store: Store, predict: Predictor,
                          ra: seq<Row>, sa: seq<(string, nat)>, ma: seq<Message>, rb: seq<Row>, sb: seq<(string, nat)>, mb: seq<Message>)
    requires MessagesFor(cols, ra, target, store, predict, sa, ma) && MessagesFor(cols, rb, target, store, predict, sb, mb)
    ensures MessagesFor(cols, ra + rb, target, store, predict, sa + sb, ma + mb)
  {
    forall j | 0 <= j < |ra + rb|
      ensures |(ra + rb)[j].vals| == |cols|
    {
      if j >= |ra| {
        assert (ra + rb)[j] == rb[j - |ra|];
      }
    }
    forall j | 0 <= j < |ma + mb|
      ensures StationMessage(cols, (ra + rb)[j], target, store, predict, (sa + sb)[j].1, (ma + mb)[j])
    {
      if j < |ma| {
        assert (ra + rb)[j] == ra[j] && (sa + sb)[j] == sa[j] && (ma + mb)[j] == ma[j];
      } else {
        var q := j - |ma|;
        assert (ra + rb)[j] == rb[q] && (sa + sb)[j] == sb[q] && (ma + mb)[j] == mb[q];
      }
    }
  }

  /** Every pair a station contributes names that station. */
  lemma HorizonScopesStation(sid: string, hs: seq<nat>, store: Store)
    ensures forall j :: 0 <= j < |HorizonScopes(sid, hs, store)| ==> HorizonScopes(sid, hs, store)[j].0 == sid
  {
    forall j | 0 <= j < |HorizonScopes(sid, hs, store)|
      ensures HorizonScopes(sid, hs, store)[j].0 == sid
    {
      HorizonScopesIff(sid, hs, store, HorizonScopes(sid, hs, store)[j]);
    }
  }

  /** The MQTT topic of a message: the base topic without trailing `/`, then station, horizon minutes and target. */
  function Topic(base: string, m: Message, target: string): string {
    RStrip(base, '/') + "/" + m.station + "/forecast/" + NatToString(m.minutes) + "min/" + target
  }

  /** A trailing `/` on the configured base topic makes no difference. */
  lemma TopicIgnoresTrailingSlash(base: string, m: Message, target: string)
    ensures Topic(base + "/", m, target) == Topic(base, m, target)
  {
    assert (base + "/")[..|base|] == base;
  }

  /** A topic splits back into the base topic's levels, the station, `forecast`, the minutes and the target. */
  lemma TopicLevels(base: string, m: Message, target: string)
    requires '/' !in m.station && '/' !in target
    ensures Split(Topic(base, m, target), '/')
      == Split(RStrip(base, '/'), '/') + [m.station, "forecast", NatToString(m.minutes) + "min", target]
  {
    var mins := NatToString(m.minutes) + "min";
    MinutesLevel(m.minutes);
    var b := RStrip(base, '/');
    var a1 := b + ['/'] + m.station;
    var a2 := a1 + ['/'] + "forecast";
    var a3 := a2 + ['/'] + mins;
    assert Topic(base, m, target) == a3 + ['/'] + target;
    SplitLast(b, m.station, '/');
    assert Split(a1, '/') == Split(b, '/') + [m.station];
    SplitLast(a1, "forecast", '/');
    assert Split(a2, '/') == Split(b, '/') + [m.station, "forecast"];
    SplitLast(a2, mins, '/');
    assert Split(a3, '/') == Split(b, '/') + [m.station, "forecast", mins];
    SplitLast(a3, target, '/');
  }

  /** The minutes level of a topic holds no `/`. */
  lemma MinutesLevel(minutes: nat)
    ensures '/' !in NatToString(minutes) + "min"
  {
    var d := NatToString(minutes);
    assert forall k :: 0 <= k < |d| ==> IsDigit(d[k]);
  }

  /** The configuration the publisher reads; `mqttBase` is the base topic when MQTT is enabled. */
  datatype PublishConfig = PublishConfig(target: string, horizons: seq<nat>, mode: string, mqttBase: Option<string>)

  /** What a run produces: the messages of `forecast_latest.json` and the topics they are sent to. */
  datatype Publication = Publication(messages: seq<Message>, topics: seq<string>)

  /**
   * `publish.py`: an unknown mode is fatal before anything is written;
   * otherwise the messages of the mode and, when MQTT is enabled, one topic
   * per message.
   */
  function Publish(cfg: PublishConfig, t: Table, store: Store, predict: Predictor): (r: Result<Publication, PublishError>)
    requires WellFormed(t)
    ensures ParseMode(cfg.mode).None? ==> r == Failure(ModeUnknown(cfg.mode))
    ensures ParseMode(cfg.mode) == Some(Global) ==>
      (r.Success? <==> forall i :: 0 <= i < |cfg.horizons| ==> GlobalReady(t.cols, Latest(t), cfg.horizons[i], store))
    ensures ParseMode(cfg.mode) == Some(PerStation) ==>
      (r.Failure? <==> exists sid :: sid in Stations(t.rows) && StationBlocked(t.cols, sid, cfg.horizons, store))
    ensures r.Success? ==> Published(cfg, t, store, predict, r.value.messages)
    ensures r.Success? && cfg.mqttBase.None? ==> r.value.topics == []
    ensures r.Success? && cfg.mqttBase.Some? ==> |r.value.topics| == |r.value.messages|
    ensures r.Success? && cfg.mqttBase.Some? ==> forall k :: 0 <= k < |r.value.messages| ==>
           r.value.topics[k] == Topic(cfg.mqttBase.value, r.value.messages[k], cfg.target)
  {
    match ModeMessages(cfg, t, store, predict)
    case Failure(e) => Failure(e)
    case Success(ms) => Success(Publication(ms, Topics(cfg.mqttBase, ms, cfg.target)))
  }

  /** The topic of every message when MQTT is enabled, and none otherwise. */
  function Topics(mqttBase: Option<string>, ms: seq<Message>, target: string): (topics: seq<string>)
    ensures mqttBase.None? ==> topics == []
    ensures mqttBase.Some? ==> |topics| == |ms| && forall k :: 0 <= k < |ms| ==> topics[k] == Topic(mqttBase.value, ms[k], target)
  {
    match mqttBase
    case None => []
    case Some(base) => seq(|ms|, k requires 0 <= k < |ms| => Topic(base, ms[k], target))
  }

  /** The messages of the configured mode, on the table's latest rows. */
  function ModeMessages(cfg: PublishConfig, t: Table, store: Store, predict: Predictor): (r: Result<seq<Message>, PublishError>)
    requires WellFormed(t)
    ensures ParseMode(cfg.mode).None? ==> r == Failure(ModeUnknown(cfg.mode))
    ensures ParseMode(cfg.mode) == Some(Global) ==>
      (r.Success? <==> forall i :: 0 <= i < |cfg.horizons| ==> GlobalReady(t.cols, Latest(t), cfg.horizons[i], store))
    ensures ParseMode(cfg.mode) == Some(PerStation) ==>
      (r.Failure? <==> exists sid :: sid in Stations(t.rows) && StationBlocked(t.cols, sid, cfg.horizons, store))
    ensures r.Success? ==> Published(cfg, t, store, predict, r.value)
  {
    var latest := Latest(t);
    match ParseMode(cfg.mode)
    case None => Failure(ModeUnknown(cfg.mode))
    case Some(Global) =>
      GlobalLatest(t, cfg.target, cfg.horizons, store, predict);
      PublishGlobal(t.cols, latest, cfg.target, cfg.horizons, store, predict)
    case Some(PerStation) =>
      assert StationsOf(latest) == Stations(t.rows);
      PerStationLatestFails(t, cfg.target, cfg.horizons, store, predict);
      PerStationLatest(t, cfg.target, cfg.horizons, store, predict);
      PublishPerStation(t.cols, latest, cfg.target, cfg.horizons, store, predict)
  }

  /**
   * What the messages of a successful run are: in global mode one per
   * horizon and station, horizon-major, each from the station's newest row;
   * in per-station mode one per hindcast pair, in the hindcast's order, each
   * from the pair's station's newest row.
   */
  predicate Published(cfg: PublishConfig, t: Table, store: Store, predict: Predictor, ms: seq<Message>)
    requires WellFormed(t)
  {
    && (ParseMode(cfg.mode) == Some(Global) ==>
          && |ms| == |cfg.horizons| * |Stations(t.rows)|
          && GlobalPublished(t, cfg.target, cfg.horizons, store, predict, ms))
    && (ParseMode(cfg.mode) == Some(PerStation) ==>
          && AllMatch(ms, HindcastScopes(Stations(t.rows), cfg.horizons, store), cfg.target)
          && PerStationPublished(t, cfg.target, cfg.horizons, store, predict, ms))
  }

  /** Position of horizon `i`, station `k` among the global messages of `n` stations: horizons outermost. */
  function GlobalPos(i: nat, k: nat, n: nat): nat {
    i * n + k
  }

  /**
   * Global mode's messages: for horizon `i` and station `k` (ascending), the
   * message of the station's newest row predicted by horizon `i`'s global bundle.
   */
  predicate GlobalPublished(t: Table, target: string, hs: seq<nat>, store: Store, predict: Predictor, ms: seq<Message>)
    requires WellFormed(t)
  {
    forall i, k :: 0 <= i < |hs| && 0 <= k < |Stations(t.rows)| ==>
      && GlobalPos(i, k, |Stations(t.rows)|) < |ms|
      && GlobalReady(t.cols, Latest(t), hs[i], store)
      && HasFeatures(t.cols, store[ArtifactDir(GlobalScope(hs[i]))])
      && ms[GlobalPos(i, k, |Stations(t.rows)|)]
         == MessageFor(t.cols, LatestRow(t, Stations(t.rows)[k]), target, hs[i], store[ArtifactDir(GlobalScope(hs[i]))], predict)
  }

  /**
   * Per-station mode's messages: one per hindcast pair, in order, each the
   * message of the pair's station's newest row predicted by the station's own bundle.
   */
  predicate PerStationPublished(t: Table, target: string, hs: seq<nat>, store: Store, predict: Predictor, ms: seq<Message>)
    requires WellFormed(t)
  {
    var scopes := HindcastScopes(Stations(t.rows), hs, store);
    && |ms| == |scopes|
    && forall j :: 0 <= j < |scopes| ==>
         && scopes[j].0 in Stations(t.rows)
         && StationMessage(t.cols, LatestRow(t, scopes[j].0), target, store, predict, scopes[j].1, ms[j])
  }

  /** Global mode on the table's latest rows, message by message. */
  lemma GlobalLatest(t: Table, target: string, hs: seq<nat>, store: Store, predict: Predictor)
    requires WellFormed(t)
    ensures var r := PublishGlobal(t.cols, Latest(t), target, hs, store, predict);
      r.Success? ==> GlobalPublished(t, target, hs, store, predict, r.value)
  {
    var latest := Latest(t);
    var n := |Stations(t.rows)|;
    if PublishGlobal(t.cols, latest, target, hs, store, predict).Success? {
      forall i, k | 0 <= i < |hs| && 0 <= k < n
        ensures GlobalPos(i, k, n) < |PublishGlobal(t.cols, latest, target, hs, store, predict).value|
        ensures GlobalReady(t.cols, latest, hs[i], store)
        ensures HasFeatures(t.cols, store[ArtifactDir(GlobalScope(hs[i]))])
        ensures PublishGlobal(t.cols, latest, target, hs, store, predict).value[GlobalPos(i, k, n)]
          == MessageFor(t.cols, LatestRow(t, Stations(t.rows)[k]), target, hs[i], store[ArtifactDir(GlobalScope(hs[i]))], predict)
      {
        GlobalOrder(t.cols, latest, target, hs, store, predict, i, k, GlobalPos(i, k, n));
      }
    }
  }

  /** Per-station mode on the table's latest rows fails exactly when some station of the table is blocked. */
  lemma PerStationLatestFails(t: Table, target: string, hs: seq<nat>, store: Store, predict: Predictor)
    requires WellFormed(t)
    ensures PublishPerStation(t.cols, Latest(t), target, hs, store, predict).Failure?
      <==> exists sid :: sid in Stations(t.rows) && StationBlocked(t.cols, sid, hs, store)
  {
    var latest := Latest(t);
    var sids := Stations(t.rows);
    if PublishPerStation(t.cols, latest, target, hs, store, predict).Failure? {
      var k :| 0 <= k < |latest| && StationBlocked(t.cols, latest[k].station, hs, store);
      assert sids[k] in sids;
    } else {
      forall sid | sid in sids
        ensures !StationBlocked(t.cols, sid, hs, store)
      {
        var k :| 0 <= k < |sids| && sids[k] == sid;
        assert latest[k].station == sid;
      }
    }
  }

  /** Per-station mode on the table's latest rows: each message is the one of its station's newest row. */
  lemma PerStationLatest(t: Table, target: string, hs: seq<nat>, store: Store, predict: Predictor)
    requires WellFormed(t)
    ensures var r := PublishPerStation(t.cols, Latest(t), target, hs, store, predict);
      r.Success? ==> PerStationPublished(t, target, hs, store, predict, r.value)
  {
    var latest := Latest(t);
    var sids := Stations(t.rows);
    assert StationsOf(latest) == sids;
    var r := PublishPerStation(t.cols, latest, target, hs, store, predict);
    if r.Success? {
      var scopes := HindcastScopes(sids, hs, store);
      var ms := r.value;
      var rows := ScopeRows(latest, hs, store);
      assert MessagesFor(t.cols, rows, target, store, predict, scopes, ms);
      ScopeRowsAt(latest, hs, store);
      forall j | 0 <= j < |scopes|
        ensures scopes[j].0 in sids
        ensures StationMessage(t.cols, LatestRow(t, scopes[j].0), target, store, predict, scopes[j].1, ms[j])
      {
        LatestMessage(t, target, store, predict, rows[j], scopes[j], ms[j]);
      }
    }
  }

  /** A message of a latest row is the message of its station's newest row. */
  lemma LatestMessage(t: Table, target: string, store: Store, predict: Predictor, row: Row, scope: (string, nat), m: Message)
    requires WellFormed(t) && row in Latest(t) && row.station == scope.0
    requires |row.vals| == |t.cols| && StationMessage(t.cols, row, target, store, predict, scope.1, m)
    ensures scope.0 in Stations(t.rows)
    ensures StationMessage(t.cols, LatestRow(t, scope.0), target, store, predict, scope.1, m)
  {
    var latest := Latest(t);
    var k :| 0 <= k < |latest| && latest[k] == row;
    assert Stations(t.rows)[k] in Stations(t.rows);
  }
}

=== FILE: qc.dfy ===
/**
 * Quality control (src/etl/qc.py): per station, negative discharge, rain
 * and temperature readings become missing, then short gaps in those three
 * columns are filled by linear interpolation, at most `max_gap` cells into
 * each run of missing values; finally rows without discharge are dropped.
 */
module Qc {
  import opened Wrappers
  import opened Strings
  import opened Seqs
  import opened Frame

  /** The columns the plausibility and gap-filling steps touch. */
  const QcColumns: seq<string> := ["q_cms", "rain_mm", "temp_c"]

  /** The default `max_gap` of `qc_group`. */
  const MaxGap: nat := 8

  predicate NonNegative(v: Value) {
    v.None? || v.value >= 0.0
  }

  /** `g.loc[g[c] < 0, c] = np.nan` on one column. */
  function Clip(col: seq<Value>): (r: seq<Value>)
    ensures |r| == |col|
    ensures forall i :: 0 <= i < |r| ==> NonNegative(r[i])
    ensures forall i :: 0 <= i < |r| ==> (NonNegative(col[i]) <==> r[i] == col[i])
    ensures forall i :: 0 <= i < |r| && !NonNegative(col[i]) ==> r[i] == None
  {
    seq(|col|, i requires 0 <= i < |col| => if col[i].Some? && col[i].value < 0.0 then None else col[i])
  }

  lemma ClipIdempotent(col: seq<Value>)
    ensures Clip(Clip(col)) == Clip(col)
  {
  }

  /** The last present position before `i`. */
  function PrevPresent(col: seq<Value>, i: nat): (r: Option<nat>)
    requires i <= |col|
    ensures r.Some? ==> r.value < i && col[r.value].Some? && forall q :: r.value < q < i ==> col[q].None?
    ensures r.None? ==> forall q :: 0 <= q < i ==> col[q].None?
    decreases i
  {
    if i == 0 then None
    else if col[i - 1].Some? then Some(i - 1)
    else PrevPresent(col, i - 1)
  }

  /** The first present position after `i`. */
  function NextPresent(col: seq<Value>, i: nat): (r: Option<nat>)
    requires i < |col|
    ensures r.Some? ==> i < r.value < |col| && col[r.value].Some? && forall q :: i < q < r.value ==> col[q].None?
    ensures r.None? ==> forall q :: i < q < |col| ==> col[q].None?
    decreases |col| - i
  {
    if i + 1 == |col| then None
    else if col[i + 1].Some? then Some(i + 1)
    else NextPresent(col, i + 1)
  }

  /**
   * One cell of `Series.interpolate(limit=max_gap)` (method 'linear', forward
   * direction): a missing cell with no present value before it stays missing;
   * one more than `limit` cells past the last present value stays missing;
   * otherwise it gets the straight line between the present values around
   * its run, or the last present value when no present value follows.
   */
  function FillAt(col: seq<Value>, i: nat, limit: nat): Value
    requires i < |col|
  {
    if col[i].Some? then col[i]
    else
      match PrevPresent(col, i)
      case None => None
      case Some(p) =>
        if i - p > limit then None
        else
          var a := col[p].value;
          match NextPresent(col, i)
          case None => Some(a)
          case Some(q) => Some(Interpolate(a, col[q].value, i - p, q - p))
  }

  /** `a <= x <= b` or `b <= x <= a`. */
  predicate Between(x: real, a: real, b: real) {
    (a <= x <= b) || (b <= x <= a)
  }

  /** The straight line from `a` to `b`, `k` steps of `n` along. */
  function Interpolate(a: real, b: real, k: nat, n: nat): real
    requires n > 0
  {
    a + (b - a) * (k as real) / (n as real)
  }

  lemma InterpolationBetween(a: real, b: real, k: nat, n: nat)
    requires 0 < k < n
    ensures Between(Interpolate(a, b, k, n), a, b)
  {
    var t := (k as real) / (n as real);
    FractionInside(k as real, n as real);
    var d := b - a;
    MulDiv(d, k as real, n as real);
    ScaleInside(d, t);
  }

  /** `k / n` lies strictly between 0 and 1 when `0 < k < n`. */
  lemma FractionInside(k: real, n: real)
    requires 0.0 < k < n
    ensures 0.0 < k / n < 1.0
  {
    var q := k / n;
    assert q * n == k;
    MulMonotone(q, 0.0, n);
    MulMonotone(1.0, q, n);
  }

  /** Multiplying by a positive number keeps the order. */
  lemma MulMonotone(x: real, y: real, n: real)
    requires n > 0.0
    ensures x <= y ==> x * n <= y * n
  {
    assert y * n - x * n == (y - x) * n;
  }

  lemma MulDiv(d: real, k: real, n: real)
    requires n > 0.0
    ensures d * k / n == d * (k / n)
  {
    assert (d * (k / n)) * n == d * k;
  }

  /** Scaling by `t` in [0, 1] moves a number towards zero without crossing it. */
  lemma ScaleInside(d: real, t: real)
    requires 0.0 <= t <= 1.0
    ensures 0.0 <= d ==> 0.0 <= d * t <= d
    ensures d < 0.0 ==> d <= d * t <= 0.0
  {
    assert d - d * t == d * (1.0 - t);
    if 0.0 <= d {
      assert d * (1.0 - t) >= 0.0;
    } else {
      assert (-d) * t >= 0.0 && (-d) * (1.0 - t) >= 0.0;
    }
  }

  /**
   * `v` is a plausible fill for the missing cell `i`: between the present
   * values on either side of its gap, or equal to the last present value
   * when none follows.
   */
  predicate WithinGap(col: seq<Value>, i: nat, v: real)
    requires i < |col|
  {
    var prev := PrevPresent(col, i);
    var next := NextPresent(col, i);
    prev.Some? &&
    if next.Some? then Between(v, col[prev.value].value, col[next.value].value)
    else v == col[prev.value].value
  }

  /** What one filled cell satisfies; `Fill` states it for every cell. */
  lemma FillAtSpec(col: seq<Value>, i: nat, limit: nat)
    requires i < |col|
    ensures col[i].Some? ==> FillAt(col, i, limit) == col[i]
    ensures col[i].None? ==>
      (FillAt(col, i, limit).Some? <==> PrevPresent(col, i).Some? && i - PrevPresent(col, i).value <= limit)
    ensures col[i].None? && FillAt(col, i, limit).Some? ==> WithinGap(col, i, FillAt(col, i, limit).value)
  {
    if col[i].None? && FillAt(col, i, limit).Some? {
      var p := PrevPresent(col, i).value;
      var next := NextPresent(col, i);
      if next.Some? {
        InterpolationBetween(col[p].value, col[next.value].value, i - p, next.value - p);
      }
    }
  }

  function Fill(col: seq<Value>, limit: nat): (r: seq<Value>)
    ensures |r| == |col|
    // present values are untouched; only missing cells can change
    ensures forall i :: 0 <= i < |col| && col[i].Some? ==> r[i] == col[i]
    // a cell is filled exactly when a present value lies at most `limit` cells before it
    ensures forall i :: 0 <= i < |col| && col[i].None? ==>
      (r[i].Some? <==> PrevPresent(col, i).Some? && i - PrevPresent(col, i).value <= limit)
    // a filled value lies between the present values around its gap
    ensures forall i :: 0 <= i < |col| && col[i].None? && r[i].Some? ==> WithinGap(col, i, r[i].value)
  {
    var r := seq(|col|, i requires 0 <= i < |col| => FillAt(col, i, limit));
    forall i | 0 <= i < |col|
      ensures col[i].Some? ==> r[i] == col[i]
      ensures col[i].None? ==> (r[i].Some? <==> PrevPresent(col, i).Some? && i - PrevPresent(col, i).value <= limit)
      ensures col[i].None? && r[i].Some? ==> WithinGap(col, i, r[i].value)
    {
      FillAtSpec(col, i, limit);
    }
    r
  }

  /** Gap filling never creates a negative value from non-negative neighbours. */
  lemma FillKeepsNonNegative(col: seq<Value>, limit: nat)
    requires forall i :: 0 <= i < |col| ==> NonNegative(col[i])
    ensures forall i :: 0 <= i < |col| ==> NonNegative(Fill(col, limit)[i])
  {
    var r := Fill(col, limit);
    forall i | 0 <= i < |col|
      ensures NonNegative(r[i])
    {
      if col[i].None? && r[i].Some? {
        var p := PrevPresent(col, i).value;
        assert NonNegative(col[p]);
        var next := NextPresent(col, i);
        if next.Some? {
          assert NonNegative(col[next.value]);
        }
      }
    }
  }

  /** Within a run of originally missing cells, at most `limit` consecutive cells are filled. */
  lemma FillRunBounded(col: seq<Value>, limit: nat, lo: nat, hi: nat)
    requires lo <= hi < |col|
    requires forall k :: lo <= k <= hi ==> col[k].None? && Fill(col, limit)[k].Some?
    ensures hi - lo < limit
  {
    var r := Fill(col, limit);
    var p := PrevPresent(col, hi).value;
    assert p < lo;
  }

  /** Leading missing cells, before the first present value, are never filled. */
  lemma FillKeepsLeadingGap(col: seq<Value>, limit: nat, i: nat)
    requires i < |col| && forall q :: 0 <= q <= i ==> col[q].None?
    ensures Fill(col, limit)[i] == None
  {
  }

  predicate IsQcColumn(c: string) {
    c in QcColumns
  }

  /** No QC column of any row holds a negative value. */
  predicate QcClean(rows: seq<Row>, cols: seq<string>) {
    forall i, j :: 0 <= i < |rows| && 0 <= j < |cols| && j < |rows[i].vals| && IsQcColumn(cols[j]) ==>
      NonNegative(rows[i].vals[j])
  }

  /** The value QC leaves in column `j` of row `i` of one station's rows. */
  function QcCell(cols: seq<string>, rows: seq<Row>, i: nat, j: nat, limit: nat): Value
    requires RowsFit(rows, |cols|) && i < |rows| && j < |cols|
  {
    if IsQcColumn(cols[j]) then Fill(Clip(ColumnOf(rows, j)), limit)[i] else rows[i].vals[j]
  }

  /**
   * `qc_group(g, max_gap)` on one station's rows: every row is kept with its
   * key; the three QC columns are clipped and gap-filled column by column,
   * every other column is left alone.
   */
  function QcGroup(cols: seq<string>, rows: seq<Row>, limit: nat): (out: seq<Row>)
    requires RowsFit(rows, |cols|)
    ensures |out| == |rows| && RowsFit(out, |cols|)
    ensures forall i :: 0 <= i < |out| ==> out[i].station == rows[i].station && out[i].ts == rows[i].ts
    ensures forall i, j :: 0 <= i < |out| && 0 <= j < |cols| && !IsQcColumn(cols[j]) ==> out[i].vals[j] == rows[i].vals[j]
    ensures QcClean(out, cols)
    ensures forall i, j :: 0 <= i < |out| && 0 <= j < |cols| && IsQcColumn(cols[j]) && NonNegative(rows[i].vals[j]) && rows[i].vals[j].Some? ==>
      out[i].vals[j] == rows[i].vals[j]
    // each QC column is its clipped column with the gaps filled by `interpolate(limit)`
    ensures forall j :: 0 <= j < |cols| && IsQcColumn(cols[j]) ==> ColumnOf(out, j) == Fill(Clip(ColumnOf(rows, j)), limit)
  {
    var out := seq(|rows|, i requires 0 <= i < |rows| =>
      Row(rows[i].station, rows[i].ts, seq(|cols|, j requires 0 <= j < |cols| => QcCell(cols, rows, i, j, limit))));
    forall j | 0 <= j < |cols| && IsQcColumn(cols[j])
      ensures ColumnOf(out, j) == Fill(Clip(ColumnOf(rows, j)), limit)
    {
      assert forall i :: 0 <= i < |out| ==> ColumnOf(out, j)[i] == Fill(Clip(ColumnOf(rows, j)), limit)[i];
    }
    forall i, j | 0 <= i < |out| && 0 <= j < |cols| && IsQcColumn(cols[j])
      ensures NonNegative(out[i].vals[j])
    {
      FillKeepsNonNegative(Clip(ColumnOf(rows, j)), limit);
    }
    out
  }

  datatype QcError = MissingColumn(name: string)

  function QcStations(cols: seq<string>, rows: seq<Row>, sids: seq<string>, limit: nat): (blocks: seq<seq<Row>>)
    requires RowsFit(rows, |cols|)
    ensures |blocks| == |sids|
    ensures forall k :: 0 <= k < |sids| ==> blocks[k] == QcGroup(cols, StationRows(rows, sids[k]), limit)
    decreases |sids|
  {
    if |sids| == 0 then []
    else
      StationRowsFit(rows, sids[0], |cols|);
      var rest := QcStations(cols, rows, sids[1..], limit);
      assert forall k :: 1 <= k < |sids| ==> sids[k] == sids[1..][k - 1];
      [QcGroup(cols, StationRows(rows, sids[0]), limit)] + rest
  }

  function PresentIn(rows: seq<Row>, j: nat): (r: seq<Row>)
    requires forall i :: 0 <= i < |rows| ==> j < |rows[i].vals|
    ensures forall i :: 0 <= i < |r| ==> r[i] in rows && r[i].vals[j].Some?
    ensures forall i :: 0 <= i < |rows| && rows[i].vals[j].Some? ==> rows[i] in r
    decreases |rows|
  {
    if |rows| == 0 then []
    else
      assert forall i :: 1 <= i < |rows| ==> rows[i] == rows[1..][i - 1];
      if rows[0].vals[j].Some? then [rows[0]] + PresentIn(rows[1..], j) else PresentIn(rows[1..], j)
  }

  /** PresentIn of `rows[0]` followed by the rest. */
  lemma PresentInCons(rows: seq<Row>, j: nat)
    requires |rows| > 0 && forall i :: 0 <= i < |rows| ==> j < |rows[i].vals|
    ensures PresentIn(rows, j) == (if rows[0].vals[j].Some? then [rows[0]] else []) + PresentIn(rows[1..], j)
  {
  }

  /** Keeping the rows with a present value commutes with picking one station. */
  lemma {:induction false} StationRowsPresentIn(rows: seq<Row>, j: nat, sid: string)
    requires forall i :: 0 <= i < |rows| ==> j < |rows[i].vals|
    ensures forall i :: 0 <= i < |StationRows(rows, sid)| ==> j < |StationRows(rows, sid)[i].vals|
    ensures StationRows(PresentIn(rows, j), sid) == PresentIn(StationRows(rows, sid), j)
    decreases |rows|
  {
    if |rows| > 0 {
      StationRowsPresentIn(rows[1..], j, sid);
      var r0 := rows[0];
      var kept := PresentIn(rows[1..], j);
      PresentInCons(rows, j);
      var head := if r0.vals[j].Some? then [r0] else [];
      StationRowsAppend(head, kept, sid);
      assert StationRows(rows, sid) == (if r0.station == sid then [r0] else []) + StationRows(rows[1..], sid);
      if r0.station == sid {
        PresentInCons(StationRows(rows, sid), j);
        assert StationRows(rows, sid)[1..] == StationRows(rows[1..], sid);
      }
    } else {
      assert PresentIn(rows, j) == [];
    }
  }

  /** The rows of station `sid` after QC: its group QC'd, then only the rows with a present `q_cms`. */
  function StationKept(t: Table, sid: string, limit: nat): (rows: seq<Row>)
    requires WellFormed(t) && "q_cms" in t.cols
  {
    StationRowsFit(t.rows, sid, |t.cols|);
    PresentIn(QcGroup(t.cols, StationRows(t.rows, sid), limit), IndexOf(t.cols, "q_cms").value)
  }

  /**
   * The QC stage: `groupby('station_id').apply(qc_group)` (stations in
   * ascending order), then `dropna(subset=['q_cms'])`, which is a KeyError
   * when the table has no `q_cms` column.
   */
  function QcTable(t: Table, limit: nat): (r: Result<Table, QcError>)
    requires WellFormed(t)
    ensures r.Failure? <==> "q_cms" !in t.cols
    ensures r.Success? ==> WellFormed(r.value) && r.value.cols == t.cols
    ensures r.Success? ==> forall i :: 0 <= i < |r.value.rows| ==>
      r.value.rows[i].vals[IndexOf(t.cols, "q_cms").value].Some?
    ensures r.Success? ==> QcClean(r.value.rows, t.cols)
    // each station keeps exactly its QC'd rows that have a discharge value, in order
    ensures r.Success? ==> forall sid :: StationRows(r.value.rows, sid) == StationKept(t, sid, limit)
  {
    var sids := Stations(t.rows);
    var blocks := QcStations(t.cols, t.rows, sids, limit);
    var all := Flatten(blocks);
    QcBlocksFit(blocks, t.cols);
    match IndexOf(t.cols, "q_cms")
    case None => Failure(MissingColumn("q_cms"))
    case Some(j) =>
      var kept := PresentIn(all, j);
      QcKeptPerStation(t, limit, sids, blocks, j);
      Success(Table(t.cols, kept))
  }

  lemma QcKeptPerStation(t: Table, limit: nat, sids: seq<string>, blocks: seq<seq<Row>>, j: nat)
    requires WellFormed(t) && sids == Stations(t.rows) && blocks == QcStations(t.cols, t.rows, sids, limit)
    requires IndexOf(t.cols, "q_cms") == Some(j)
    requires RowsFit(Flatten(blocks), |t.cols|)
    ensures forall sid :: StationRows(PresentIn(Flatten(blocks), j), sid) == StationKept(t, sid, limit)
  {
    assert Blocked(blocks, sids) by {
      forall k, i | 0 <= k < |blocks| && 0 <= i < |blocks[k]|
        ensures blocks[k][i].station == sids[k]
      {
        StationRowsFit(t.rows, sids[k], |t.cols|);
        assert StationRows(t.rows, sids[k])[i].station == sids[k];
      }
      forall k, m | 0 <= k < m < |sids|
        ensures sids[k] != sids[m]
      {
        StrLtIrreflexive(sids[k]);
      }
    }
    forall sid
      ensures StationRows(PresentIn(Flatten(blocks), j), sid) == StationKept(t, sid, limit)
    {
      StationRowsPresentIn(Flatten(blocks), j, sid);
      StationRowsOfBlocks(blocks, sids, sid);
      if sid !in sids {
        StationRowsNone(t.rows, sid);
        StationRowsFit(t.rows, sid, |t.cols|);
        assert QcGroup(t.cols, StationRows(t.rows, sid), limit) == [];
      }
    }
  }

  /** Row shapes and non-negativity carry over from the station blocks to their concatenation. */
  lemma {:induction false} QcBlocksFit(blocks: seq<seq<Row>>, cols: seq<string>)
    requires forall k :: 0 <= k < |blocks| ==> RowsFit(blocks[k], |cols|)
    requires forall k :: 0 <= k < |blocks| ==> QcClean(blocks[k], cols)
    ensures RowsFit(Flatten(blocks), |cols|)
    ensures QcClean(Flatten(blocks), cols)
    decreases |blocks|
  {
    if |blocks| > 0 {
      QcBlocksFit(blocks[1..], cols);
      var all := Flatten(blocks);
      assert forall i :: |blocks[0]| <= i < |all| ==> all[i] == Flatten(blocks[1..])[i - |blocks[0]|];
    }
  }

  /**
   * The index labels the rows `PresentIn(rows, j)` keeps carry:
   * `reset_index()` numbers one station's QC'd rows 0, 1, 2, ..., and
   * `dropna` keeps each surviving row's number.
   */
  function KeptLabels(rows: seq<Row>, j: nat): (labels: seq<nat>)
    requires forall i :: 0 <= i < |rows| ==> j < |rows[i].vals|
    ensures forall k :: 0 <= k < |labels| ==> labels[k] < |rows| && rows[labels[k]].vals[j].Some?
    ensures forall k, m :: 0 <= k < m < |labels| ==> labels[k] < labels[m]
    ensures |rows| > 0 && rows[|rows| - 1].vals[j].Some? ==> |labels| > 0 && labels[|labels| - 1] == |rows| - 1
    decreases |rows|
  {
    if |rows| == 0 then []
    else
      var n := |rows| - 1;
      var init := KeptLabels(rows[..n], j);
      assert forall k :: 0 <= k < |init| ==> rows[init[k]] == rows[..n][init[k]];
      init + if rows[n].vals[j].Some? then [n] else []
  }

  /** PresentIn of all rows but the last, followed by the last one when it is kept. */
  lemma {:induction false} PresentInSnoc(rows: seq<Row>, j: nat)
    requires |rows| > 0 && forall i :: 0 <= i < |rows| ==> j < |rows[i].vals|
    ensures PresentIn(rows, j) == PresentIn(rows[..|rows| - 1], j) + (if rows[|rows| - 1].vals[j].Some? then [rows[|rows| - 1]] else [])
    decreases |rows|
  {
    var n := |rows| - 1;
    if n > 0 {
      PresentInSnoc(rows[1..], j);
      assert rows[1..][..n - 1] == rows[..n][1..];
      assert rows[1..][n - 1] == rows[n];
      PresentInCons(rows, j);
      PresentInCons(rows[..n], j);
    } else {
      assert rows[..n] == [];
      PresentInCons(rows, j);
    }
  }

  /** Label `k` names the position in `rows` of `kept[k]`, one label per kept row. */
  predicate Aligned(rows: seq<Row>, labels: seq<nat>, kept: seq<Row>)
  {
    |labels| == |kept| && forall k :: 0 <= k < |kept| ==> labels[k] < |rows| && rows[labels[k]] == kept[k]
  }

  /** Appending the last row, and its label when it is kept, keeps labels and rows aligned. */
  lemma AlignExtend(rows: seq<Row>, init: seq<nat>, prev: seq<Row>, last: bool, labels: seq<nat>, kept: seq<Row>)
    requires |rows| > 0 && Aligned(rows[..|rows| - 1], init, prev)
    requires labels == init + (if last then [|rows| - 1] else [])
    requires kept == prev + (if last then [rows[|rows| - 1]] else [])
    ensures Aligned(rows, labels, kept)
  {
    forall k | 0 <= k < |kept|
      ensures labels[k] < |rows| && rows[labels[k]] == kept[k]
    {
      if k < |init| {
        assert labels[k] == init[k] && kept[k] == prev[k];
        assert rows[..|rows| - 1][init[k]] == rows[init[k]];
      }
    }
  }

  /** The rows `dropna` keeps, filtered from the back (the same rows as `PresentIn`). */
  function KeptRows(rows: seq<Row>, j: nat): seq<Row>
    requires forall i :: 0 <= i < |rows| ==> j < |rows[i].vals|
    decreases |rows|
  {
    if |rows| == 0 then []
    else
      var n := |rows| - 1;
      KeptRows(rows[..n], j) + if rows[n].vals[j].Some? then [rows[n]] else []
  }

  /** Filtering from the back keeps the same rows as `PresentIn`. */
  lemma {:induction false} KeptRowsPresentIn(rows: seq<Row>, j: nat)
    requires forall i :: 0 <= i < |rows| ==> j < |rows[i].vals|
    ensures KeptRows(rows, j) == PresentIn(rows, j)
    decreases |rows|
  {
    if |rows| > 0 {
      KeptRowsPresentIn(rows[..|rows| - 1], j);
      PresentInSnoc(rows, j);
    }
  }

  /** The labels line up with the kept rows, filtered from the back. */
  lemma {:induction false} KeptLabelsAlignRows(rows: seq<Row>, j: nat)
    requires forall i :: 0 <= i < |rows| ==> j < |rows[i].vals|
    ensures Aligned(rows, KeptLabels(rows, j), KeptRows(rows, j))
    decreases |rows|
  {
    if |rows| > 0 {
      var n := |rows| - 1;
      KeptLabelsAlignRows(rows[..n], j);
      AlignExtend(rows, KeptLabels(rows[..n], j), KeptRows(rows[..n], j), rows[n].vals[j].Some?,
        KeptLabels(rows, j), KeptRows(rows, j));
    }
  }

  /** One label per kept row: the labels line up with `PresentIn(rows, j)`. */
  lemma KeptLabelsAlign(rows: seq<Row>, j: nat)
    requires forall i :: 0 <= i < |rows| ==> j < |rows[i].vals|
    ensures Aligned(rows, KeptLabels(rows, j), PresentIn(rows, j))
  {
    KeptLabelsAlignRows(rows, j);
    KeptRowsPresentIn(rows, j);
  }

  /** The QC'd block of station `sid`, before the rows without discharge are dropped. */
  function QcBlock(t: Table, sid: string, limit: nat): (rows: seq<Row>)
    requires WellFormed(t)
    ensures RowsFit(rows, |t.cols|) && |rows| == |StationRows(t.rows, sid)|
  {
    StationRowsFit(t.rows, sid, |t.cols|);
    QcGroup(t.cols, StationRows(t.rows, sid), limit)
  }

  /** Station `sid` has rows, and its newest QC'd row has a discharge value, so `dropna` keeps it. */
  predicate KeepsNewest(t: Table, sid: string, limit: nat)
    requires WellFormed(t) && "q_cms" in t.cols
  {
    var g := QcBlock(t, sid, limit);
    |g| > 0 && g[|g| - 1].vals[IndexOf(t.cols, "q_cms").value].Some?
  }

  /** The index labels of station `sid`'s kept rows, one per row of `StationKept`. */
  function StationLabels(t: Table, sid: string, limit: nat): (labels: seq<nat>)
    requires WellFormed(t) && "q_cms" in t.cols
    ensures |labels| == |StationKept(t, sid, limit)|
    ensures forall k :: 0 <= k < |labels| ==> labels[k] < |StationRows(t.rows, sid)|
    ensures KeepsNewest(t, sid, limit) ==> |labels| > 0 && labels[|labels| - 1] == |StationRows(t.rows, sid)| - 1
  {
    var g := QcBlock(t, sid, limit);
    var qi := IndexOf(t.cols, "q_cms").value;
    KeptLabelsAlign(g, qi);
    KeptLabels(g, qi)
  }

  /**
   * Labels are numbered per station, so they repeat across stations: two
   * stations with equally many rows whose newest QC'd row keeps its
   * discharge carry the same label on their newest kept row.
   */
  lemma SharedNewestLabel(t: Table, limit: nat, a: string, b: string)
    requires WellFormed(t) && "q_cms" in t.cols
    requires |StationRows(t.rows, a)| == |StationRows(t.rows, b)|
    requires KeepsNewest(t, a, limit) && KeepsNewest(t, b, limit)
    ensures |StationLabels(t, a, limit)| > 0 && |StationLabels(t, b, limit)| > 0
    ensures StationLabels(t, a, limit)[|StationLabels(t, a, limit)| - 1]
         == StationLabels(t, b, limit)[|StationLabels(t, b, limit)| - 1]
  {
  }
}

=== FILE: render.dfy ===
/**
 * Batch fan-chart rendering (`batch_render.py`): which hindcast files get a
 * chart, under which name, and with which title. The drawing itself is left
 * out; what is modelled is the file-name protocol between the hindcast and
 * the renderer.
 */
module Render {
  import opened Wrappers
  import opened Strings
  import opened Hindcast

  /** The last `_`-separated part of a stem: the horizon. */
  function LastPart(stem: string): string {
    var parts := Split(stem, '_');
    parts[|parts| - 1]
  }

  /**
   * `hindcast_{station}_{H}` back into its station and horizon: the parts
   * between the first and the last `_` are the station (none when there is
   * only one part), and the last part must parse as an integer; a stem whose
   * last part does not is skipped.
   */
  function ParseStem(stem: string): (r: Option<(string, int)>)
    ensures r.Some? <==> ParseInt(LastPart(stem)).Some?
    ensures r.Some? ==> r.value.1 == ParseInt(LastPart(stem)).value
  {
    var parts := Split(stem, '_');
    var station := if |parts| >= 2 then Join('_', parts[1..|parts| - 1]) else "";
    match ParseInt(parts[|parts| - 1])
    case None => None
    case Some(h) => Some((station, h))
  }

  /** Every stem the hindcast writes parses back into its own station and horizon. */
  lemma StemRoundTrip(sid: string, h: nat)
    ensures ParseStem(FileStem(sid, h)) == Some((sid, h as int))
  {
    var d := NatToString(h);
    assert forall k :: 0 <= k < |d| ==> IsDigit(d[k]);
    assert '_' !in d;
    assert FileStem(sid, h) == ("hindcast" + ['_'] + sid) + ['_'] + d;
    SplitLast("hindcast" + ['_'] + sid, d, '_');
    SplitAround("hindcast", sid, '_');
    SplitWithoutSep("hindcast", '_');
    var parts := Split(FileStem(sid, h), '_');
    assert parts == ["hindcast"] + Split(sid, '_') + [d];
    assert parts[1..|parts| - 1] == Split(sid, '_');
    JoinSplit(sid, '_');
    ParseIntRoundTrip(h);
    assert IntToString(h) == d;
  }

  /** A stem whose last part holds no digit is never rendered. */
  lemma NonNumericStemSkipped(stem: string)
    requires forall k :: 0 <= k < |LastPart(stem)| ==> !IsDigit(LastPart(stem)[k])
    ensures ParseStem(stem).None?
  {
    ParseIntRejects(LastPart(stem));
  }

  /** `--stations`/`--horizons`: an absent or empty filter passes everything, otherwise membership decides. */
  predicate Passes<T(==)>(filter: seq<T>, x: T) {
    |filter| == 0 || x in filter
  }

  /** The PNG a chart is written to. */
  function ChartName(station: string, h: int): string {
    "fanchart_" + station + "_" + IntToString(h) + ".png"
  }

  /** One chart to draw: the hindcast stem it reads and the PNG it writes. */
  datatype Chart = Chart(stem: string, station: string, h: int, png: string)

  datatype RenderError = NoHindcastFiles

  /** Whether a stem is rendered: it parses, and both filters pass its station and horizon. */
  predicate Selected(stem: string, stations: seq<string>, horizons: seq<int>) {
    match ParseStem(stem)
    case None => false
    case Some((station, h)) => Passes(stations, station) && Passes(horizons, h)
  }

  /** The chart of a selected stem. */
  function ChartOf(stem: string): Chart
    requires ParseStem(stem).Some?
  {
    var (station, h) := ParseStem(stem).value;
    Chart(stem, station, h, ChartName(station, h))
  }

  /**
   * A chart is drawn for a selected stem, with the station and horizon the
   * stem encodes and the PNG named after them.
   */
  predicate ValidChart(c: Chart, stations: seq<string>, horizons: seq<int>) {
    && ParseStem(c.stem) == Some((c.station, c.h))
    && Passes(stations, c.station) && Passes(horizons, c.h)
    && c.png == ChartName(c.station, c.h)
  }

  /** The charts of the given stems, in order, skipping unparsable and filtered-out stems. */
  function Charts(stems: seq<string>, stations: seq<string>, horizons: seq<int>): (cs: seq<Chart>)
    ensures |cs| <= |stems|
    ensures forall k :: 0 <= k < |cs| ==> cs[k].stem in stems && ValidChart(cs[k], stations, horizons)
    decreases |stems|
  {
    if |stems| == 0 then []
    else
      var rest := Charts(stems[1..], stations, horizons);
      if Selected(stems[0], stations, horizons) then [ChartOf(stems[0])] + rest else rest
  }

  predicate HasChart(cs: seq<Chart>, stem: string) {
    exists k :: 0 <= k < |cs| && cs[k].stem == stem
  }

  lemma HasChartCons(c: Chart, cs: seq<Chart>, stem: string)
    ensures HasChart([c] + cs, stem) <==> c.stem == stem || HasChart(cs, stem)
  {
    assert ([c] + cs)[0] == c;
    if HasChart(cs, stem) {
      var k :| 0 <= k < |cs| && cs[k].stem == stem;
      assert ([c] + cs)[k + 1].stem == stem;
    }
    if HasChart([c] + cs, stem) && c.stem != stem {
      var k :| 0 <= k < |[c] + cs| && ([c] + cs)[k].stem == stem;
      assert k != 0;
      assert cs[k - 1] == ([c] + cs)[k];
    }
  }

  /** A stem gets a chart exactly when it is one of the files and it is selected. */
  lemma {:induction false} ChartsComplete(stems: seq<string>, stations: seq<string>, horizons: seq<int>, stem: string)
    ensures HasChart(Charts(stems, stations, horizons), stem) <==> stem in stems && Selected(stem, stations, horizons)
    decreases |stems|
  {
    if |stems| > 0 {
      ChartsComplete(stems[1..], stations, horizons, stem);
      var rest := Charts(stems[1..], stations, horizons);
      assert forall y :: y in stems <==> y == stems[0] || y in stems[1..];
      if Selected(stems[0], stations, horizons) {
        HasChartCons(ChartOf(stems[0]), rest, stem);
      }
    }
  }

  /** `batch_render`: no hindcast file at all is fatal; otherwise the charts of the files. */
  function RenderPlan(stems: seq<string>, stations: seq<string>, horizons: seq<int>): (r: Result<seq<Chart>, RenderError>)
    ensures r.Failure? <==> |stems| == 0
    ensures r.Success? ==> r.value == Charts(stems, stations, horizons)
  {
    if |stems| == 0 then Failure(NoHindcastFiles) else Success(Charts(stems, stations, horizons))
  }

  /**
   * The minutes in a chart title: the file's `horizon_minutes` when that
   * column exists, otherwise fifteen times its `horizon_steps`.
   */
  function TitleMinutes(hasMinutes: bool, first: Record): (m: int)
    ensures hasMinutes ==> m == first.minutes
    ensures !hasMinutes ==> m == StepMinutes * first.steps
  {
    if hasMinutes then first.minutes else first.steps * StepMinutes
  }

  /** For any hindcast row, both ways of titling the chart give the same minutes. */
  lemma TitleAgrees(r: Record)
    requires r.minutes == StepMinutes * r.steps
    ensures TitleMinutes(true, r) == TitleMinutes(false, r)
  {
  }

  /** With no filters, every file the hindcast wrote gets the chart named after its own station and horizon. */
  lemma HindcastFilesCharted(sid: string, h: nat)
    ensures Charts([FileStem(sid, h)], [], []) == [Chart(FileStem(sid, h), sid, h, ChartName(sid, h))]
  {
    StemRoundTrip(sid, h);
  }
}

=== FILE: rolling.dfy ===
/**
 * Rolling skill metrics over a hindcast (`rolling_metrics.py`): for every
 * position, the guarded MAE, NSE, KGE and p10–p90 coverage of the trailing
 * window of `w` points that ends there; positions before the first full
 * window have no scores.
 */
module Rolling {
  import opened Wrappers
  import opened Strings
  import opened Seqs
  import opened Metrics
  import opened Hindcast

  /** The four scores at one position; `None` is NaN. */
  datatype WindowScores = WindowScores(mae: Option<real>, nse: Option<real>, kge: Option<real>, coverage: Option<real>)

  const NoScores: WindowScores := WindowScores(None, None, None, None)

  /** The columns of one hindcast file that the metrics read, sorted by time. */
  datatype Series = Series(y: seq<real>, yhat: seq<real>, p10: seq<real>, p90: seq<real>)

  predicate Aligned(s: Series) {
    |s.yhat| == |s.y| && |s.p10| == |s.y| && |s.p90| == |s.y|
  }

  /** The scores of the points `lo..hi` (`sl = slice(lo, hi)`). */
  function ScoreSlice(s: Series, lo: nat, hi: nat, kge: KgeFormula): (r: WindowScores)
    requires Aligned(s) && lo <= hi <= |s.y|
    ensures r.mae.None? <==> lo == hi
    ensures r.coverage.None? <==> lo == hi
    ensures r.mae.Some? ==> r.mae.value >= 0.0
    ensures r.nse.Some? ==> r.nse.value <= 1.0
    ensures r.coverage.Some? ==> 0.0 <= r.coverage.value <= 1.0
  {
    WindowScores(
      WindowMae(s.y[lo..hi], s.yhat[lo..hi]),
      WindowNse(s.y[lo..hi], s.yhat[lo..hi]),
      WindowKge(s.y[lo..hi], s.yhat[lo..hi], kge),
      WindowCoverage(s.y[lo..hi], s.p10[lo..hi], s.p90[lo..hi]))
  }

  /**
   * The scores at position `k`: those of the `w` points ending at `k` when
   * there are that many, none otherwise.
   */
  function ScoresAt(s: Series, w: nat, kge: KgeFormula, k: nat): (r: WindowScores)
    requires Aligned(s) && k < |s.y|
    ensures r.mae.Some? <==> 0 < w <= k + 1
    ensures r.coverage.Some? <==> 0 < w <= k + 1
    ensures r.mae.Some? ==> r.mae.value >= 0.0
    ensures r.nse.Some? ==> r.nse.value <= 1.0
    ensures r.coverage.Some? ==> 0.0 <= r.coverage.value <= 1.0
  {
    if w <= k + 1 then ScoreSlice(s, k + 1 - w, k + 1, kge) else NoScores
  }

  /** An empty slice scores nothing. */
  lemma EmptySlice(s: Series, i: nat, kge: KgeFormula)
    requires Aligned(s) && i <= |s.y|
    ensures ScoreSlice(s, i, i, kge) == NoScores
  {
  }

  datatype RollError = IndexError

  /** The output columns after the passes of the loop before `i`: positions `< i - 1` hold their scores, the rest NaN. */
  predicate Filled(s: Series, w: nat, kge: KgeFormula, out: seq<WindowScores>, i: nat)
    requires Aligned(s)
  {
    && |out| == |s.y|
    && forall k :: 0 <= k < |out| ==> out[k] == if k + 1 < i then ScoresAt(s, w, kge, k) else NoScores
  }

  /** One pass `i >= 1` writes the window ending at `i - 1` into position `i - 1`. */
  lemma FillStep(s: Series, w: nat, kge: KgeFormula, out: seq<WindowScores>, i: nat)
    requires Aligned(s) && w <= i <= |s.y| && 0 < i
    requires Filled(s, w, kge, out, i)
    ensures Filled(s, w, kge, out[i - 1 := ScoreSlice(s, i - w, i, kge)], i + 1)
  {
    var next := out[i - 1 := ScoreSlice(s, i - w, i, kge)];
    forall k | 0 <= k < |next|
      ensures next[k] == if k + 1 < i + 1 then ScoresAt(s, w, kge, k) else NoScores
    {
      if k == i - 1 {
        assert ScoresAt(s, w, kge, k) == ScoreSlice(s, i - w, i, kge);
      } else {
        assert next[k] == out[k];
      }
    }
  }

  /** With `w == 0` the first pass writes an empty window into the last position, which changes nothing. */
  lemma FillWrap(s: Series, kge: KgeFormula, out: seq<WindowScores>)
    requires Aligned(s) && 0 < |s.y|
    requires Filled(s, 0, kge, out, 0)
    ensures Filled(s, 0, kge, out[|s.y| - 1 := ScoreSlice(s, 0, 0, kge)], 1)
  {
    EmptySlice(s, 0, kge);
  }

  /**
   * The loop of the script: `for i in range(w, n+1): out[i-1] = scores of
   * slice(i-w, i)`, starting from all-NaN columns. With `w == 0` the first
   * pass writes `out[-1]`, the last element, which fails on an empty file.
   */
  method RollingMetrics(s: Series, w: nat, kge: KgeFormula) returns (r: Result<seq<WindowScores>, RollError>)
    requires Aligned(s)
    ensures r.Failure? <==> |s.y| == 0 && w == 0
    ensures r.Success? ==> |r.value| == |s.y|
    ensures r.Success? ==> forall k :: 0 <= k < |s.y| ==> r.value[k] == ScoresAt(s, w, kge, k)
  {
    var n := |s.y|;
    var out: seq<WindowScores> := seq(n, _ => NoScores);
    if w <= n {
      var i := w;
      while i <= n
        invariant w <= i <= n + 1
        invariant Filled(s, w, kge, out, i)
        invariant 0 < i ==> 0 < n || 0 < w
      {
        var sc := ScoreSlice(s, i - w, i, kge);
        if i == 0 {
          if n == 0 {
            return Failure(IndexError);
          }
          FillWrap(s, kge, out);
          out := out[n - 1 := sc];
        } else {
          FillStep(s, w, kge, out, i);
          out := out[i - 1 := sc];
        }
        i := i + 1;
      }
    }
    return Success(out);
  }

  /** The reference result of the loop: every position's trailing-window scores. */
  function Rolling(s: Series, w: nat, kge: KgeFormula): (r: seq<WindowScores>)
    requires Aligned(s)
    ensures |r| == |s.y|
  {
    seq(|s.y|, k requires 0 <= k < |s.y| => ScoresAt(s, w, kge, k))
  }

  /** The scores at a position depend only on the `w` points ending there: nothing after it leaks in. */
  lemma LookBackOnly(s: Series, t: Series, w: nat, kge: KgeFormula, k: nat)
    requires Aligned(s) && Aligned(t) && k < |s.y| && k < |t.y|
    requires forall i :: 0 <= i && k + 1 - w <= i <= k ==>
      s.y[i] == t.y[i] && s.yhat[i] == t.yhat[i] && s.p10[i] == t.p10[i] && s.p90[i] == t.p90[i]
    ensures ScoresAt(s, w, kge, k) == ScoresAt(t, w, kge, k)
  {
    if w <= k + 1 {
      var lo := k + 1 - w;
      assert s.y[lo..k + 1] == t.y[lo..k + 1];
      assert s.yhat[lo..k + 1] == t.yhat[lo..k + 1];
      assert s.p10[lo..k + 1] == t.p10[lo..k + 1];
      assert s.p90[lo..k + 1] == t.p90[lo..k + 1];
    }
  }

  /** A file shorter than the window gets no scores at all. */
  lemma ShortSeriesUnscored(s: Series, w: nat, kge: KgeFormula)
    requires Aligned(s) && |s.y| < w
    ensures Rolling(s, w, kge) == seq(|s.y|, _ => NoScores)
  {
  }

  /** Where every observation of the window lies inside its band, the coverage is one. */
  lemma FullCoverage(s: Series, w: nat, kge: KgeFormula, k: nat)
    requires Aligned(s) && k < |s.y| && 0 < w <= k + 1
    requires forall i :: 0 <= i && k + 1 - w <= i <= k ==> Covered(s.y[i], s.p10[i], s.p90[i])
    ensures ScoresAt(s, w, kge, k).coverage == Some(1.0)
  {
    var lo := k + 1 - w;
    CoverageExtremes(s.y[lo..k + 1], s.p10[lo..k + 1], s.p90[lo..k + 1]);
  }

  /**
   * The horizon of a file: its `horizon_steps` when the column exists,
   * otherwise `horizon_minutes // 15` (floor division).
   */
  function HorizonOf(steps: Option<int>, minutes: int): (h: int)
    ensures steps.None? ==> StepMinutes * h <= minutes < StepMinutes * (h + 1)
    ensures steps.Some? ==> h == steps.value
  {
    match steps
    case Some(st) => st
    case None => minutes / StepMinutes
  }

  /** The fallback recovers the horizon of any hindcast record, whose minutes are fifteen times its steps. */
  lemma HorizonFallbackAgrees(r: Record)
    requires r.minutes == StepMinutes * r.steps
    ensures HorizonOf(None, r.minutes) == HorizonOf(Some(r.steps), r.minutes) == r.steps
  {
  }

  /** Sorting the records of a file by `ts`. */
  function ByTs(r: Record): int {
    r.ts
  }

  /** One metrics file: where it goes and its rows. */
  datatype MetricsRow = MetricsRow(ts: int, station: string, steps: int, window: nat, scores: WindowScores)
  datatype MetricsFile = MetricsFile(stem: string, rows: seq<MetricsRow>)

  datatype MetricsError = NoFiles | EmptyFile

  function SeriesOf(recs: seq<Record>): (s: Series)
    ensures Aligned(s) && |s.y| == |recs|
  {
    Series(
      seq(|recs|, k requires 0 <= k < |recs| => recs[k].yTrue),
      seq(|recs|, k requires 0 <= k < |recs| => recs[k].p50),
      seq(|recs|, k requires 0 <= k < |recs| => recs[k].p10),
      seq(|recs|, k requires 0 <= k < |recs| => recs[k].p90))
  }

  /** The name `metrics_{sid}_{H}_w{w}` of the output. */
  function MetricsStem(sid: string, h: int, w: nat): string {
    "metrics_" + sid + "_" + IntToString(h) + "_w" + NatToString(w)
  }

  /**
   * `m` is the metrics file of the records: rows in time order, each with
   * the first row's station, one horizon (the first row's steps, or without
   * that column its minutes floor-divided by 15), the window and the
   * trailing-window scores at its position; written to `metrics_{sid}_{H}_w{w}`.
   */
  predicate FileScored(recs: seq<Record>, hasSteps: bool, w: nat, kge: KgeFormula, m: MetricsFile)
    requires |recs| > 0 && |m.rows| == |recs|
  {
    var sorted := SortBy(recs, ByTs);
    var h := m.rows[0].steps;
    && multiset(sorted) == multiset(recs)
    && (hasSteps ==> h == sorted[0].steps)
    && (!hasSteps ==> StepMinutes * h <= sorted[0].minutes < StepMinutes * (h + 1))
    && (!hasSteps && sorted[0].minutes == StepMinutes * sorted[0].steps ==> h == sorted[0].steps)
    && m.stem == MetricsStem(sorted[0].station, h, w)
    && forall k :: 0 <= k < |recs| ==>
         && m.rows[k].ts == sorted[k].ts
         && m.rows[k].station == sorted[0].station
         && m.rows[k].steps == h && m.rows[k].window == w
         && m.rows[k].scores == ScoresAt(SeriesOf(sorted), w, kge, k)
  }

  /**
   * One hindcast file: sort by time, take the station and the horizon from
   * the first row (which an empty file does not have), and score every
   * position. `hasSteps` says whether the file has a `horizon_steps` column.
   */
  function FileMetrics(recs: seq<Record>, hasSteps: bool, w: nat, kge: KgeFormula): (r: Result<MetricsFile, MetricsError>)
    ensures r.Failure? <==> |recs| == 0
    ensures r.Success? ==> |r.value.rows| == |recs| && FileScored(recs, hasSteps, w, kge, r.value)
  {
    if |recs| == 0 then Failure(EmptyFile)
    else
      var sorted := SortBy(recs, ByTs);
      var sid := sorted[0].station;
      var h := HorizonOf(if hasSteps then Some(sorted[0].steps as int) else None, sorted[0].minutes);
      Success(MetricsFile(MetricsStem(sid, h, w), MetricsRows(sorted, sid, h, w, kge)))
  }

  /** The rows of the output frame: each record's time, the file's station, horizon and window, and the scores there. */
  function MetricsRows(sorted: seq<Record>, sid: string, h: int, w: nat, kge: KgeFormula): (rows: seq<MetricsRow>)
    ensures |rows| == |sorted|
    ensures forall k :: 0 <= k < |sorted| ==>
      && rows[k].ts == sorted[k].ts && rows[k].station == sid && rows[k].steps == h && rows[k].window == w
      && rows[k].scores == ScoresAt(SeriesOf(sorted), w, kge, k)
  {
    var scores := Rolling(SeriesOf(sorted), w, kge);
    seq(|sorted|, k requires 0 <= k < |sorted| => MetricsRow(sorted[k].ts, sid, h, w, scores[k]))
  }

  /** The whole run: no hindcast files at all is fatal; otherwise every file in turn. */
  function RunMetrics(files: seq<(seq<Record>, bool)>, w: nat, kge: KgeFormula): (r: Result<seq<MetricsFile>, MetricsError>)
    ensures |files| == 0 ==> r == Failure(NoFiles)
    // fails when there is nothing to read or some hindcast file is empty
    ensures r.Failure? <==> |files| == 0 || exists k :: 0 <= k < |files| && |files[k].0| == 0
    ensures r.Success? ==> |r.value| == |files|
    ensures r.Success? ==> forall k :: 0 <= k < |files| ==> FileMetrics(files[k].0, files[k].1, w, kge) == Success(r.value[k])
  {
    if |files| == 0 then Failure(NoFiles) else MetricsEach(files, w, kge)
  }

  function MetricsEach(files: seq<(seq<Record>, bool)>, w: nat, kge: KgeFormula): (r: Result<seq<MetricsFile>, MetricsError>)
    ensures r.Success? ==> |r.value| == |files|
    ensures r.Success? ==> forall k :: 0 <= k < |files| ==> FileMetrics(files[k].0, files[k].1, w, kge) == Success(r.value[k])
    ensures r.Failure? <==> exists k :: 0 <= k < |files| && |files[k].0| == 0
  {
    var rs := seq(|files|, k requires 0 <= k < |files| => FileMetrics(files[k].0, files[k].1, w, kge));
    assert forall k :: 0 <= k < |files| ==> (rs[k].Failure? <==> |files[k].0| == 0);
    AllOk(rs)
  }
}

=== FILE: seqs.dfy ===
/** Generic sequence helpers: concatenation of blocks, first-appearance
    de-duplication (pandas `unique`) and a stable sort by an integer key. */
module Seqs {

  function Flatten<T>(ss: seq<seq<T>>): (r: seq<T>)
    decreases |ss|
  {
    if |ss| == 0 then [] else ss[0] + Flatten(ss[1..])
  }

  lemma {:induction false} FlattenLength<T>(ss: seq<seq<T>>)
    ensures (forall k :: 0 <= k < |ss| ==> |ss[k]| == 0) ==> Flatten(ss) == []
    decreases |ss|
  {
    if |ss| > 0 {
      FlattenLength(ss[1..]);
    }
  }

  lemma {:induction false} FlattenMember<T>(ss: seq<seq<T>>, x: T)
    ensures x in Flatten(ss) <==> exists k :: 0 <= k < |ss| && x in ss[k]
    decreases |ss|
  {
    if |ss| > 0 {
      FlattenMember(ss[1..], x);
      if x in Flatten(ss[1..]) {
        var k :| 0 <= k < |ss[1..]| && x in ss[1..][k];
        assert x in ss[k + 1];
      }
      if exists k :: 0 <= k < |ss| && x in ss[k] {
        var k :| 0 <= k < |ss| && x in ss[k];
        if k > 0 {
          assert x in ss[1..][k - 1];
        }
      }
    }
  }

  lemma FlattenAppend<T>(a: seq<seq<T>>, b: seq<seq<T>>)
    ensures Flatten(a + b) == Flatten(a) + Flatten(b)
    decreases |a|
  {
    if |a| == 0 {
      assert a + b == b;
    } else {
      assert (a + b)[1..] == a[1..] + b;
      FlattenAppend(a[1..], b);
    }
  }

  /** The position of the first occurrence of `y` in `xs` (Python's `list.index`). */
  function FirstIndex<T(==)>(xs: seq<T>, y: T): (i: nat)
    requires y in xs
    ensures i < |xs| && xs[i] == y && y !in xs[..i]
    decreases |xs|
  {
    if xs[0] == y then 0
    else
      assert y in xs[1..];
      var i := FirstIndex(xs[1..], y);
      assert xs[..i + 1] == [xs[0]] + xs[1..][..i];
      i + 1
  }

  /** A position holding `y` with no `y` before it is the first occurrence. */
  lemma FirstIndexAt<T>(xs: seq<T>, y: T, i: nat)
    requires i < |xs| && xs[i] == y && y !in xs[..i]
    ensures FirstIndex(xs, y) == i
  {
    var f := FirstIndex(xs, y);
    NotBefore(xs, y, i);
    NotBefore(xs, y, f);
  }

  lemma NotBefore<T>(xs: seq<T>, y: T, i: nat)
    requires i <= |xs| && y !in xs[..i]
    ensures forall q :: 0 <= q < i ==> xs[q] != y
  {
    forall q | 0 <= q < i
      ensures xs[q] != y
    {
      assert xs[..i][q] == xs[q];
    }
  }

  /** Extending a sequence does not move the first occurrence of an element it already holds. */
  lemma FirstIndexPrefix<T>(p: seq<T>, xs: seq<T>, y: T)
    requires |p| <= |xs| && p == xs[..|p|] && y in p
    ensures FirstIndex(xs, y) == FirstIndex(p, y)
  {
    var i := FirstIndex(p, y);
    assert xs[..i] == p[..i];
    FirstIndexAt(xs, y, i);
  }

  /** The distinct elements of `xs` in order of first appearance (pandas `Series.unique`). */
  function Unique<T(==,!new)>(xs: seq<T>): (r: seq<T>)
    ensures forall y :: y in r <==> y in xs
    ensures forall i, j :: 0 <= i < j < |r| ==> r[i] != r[j]
    ensures forall i, j :: 0 <= i < j < |r| ==> FirstIndex(xs, r[i]) < FirstIndex(xs, r[j])
    decreases |xs|
  {
    if |xs| == 0 then []
    else
      var p, x := xs[..|xs| - 1], xs[|xs| - 1];
      var u := Unique(p);
      assert forall y :: y in xs <==> y in p || y == x;
      assert forall k :: 0 <= k < |u| ==> FirstIndex(xs, u[k]) == FirstIndex(p, u[k]) by {
        forall k | 0 <= k < |u|
          ensures FirstIndex(xs, u[k]) == FirstIndex(p, u[k])
        {
          FirstIndexPrefix(p, xs, u[k]);
        }
      }
      if x in u then u
      else
        assert xs[..|xs| - 1] == p;
        FirstIndexAt(xs, x, |xs| - 1);
        u + [x]
  }

  /** `Flatten(ss)` holds `ss[f][k]` right after the elements of the blocks before `f`. */
  lemma FlattenAt<T>(ss: seq<seq<T>>, f: nat, k: nat)
    requires f < |ss| && k < |ss[f]|
    ensures |Flatten(ss[..f])| + k < |Flatten(ss)|
    ensures Flatten(ss)[|Flatten(ss[..f])| + k] == ss[f][k]
  {
    assert ss == ss[..f] + ss[f..];
    FlattenAppend(ss[..f], ss[f..]);
    assert ss[f..][1..] == ss[f + 1..];
  }

  ghost predicate SortedBy<T>(s: seq<T>, key: T -> int) {
    forall i, j :: 0 <= i < j < |s| ==> key(s[i]) <= key(s[j])
  }

  function InsertBy<T>(x: T, s: seq<T>, key: T -> int): (r: seq<T>)
    requires SortedBy(s, key)
    ensures SortedBy(r, key)
    ensures multiset(r) == multiset(s) + multiset{x}
    decreases |s|
  {
    if |s| == 0 then [x]
    else if key(x) <= key(s[0]) then [x] + s
    else
      var t := InsertBy(x, s[1..], key);
      assert s == [s[0]] + s[1..];
      assert forall k :: 0 <= k < |t| ==> key(s[0]) <= key(t[k]) by {
        forall k | 0 <= k < |t|
          ensures key(s[0]) <= key(t[k])
        {
          assert t[k] in multiset(t);
          if t[k] != x {
            assert t[k] in multiset(s[1..]);
            var m :| 0 <= m < |s[1..]| && s[1..][m] == t[k];
            assert s[m + 1] == t[k];
          }
        }
      }
      [s[0]] + t
  }

  /** Stable insertion sort by `key`: rows with equal keys keep their input order. */
  function SortBy<T>(s: seq<T>, key: T -> int): (r: seq<T>)
    ensures SortedBy(r, key)
    ensures multiset(r) == multiset(s)
    ensures |r| == |s|
    decreases |s|
  {
    if |s| == 0 then []
    else
      assert s == [s[0]] + s[1..];
      var r := InsertBy(s[0], SortBy(s[1..], key), key);
      assert |r| == |multiset(r)|;
      r
  }

  /** Sorting what is already sorted changes nothing. */
  lemma {:induction false} SortByIdentity<T>(s: seq<T>, key: T -> int)
    requires SortedBy(s, key)
    ensures SortBy(s, key) == s
    decreases |s|
  {
    if |s| > 0 {
      SortByIdentity(s[1..], key);
      assert s == [s[0]] + s[1..];
    }
  }

  /** The sum of a list of reals (`np.sum`, exact). */
  function Sum(xs: seq<real>): real
    decreases |xs|
  {
    if |xs| == 0 then 0.0 else xs[0] + Sum(xs[1..])
  }
}

=== FILE: strings.dfy ===
/**
 * The small string operations the pipeline relies on: decimal rendering of
 * integers (Python `str(int)`), parsing (Python `int(str)`), splitting and
 * joining on one separator character, right-stripping, and the code-point
 * lexicographic order Python uses to compare strings.
 */
module Strings {
  import opened Wrappers

  predicate IsDigit(c: char) {
    '0' <= c <= '9'
  }

  predicate AllDigits(s: string) {
    forall i :: 0 <= i < |s| ==> IsDigit(s[i])
  }

  function DigitValue(c: char): nat
    requires IsDigit(c)
  {
    c as int - '0' as int
  }

  function DigitChar(d: nat): (c: char)
    requires d < 10
    ensures IsDigit(c) && DigitValue(c) == d
  {
    ('0' as int + d) as char
  }

  /** Decimal digits of `n`, most significant first, without leading zeros. */
  function NatToString(n: nat): (s: string)
    ensures |s| > 0 && AllDigits(s)
    ensures n > 0 ==> s[0] != '0'
    decreases n
  {
    if n < 10 then [DigitChar(n)] else NatToString(n / 10) + [DigitChar(n % 10)]
  }

  /** Python `str(i)` for an integer: an optional '-' and the decimal digits. */
  function IntToString(i: int): (s: string)
    ensures |s| > 0
    ensures forall k :: 0 <= k < |s| ==> IsDigit(s[k]) || (k == 0 && s[k] == '-' && i < 0)
  {
    if i < 0 then "-" + NatToString(-i) else NatToString(i)
  }

  /** The number a non-empty run of decimal digits denotes (leading zeros allowed). */
  function DigitsValue(s: string): nat
    requires AllDigits(s)
    decreases |s|
  {
    if |s| == 0 then 0 else 10 * DigitsValue(s[..|s| - 1]) + DigitValue(s[|s| - 1])
  }

  lemma {:induction false} DigitsOfNat(n: nat)
    ensures DigitsValue(NatToString(n)) == n
    decreases n
  {
    if n >= 10 {
      var s := NatToString(n);
      assert s[..|s| - 1] == NatToString(n / 10);
      DigitsOfNat(n / 10);
    }
  }

  /** The ASCII characters Python's `str.strip()` and `int()` treat as white space. */
  predicate IsSpace(c: char) {
    c == ' ' || 9 <= c as int <= 13 || 28 <= c as int <= 31
  }

  function StripLeft(s: string): (r: string)
    ensures |r| <= |s| && r == s[|s| - |r|..]
    ensures |r| > 0 ==> !IsSpace(r[0])
    decreases |s|
  {
    if |s| > 0 && IsSpace(s[0]) then StripLeft(s[1..]) else s
  }

  function StripRight(s: string): (r: string)
    ensures |r| <= |s| && r == s[..|r|]
    ensures |r| > 0 ==> !IsSpace(r[|r| - 1])
    decreases |s|
  {
    if |s| > 0 && IsSpace(s[|s| - 1]) then StripRight(s[..|s| - 1]) else s
  }

  /**
   * Python `int(s)` on a string: surrounding white space is ignored, then an
   * optional sign and at least one decimal digit must make up the rest;
   * anything else is the ValueError, here `None`.
   */
  function ParseInt(s: string): Option<int> {
    var t := StripRight(StripLeft(s));
    if |t| > 1 && (t[0] == '-' || t[0] == '+') && AllDigits(t[1..]) then
      var v: int := DigitsValue(t[1..]);
      Some(if t[0] == '-' then -v else v)
    else if |t| > 0 && AllDigits(t) then
      Some(DigitsValue(t))
    else
      None
  }

  lemma StripDigits(s: string)
    requires |s| > 0 && (IsDigit(s[0]) || s[0] == '-') && IsDigit(s[|s| - 1])
    ensures StripRight(StripLeft(s)) == s
  {
    assert !IsSpace(s[0]);
    assert StripLeft(s) == s;
    assert !IsSpace(s[|s| - 1]);
  }

  /** `int(str(i)) == i` for a non-negative integer: its digits parse back to it. */
  lemma ParseNatDigits(i: int)
    requires i >= 0
    ensures ParseInt(IntToString(i)) == Some(i)
  {
    var s := NatToString(i);
    assert IntToString(i) == s;
    StripDigits(s);
    assert IsDigit(s[0]);
    DigitsOfNat(i);
  }

  /** `int(str(i)) == i` for a negative integer: '-' and the digits of `-i` parse back to it. */
  lemma ParseNegativeDigits(i: int)
    requires i < 0
    ensures ParseInt(IntToString(i)) == Some(i)
  {
    var d := NatToString(-i);
    var s := "-" + d;
    assert IntToString(i) == s;
    assert s[1..] == d;
    assert s[|s| - 1] == d[|d| - 1];
    StripDigits(s);
    assert |s| > 1 && s[0] == '-' && AllDigits(s[1..]);
    DigitsOfNat(-i);
    assert DigitsValue(s[1..]) == -i;
  }

  /** `int(str(i)) == i` for every integer. */
  lemma ParseIntRoundTrip(i: int)
    ensures ParseInt(IntToString(i)) == Some(i)
  {
    if i < 0 {
      ParseNegativeDigits(i);
    } else {
      ParseNatDigits(i);
    }
  }

  /** A string holding no digit at all is never an integer. */
  lemma ParseIntRejects(s: string)
    requires forall k :: 0 <= k < |s| ==> !IsDigit(s[k])
    ensures ParseInt(s) == None
  {
    var t := StripRight(StripLeft(s));
    if |t| > 0 {
      assert t[|t| - 1] in s;
    }
  }

  /** Python `s.split(sep)` for a one-character separator. */
  function Split(s: string, sep: char): (parts: seq<string>)
    ensures |parts| >= 1
    ensures forall k :: 0 <= k < |parts| ==> sep !in parts[k]
    decreases |s|
  {
    if |s| == 0 then [""]
    else
      var rest := Split(s[1..], sep);
      if s[0] == sep then [""] + rest else [[s[0]] + rest[0]] + rest[1..]
  }

  /** Python `sep.join(parts)`. */
  function Join(sep: char, parts: seq<string>): string
    decreases |parts|
  {
    if |parts| == 0 then ""
    else if |parts| == 1 then parts[0]
    else parts[0] + [sep] + Join(sep, parts[1..])
  }

  lemma JoinCons(sep: char, c: char, parts: seq<string>)
    requires |parts| >= 1
    ensures Join(sep, [[c] + parts[0]] + parts[1..]) == [c] + Join(sep, parts)
  {
    var ps := [[c] + parts[0]] + parts[1..];
    if |parts| > 1 {
      assert ps[1..] == parts[1..];
    }
  }

  /** Joining the parts of a split gives back the string. */
  lemma {:induction false} JoinSplit(s: string, sep: char)
    ensures Join(sep, Split(s, sep)) == s
    decreases |s|
  {
    if |s| > 0 {
      var rest := Split(s[1..], sep);
      JoinSplit(s[1..], sep);
      if s[0] == sep {
        assert ([""] + rest)[1..] == rest;
      } else {
        JoinCons(sep, s[0], rest);
      }
    }
  }

  /** Splitting at a separator that was placed between two strings. */
  lemma {:induction false} SplitAround(a: string, b: string, sep: char)
    ensures Split(a + [sep] + b, sep) == Split(a, sep) + Split(b, sep)
    decreases |a|
  {
    var s := a + [sep] + b;
    if |a| == 0 {
      assert s[1..] == b;
    } else {
      assert s[1..] == a[1..] + [sep] + b;
      SplitAround(a[1..], b, sep);
    }
  }

  lemma {:induction false} SplitWithoutSep(s: string, sep: char)
    requires sep !in s
    ensures Split(s, sep) == [s]
    decreases |s|
  {
    if |s| > 0 {
      assert sep !in s[1..];
      SplitWithoutSep(s[1..], sep);
      assert s == [s[0]] + s[1..];
    }
  }

  /** Splitting where the last piece holds no separator: that piece comes out last, whole. */
  lemma SplitLast(a: string, b: string, sep: char)
    requires sep !in b
    ensures Split(a + [sep] + b, sep) == Split(a, sep) + [b]
  {
    SplitAround(a, b, sep);
    SplitWithoutSep(b, sep);
  }

  /** `NatToString` is one-to-one. */
  lemma NatToStringInjective(m: nat, n: nat)
    requires NatToString(m) == NatToString(n)
    ensures m == n
  {
    DigitsOfNat(m);
    DigitsOfNat(n);
  }

  /** Python `s.rstrip(c)`: every trailing occurrence of `c` removed. */
  function RStrip(s: string, c: char): (r: string)
    ensures |r| <= |s| && r == s[..|r|]
    ensures |r| == 0 || r[|r| - 1] != c
    ensures forall k :: |r| <= k < |s| ==> s[k] == c
    decreases |s|
  {
    if |s| > 0 && s[|s| - 1] == c then RStrip(s[..|s| - 1], c) else s
  }

  /** Python's `<` on strings: lexicographic by code point, a proper prefix first. */
  predicate StrLt(a: string, b: string)
    decreases |a|
  {
    |b| > 0 && (|a| == 0 || a[0] < b[0] || (a[0] == b[0] && StrLt(a[1..], b[1..])))
  }

  lemma {:induction false} StrLtIrreflexive(a: string)
    ensures !StrLt(a, a)
    decreases |a|
  {
    if |a| > 0 {
      StrLtIrreflexive(a[1..]);
    }
  }

  lemma {:induction false} StrLtTransitive(a: string, b: string, c: string)
    requires StrLt(a, b) && StrLt(b, c)
    ensures StrLt(a, c)
    decreases |a|
  {
    if |a| > 0 && a[0] == b[0] && b[0] == c[0] {
      StrLtTransitive(a[1..], b[1..], c[1..]);
    }
  }

  lemma {:induction false} StrLtTotal(a: string, b: string)
    ensures a == b || StrLt(a, b) || StrLt(b, a)
    decreases |a|
  {
    if |a| > 0 && |b| > 0 && a[0] == b[0] {
      StrLtTotal(a[1..], b[1..]);
      if a[1..] == b[1..] {
        assert a == [a[0]] + a[1..] && b == [b[0]] + b[1..];
      }
    }
  }

  lemma StrLtAsymmetric(a: string, b: string)
    requires StrLt(a, b)
    ensures !StrLt(b, a)
  {
    if StrLt(b, a) {
      StrLtTransitive(a, b, a);
      StrLtIrreflexive(a);
    }
  }

  predicate StrictlySorted(s: seq<string>) {
    forall i, j :: 0 <= i < j < |s| ==> StrLt(s[i], s[j])
  }

  lemma StrLtNotBoth(a: string, b: string)
    ensures !(StrLt(a, b) && StrLt(b, a))
  {
    if StrLt(a, b) {
      StrLtAsymmetric(a, b);
    }
  }

  /** Two strictly ascending lists of the same strings are the same list. */
  lemma {:induction false} StrictlySortedEqual(a: seq<string>, b: seq<string>)
    requires StrictlySorted(a) && StrictlySorted(b)
    requires forall y :: y in a <==> y in b
    ensures a == b
    decreases |a|
  {
    if |a| > 0 {
      assert a[0] in a;
    }
    if |b| > 0 {
      assert b[0] in b;
    }
    if |a| > 0 && |b| > 0 {
      var i :| 0 <= i < |b| && b[i] == a[0];
      var j :| 0 <= j < |a| && a[j] == b[0];
      StrLtNotBoth(a[0], b[0]);
      StrLtIrreflexive(a[0]);
      assert a[0] == b[0];
      forall y | y in a[1..]
        ensures y in b[1..]
      {
        var m :| 0 <= m < |a[1..]| && a[1..][m] == y;
        assert a[m + 1] == y;
        assert y in b;
        var k :| 0 <= k < |b| && b[k] == y;
        assert k != 0;
        assert b[1..][k - 1] == y;
      }
      forall y | y in b[1..]
        ensures y in a[1..]
      {
        var m :| 0 <= m < |b[1..]| && b[1..][m] == y;
        assert b[m + 1] == y;
        assert y in a;
        var k :| 0 <= k < |a| && a[k] == y;
        assert k != 0;
        assert a[1..][k - 1] == y;
      }
      StrictlySortedEqual(a[1..], b[1..]);
      assert a == [a[0]] + a[1..] && b == [b[0]] + b[1..];
    }
  }

  function InsertDistinct(x: string, s: seq<string>): (r: seq<string>)
    requires StrictlySorted(s)
    ensures StrictlySorted(r)
    ensures forall y :: y in r <==> y == x || y in s
    decreases |s|
  {
    if |s| == 0 then [x]
    else if x == s[0] then s
    else if StrLt(x, s[0]) then
      assert forall j :: 0 < j < |s| ==> StrLt(x, s[j]) by {
        forall j | 0 < j < |s| {
          StrLtTransitive(x, s[0], s[j]);
        }
      }
      [x] + s
    else
      StrLtTotal(x, s[0]);
      var t := InsertDistinct(x, s[1..]);
      assert forall y :: y in t ==> StrLt(s[0], y);
      [s[0]] + t
  }

  /** The distinct strings of `xs` in ascending order (how pandas orders group keys). */
  function SortDistinct(xs: seq<string>): (r: seq<string>)
    ensures StrictlySorted(r)
    ensures forall y :: y in r <==> y in xs
    decreases |xs|
  {
    if |xs| == 0 then [] else InsertDistinct(xs[0], SortDistinct(xs[1..]))
  }
}

=== FILE: training.dfy ===
/**
 * Training of the quantile baselines (`train_baseline.py`), down to what is
 * decided outside the learning library: which columns are features, how the
 * label is made by shifting the target H steps into the future, which scopes
 * are trained in each mode, how many cross-validation splits are asked for,
 * and how report keys, artifact directories and metadata are laid out.
 *
 * A fitted model is the symbolic record of what it was fitted on (`Fitted`);
 * a model's prediction is the parameter `predict`, and sklearn's
 * `TimeSeriesSplit` is the parameter `split`.
 */
module Training {
  import opened Wrappers
  import opened Strings
  import opened Seqs
  import opened Frame
  import opened Metrics
  import Features

  /** Columns `features_from` never hands to a model: the keys, the raw targets and the label. */
  const Excluded: set<string> := {"ts", "station_id", "q_cms", "h_cm", "y"}

  /** A per-station scope with fewer labelled rows than this is not trained. */
  const MinScopeRows: nat := 120

  /** From this many labelled rows on, a per-station scope gets five splits instead of three. */
  const LargeScopeRows: nat := 500

  /** `features_from`: the columns in table order, minus the excluded ones. */
  function FeaturesFrom(cols: seq<string>): (fs: seq<string>)
    ensures forall c :: c in fs <==> c in cols && c !in Excluded
    decreases |cols|
  {
    if |cols| == 0 then []
    else (if cols[0] in Excluded then [] else [cols[0]]) + FeaturesFrom(cols[1..])
  }

  /** Filtering commutes with concatenation, so the input order is kept. */
  lemma {:induction false} FeaturesFromAppend(a: seq<string>, b: seq<string>)
    ensures FeaturesFrom(a + b) == FeaturesFrom(a) + FeaturesFrom(b)
    decreases |a|
  {
    if |a| == 0 {
      assert a + b == b;
    } else {
      assert (a + b)[1..] == a[1..] + b;
      FeaturesFromAppend(a[1..], b);
    }
  }

  /** With nothing to exclude, the feature list is the column list itself. */
  lemma {:induction false} FeaturesFromKeepsAll(cols: seq<string>)
    requires forall k :: 0 <= k < |cols| ==> cols[k] !in Excluded
    ensures FeaturesFrom(cols) == cols
    decreases |cols|
  {
    if |cols| > 0 {
      FeaturesFromKeepsAll(cols[1..]);
    }
  }

  // ------------------------------------------------------------ modes

  datatype Mode = Global | PerStation

  /** The `training_mode` values the pipeline knows; any other is fatal. */
  function ParseMode(s: string): (m: Option<Mode>)
    ensures m.None? <==> s != "global" && s != "per_station"
  {
    if s == "global" then Some(Global)
    else if s == "per_station" then Some(PerStation)
    else None
  }

  /** The `mode` value written into the metadata. */
  function ModeName(m: Mode): string {
    match m
    case Global => "global"
    case PerStation => "per_station"
  }

  lemma ModeRoundTrip(m: Mode)
    ensures ParseMode(ModeName(m)) == Some(m)
  {
  }

  /**
   * `n_splits` of the time-series cross-validation: five in global mode; in
   * per-station mode three below `LargeScopeRows` labelled rows, else five.
   */
  function SplitCount(mode: Mode, n: nat): (k: nat)
    ensures k == 3 || k == 5
    ensures k == 3 <==> mode.PerStation? && n < LargeScopeRows
  {
    if mode.PerStation? && n < LargeScopeRows then 3 else 5
  }

  /** More data never means fewer splits. */
  lemma SplitCountMonotone(mode: Mode, m: nat, n: nat)
    requires m <= n
    ensures SplitCount(mode, m) <= SplitCount(mode, n)
  {
  }

  // ------------------------------------------------------------ labels

  /** `shift(-h)`: position `i` takes the value `h` rows later; the last `h` are NaN. */
  function Lead(col: seq<Value>, h: nat): (r: seq<Value>)
    ensures |r| == |col|
  {
    seq(|col|, i requires 0 <= i < |col| => if i + h < |col| then col[i + h] else None)
  }

  /** Shifting back by the same amount returns the original value wherever both shifts stay in range. */
  lemma LeadLag(col: seq<Value>, h: nat, i: nat)
    requires h <= i < |col|
    ensures Features.Lag(Lead(col, h), h)[i] == col[i]
  {
    Features.LagAt(Lead(col, h), h, i);
  }

  /** The positions `dropna` keeps: those holding a value, in increasing order, all of them. */
  function SomePositions(ys: seq<Value>): (pos: seq<nat>)
    ensures forall k :: 0 <= k < |pos| ==> pos[k] < |ys| && ys[pos[k]].Some?
    ensures forall k, m :: 0 <= k < m < |pos| ==> pos[k] < pos[m]
    ensures forall i :: 0 <= i < |ys| && ys[i].Some? ==> i in pos
    decreases |ys|
  {
    if |ys| == 0 then []
    else
      var n := |ys| - 1;
      var pre := SomePositions(ys[..n]);
      if ys[n].Some? then pre + [n] else pre
  }

  /** A labelled row: the row and its label `y`. */
  datatype Sample = Sample(row: Row, y: real)

  /** `d['y'] = ys; d.dropna(subset=['y'])`: the rows with a label, in order. */
  function DropUnlabelled(rows: seq<Row>, ys: seq<Value>): (s: seq<Sample>)
    requires |rows| == |ys|
    ensures |s| == |SomePositions(ys)|
  {
    var pos := SomePositions(ys);
    seq(|pos|, k requires 0 <= k < |pos| => Sample(rows[pos[k]], ys[pos[k]].value))
  }

  predicate SamplesFit(s: seq<Sample>, width: nat) {
    forall k :: 0 <= k < |s| ==> |s[k].row.vals| == width
  }

  lemma DropUnlabelledFits(rows: seq<Row>, ys: seq<Value>, width: nat)
    requires |rows| == |ys| && RowsFit(rows, width)
    ensures SamplesFit(DropUnlabelled(rows, ys), width)
  {
  }

  /** The per-station label: the station's target column shifted `h` rows up. */
  function StationLabels(g: seq<Row>, j: nat, h: nat): (ys: seq<Value>)
    requires forall i :: 0 <= i < |g| ==> j < |g[i].vals|
    ensures |ys| == |g|
  {
    Lead(ColumnOf(g, j), h)
  }

  /**
   * The labelled rows of one station (per-station mode): its rows in table
   * order, each labelled with the target `h` rows later, dropping the rows
   * where that value does not exist or is NaN.
   */
  function StationSamples(t: Table, sid: string, j: nat, h: nat): (s: seq<Sample>)
    requires WellFormed(t) && j < |t.cols|
    ensures SamplesFit(s, |t.cols|)
  {
    var g := StationRows(t.rows, sid);
    StationRowsFit(t.rows, sid, |t.cols|);
    DropUnlabelledFits(g, StationLabels(g, j, h), |t.cols|);
    DropUnlabelled(g, StationLabels(g, j, h))
  }

  /**
   * Every per-station sample is the row at some position `p` of the station
   * with the target value `h` rows further down as its label; the positions
   * increase; and every row whose future target exists is kept.
   */
  lemma StationSamplesLabel(t: Table, sid: string, j: nat, h: nat)
    requires WellFormed(t) && j < |t.cols|
    ensures var g := StationRows(t.rows, sid);
      var pos := SomePositions(StationLabels(g, j, h));
      && |StationSamples(t, sid, j, h)| == |pos|
      && (forall k :: 0 <= k < |pos| ==> LabelledAt(g, j, h, pos[k], StationSamples(t, sid, j, h)[k]))
      && (forall k, m :: 0 <= k < m < |pos| ==> pos[k] < pos[m])
      && (forall i :: 0 <= i < |g| && i + h < |g| && g[i + h].vals[j].Some? ==> i in pos)
  {
    var g := StationRows(t.rows, sid);
    StationRowsFit(t.rows, sid, |t.cols|);
    var pos := SomePositions(StationLabels(g, j, h));
    forall k | 0 <= k < |pos|
      ensures LabelledAt(g, j, h, pos[k], StationSamples(t, sid, j, h)[k])
    {
      StationSampleAt(t, sid, j, h, k);
    }
    forall i | 0 <= i < |g| && i + h < |g| && g[i + h].vals[j].Some?
      ensures i in pos
    {
      StationLabelsAt(g, j, h, i);
    }
  }

  /** Sample `s` is the row at position `p` of the station, labelled with the target `h` rows further down. */
  predicate LabelledAt(g: seq<Row>, j: nat, h: nat, p: nat, s: Sample) {
    && p + h < |g| && s.row == g[p]
    && j < |g[p + h].vals| && g[p + h].vals[j] == Some(s.y)
  }

  lemma StationSampleAt(t: Table, sid: string, j: nat, h: nat, k: nat)
    requires WellFormed(t) && j < |t.cols|
    requires k < |SomePositions(StationLabels(StationRows(t.rows, sid), j, h))|
    ensures var g := StationRows(t.rows, sid);
      LabelledAt(g, j, h, SomePositions(StationLabels(g, j, h))[k], StationSamples(t, sid, j, h)[k])
  {
    var g := StationRows(t.rows, sid);
    StationRowsFit(t.rows, sid, |t.cols|);
    var p := SomePositions(StationLabels(g, j, h))[k];
    StationLabelsAt(g, j, h, p);
  }

  lemma StationLabelsAt(g: seq<Row>, j: nat, h: nat, i: nat)
    requires forall i :: 0 <= i < |g| ==> j < |g[i].vals|
    requires i < |g|
    ensures StationLabels(g, j, h)[i] == if i + h < |g| then g[i + h].vals[j] else None
  {
  }

  /** How many rows of the same station precede row `i`: its position within the station. */
  function Rank(rows: seq<Row>, i: nat): nat
    requires i < |rows|
  {
    |StationRows(rows[..i], rows[i].station)|
  }

  /** Row `i` sits at position `Rank(rows, i)` of its station's rows. */
  lemma RankAt(rows: seq<Row>, i: nat)
    requires i < |rows|
    ensures Rank(rows, i) < |StationRows(rows, rows[i].station)|
    ensures StationRows(rows, rows[i].station)[Rank(rows, i)] == rows[i]
  {
    var s := rows[i].station;
    assert rows == rows[..i] + ([rows[i]] + rows[i + 1..]);
    StationRowsAppend(rows[..i], [rows[i]] + rows[i + 1..], s);
    StationRowsAppend([rows[i]], rows[i + 1..], s);
  }

  /** The global label of row `i`: `groupby('station_id')[target].shift(-h)` at that row. */
  function GroupLeadAt(rows: seq<Row>, j: nat, h: nat, width: nat, i: nat): Value
    requires RowsFit(rows, width) && j < width && i < |rows|
  {
    var g := StationRows(rows, rows[i].station);
    StationRowsFit(rows, rows[i].station, width);
    RankAt(rows, i);
    StationLabels(g, j, h)[Rank(rows, i)]
  }

  function GroupLead(rows: seq<Row>, j: nat, h: nat, width: nat): (ys: seq<Value>)
    requires RowsFit(rows, width) && j < width
    ensures |ys| == |rows|
  {
    seq(|rows|, i requires 0 <= i < |rows| => GroupLeadAt(rows, j, h, width, i))
  }

  /** The shift never crosses stations: a global label is the target of a row of the same station. */
  lemma GroupLeadSameStation(rows: seq<Row>, j: nat, h: nat, width: nat, i: nat)
    requires RowsFit(rows, width) && j < width && i < |rows|
    requires GroupLead(rows, j, h, width)[i].Some?
    ensures exists m :: 0 <= m < |rows| && rows[m].station == rows[i].station && rows[m].vals[j] == GroupLead(rows, j, h, width)[i]
  {
    var g := StationRows(rows, rows[i].station);
    StationRowsFit(rows, rows[i].station, width);
    RankAt(rows, i);
    var p := Rank(rows, i) + h;
    assert g[p] in rows;
    var m :| 0 <= m < |rows| && rows[m] == g[p];
  }

  /** On the rows of a single station the grouped shift is the plain shift: both modes label alike. */
  lemma GroupLeadOneStation(rows: seq<Row>, j: nat, h: nat, width: nat, sid: string)
    requires RowsFit(rows, width) && j < width
    requires forall i :: 0 <= i < |rows| ==> rows[i].station == sid
    ensures GroupLead(rows, j, h, width) == StationLabels(rows, j, h)
  {
    StationRowsAll(rows, sid);
    forall i | 0 <= i < |rows|
      ensures GroupLead(rows, j, h, width)[i] == StationLabels(rows, j, h)[i]
    {
      StationRowsAll(rows[..i], sid);
    }
  }

  /** The labelled rows of the whole table (global mode). */
  function GlobalSamples(t: Table, j: nat, h: nat): (s: seq<Sample>)
    requires WellFormed(t) && j < |t.cols|
    ensures SamplesFit(s, |t.cols|)
  {
    var ys := GroupLead(t.rows, j, h, |t.cols|);
    DropUnlabelledFits(t.rows, ys, |t.cols|);
    DropUnlabelled(t.rows, ys)
  }

  // ------------------------------------------------------------ cross-validation

  /** One train/test split: positions into the labelled rows. */
  datatype Fold = Fold(train: seq<nat>, test: seq<nat>)

  /** `TimeSeriesSplit(n_splits=k).split` on `n` rows; `None` is its ValueError (too few rows). */
  type Splitter = (nat, nat) -> Option<seq<Fold>>

  /** What the splitter guarantees: positions in range, and at least one non-empty test set. */
  predicate ValidFolds(folds: seq<Fold>, n: nat) {
    && |folds| > 0
    && (forall f :: 0 <= f < |folds| ==> |folds[f].test| > 0)
    && (forall f, q :: 0 <= f < |folds| && 0 <= q < |folds[f].train| ==> folds[f].train[q] < n)
    && (forall f, q :: 0 <= f < |folds| && 0 <= q < |folds[f].test| ==> folds[f].test[q] < n)
  }

  ghost predicate ValidSplitter(split: Splitter) {
    forall n, k :: split(n, k).Some? ==> ValidFolds(split(n, k).value, n)
  }

  /** `qmodel(alpha).fit(X, y)`, recorded by what it was fitted on. */
  datatype Fitted = Fitted(alpha: real, features: seq<string>, train: seq<Sample>)

  /** `model.predict` on one row of feature values. */
  type Predictor = (Fitted, seq<Value>) -> real

  /** `X = d[features]` for one row; `None` is the KeyError of a feature that is not a column. */
  function Inputs(cols: seq<string>, features: seq<string>, row: Row): Option<seq<Value>>
    requires |row.vals| == |cols|
  {
    Select(cols, row.vals, features)
  }

  /** The features `features_from` picked are always columns, so the selection succeeds. */
  lemma InputsOfOwnFeatures(cols: seq<string>, row: Row)
    requires |row.vals| == |cols|
    ensures Inputs(cols, FeaturesFrom(cols), row).Some?
  {
  }

  function Pick(s: seq<Sample>, idx: seq<nat>): (r: seq<Sample>)
    requires forall q :: 0 <= q < |idx| ==> idx[q] < |s|
    ensures |r| == |idx|
  {
    seq(|idx|, q requires 0 <= q < |idx| => s[idx[q]])
  }

  /** One scored test point: the prediction of the fold's median model and the true label. */
  datatype Scored = Scored(pred: real, truth: real)

  /** The test points of one fold, scored by a median model fitted on that fold's train part. */
  function ScoreFold(cols: seq<string>, s: seq<Sample>, f: Fold, predict: Predictor): (r: seq<Scored>)
    requires SamplesFit(s, |cols|)
    requires forall q :: 0 <= q < |f.train| ==> f.train[q] < |s|
    requires forall q :: 0 <= q < |f.test| ==> f.test[q] < |s|
    ensures |r| == |f.test|
    ensures forall q :: 0 <= q < |f.test| ==> r[q].truth == s[f.test[q]].y
  {
    var features := FeaturesFrom(cols);
    var m := Fitted(0.5, features, Pick(s, f.train));
    seq(|f.test|, q requires 0 <= q < |f.test| =>
      InputsOfOwnFeatures(cols, s[f.test[q]].row);
      Scored(predict(m, Inputs(cols, features, s[f.test[q]].row).value), s[f.test[q]].y))
  }

  /** The fold results concatenated in fold order (`np.concatenate(preds)`, `np.concatenate(trues)`). */
  function ScoreFolds(cols: seq<string>, s: seq<Sample>, folds: seq<Fold>, predict: Predictor): (r: seq<Scored>)
    requires SamplesFit(s, |cols|)
    requires forall f, q :: 0 <= f < |folds| && 0 <= q < |folds[f].train| ==> folds[f].train[q] < |s|
    requires forall f, q :: 0 <= f < |folds| && 0 <= q < |folds[f].test| ==> folds[f].test[q] < |s|
    ensures |folds| > 0 && |folds[0].test| > 0 ==> |r| > 0
    decreases |folds|
  {
    if |folds| == 0 then []
    else ScoreFold(cols, s, folds[0], predict) + ScoreFolds(cols, s, folds[1..], predict)
  }

  /**
   * The scores of a cross-validation. `nse` is `None` where the truths are
   * constant (a division by zero); `kge` is `None` where the unguarded `kge`
   * of the metrics helpers comes out NaN or infinite.
   */
  datatype Scores = Scores(mae: real, mse: real, nse: Option<real>, kge: Option<real>)

  function Preds(r: seq<Scored>): (p: seq<real>)
    ensures |p| == |r|
  {
    seq(|r|, k requires 0 <= k < |r| => r[k].pred)
  }

  function Truths(r: seq<Scored>): (t: seq<real>)
    ensures |t| == |r|
  {
    seq(|r|, k requires 0 <= k < |r| => r[k].truth)
  }

  /**
   * The four report scores of the concatenated folds. The training `kge`
   * has no guards, but numpy makes it non-finite exactly where the rolling
   * score's guards fire: `np.corrcoef` is NaN on fewer than two points or a
   * constant series, `alpha` divides by a zero standard deviation and `beta`
   * by a zero mean; so it is `WindowKge` on the same arrays.
   */
  function Score(r: seq<Scored>, kge: KgeFormula): Scores
    requires |r| > 0
  {
    var t, p := Truths(r), Preds(r);
    Scores(Mae(t, p), Mse(t, p), if Constant(t) then None else Some(Nse(t, p)), WindowKge(t, p, kge))
  }

  /** The cross-validation scores are what the guarded window scores give on the same arrays. */
  lemma ScoreGuarded(r: seq<Scored>, kge: KgeFormula)
    requires |r| > 0
    ensures Some(Score(r, kge).mae) == WindowMae(Truths(r), Preds(r))
    ensures Score(r, kge).nse == WindowNse(Truths(r), Preds(r))
    ensures Score(r, kge).mae >= 0.0 && Score(r, kge).mse >= 0.0
    ensures Score(r, kge).nse.Some? ==> Score(r, kge).nse.value <= 1.0
    ensures Score(r, kge).kge.None? <==>
      |r| <= 1 || Constant(Truths(r)) || Constant(Preds(r)) || Mean(Truths(r)) == 0.0
    ensures Score(r, kge).kge.Some? ==> Score(r, kge).kge.value == kge(Truths(r), Preds(r))
  {
    WindowScoresAgree(Truths(r), Preds(r));
  }

  // ------------------------------------------------------------ scopes and artifacts

  /** What one model triple is trained for: every station (global) or one station, at horizon `h`. */
  datatype Scope = GlobalScope(h: nat) | StationScope(sid: string, h: nat)

  /** The key of the scope in `report.json`. */
  function ReportKey(s: Scope): string {
    match s
    case GlobalScope(h) => "global_" + NatToString(h)
    case StationScope(sid, h) => sid + "_" + NatToString(h)
  }

  /** The artifact directory of the scope, as path components below `artifacts/`. */
  function ArtifactDir(s: Scope): seq<string> {
    match s
    case GlobalScope(h) => [NatToString(h)]
    case StationScope(sid, h) => [sid, NatToString(h)]
  }

  /** The last `_`-separated part of a report key is the horizon, the rest is the station. */
  lemma ReportKeyParts(sid: string, h: nat)
    ensures Split(ReportKey(StationScope(sid, h)), '_') == Split(sid, '_') + [NatToString(h)]
  {
    var d := NatToString(h);
    assert forall k :: 0 <= k < |d| ==> IsDigit(d[k]);
    assert '_' !in d;
    assert ReportKey(StationScope(sid, h)) == sid + ['_'] + d;
    SplitLast(sid, d, '_');
  }

  /** Distinct per-station scopes get distinct report keys, even when station ids contain `_`. */
  lemma ReportKeyInjective(a: Scope, b: Scope)
    requires a.StationScope? && b.StationScope?
    requires ReportKey(a) == ReportKey(b)
    ensures a == b
  {
    ReportKeyParts(a.sid, a.h);
    ReportKeyParts(b.sid, b.h);
    var pa, pb := Split(a.sid, '_'), Split(b.sid, '_');
    assert pa + [NatToString(a.h)] == pb + [NatToString(b.h)];
    assert |pa| == |pb|;
    assert NatToString(a.h) == (pa + [NatToString(a.h)])[|pa|];
    assert pa == (pa + [NatToString(a.h)])[..|pa|];
    NatToStringInjective(a.h, b.h);
    JoinSplit(a.sid, '_');
    JoinSplit(b.sid, '_');
  }

  /** Distinct scopes of either mode get distinct artifact directories. */
  lemma ArtifactDirInjective(a: Scope, b: Scope)
    requires ArtifactDir(a) == ArtifactDir(b)
    ensures a == b
  {
    if a.GlobalScope? {
      NatToStringInjective(a.h, b.h);
    } else {
      assert ArtifactDir(a)[1] == ArtifactDir(b)[1];
      NatToStringInjective(a.h, b.h);
    }
  }

  /** `meta.json`. */
  datatype Meta = Meta(features: seq<string>, raster: string, target: string, horizon: nat, mode: string, station: Option<string>)

  /** One artifact directory: its metadata and the three quantile models. */
  datatype Bundle = Bundle(meta: Meta, p10: Fitted, p50: Fitted, p90: Fitted)

  /** The artifact store: directory (path components below `artifacts/`) to its contents. */
  type Store = map<seq<string>, Bundle>

  datatype Config = Config(target: string, horizons: seq<nat>, mode: string, raster: string)

  /** The cross-validation of one scope: rows, splits asked for, and the aligned scored points. */
  datatype CvRun = CvRun(rows: nat, splits: nat, scored: seq<Scored>)

  /** One trained scope: its report entry and its artifact directory. */
  datatype Entry = Entry(scope: Scope, key: string, dir: seq<string>, cv: CvRun, scores: Scores, bundle: Bundle)

  datatype TrainError = UnknownMode(mode: string) | MissingTarget(name: string) | SplitFailed(key: string)

  /** Everything the source promises about one trained scope. */
  predicate EntryFor(e: Entry, cfg: Config, mode: Mode, scope: Scope, cols: seq<string>, s: seq<Sample>) {
    && e.scope == scope
    && e.key == ReportKey(scope)
    && e.dir == ArtifactDir(scope)
    && e.cv.rows == |s|
    && e.cv.splits == SplitCount(mode, |s|)
    && |e.cv.scored| > 0
    && e.bundle.meta.features == FeaturesFrom(cols)
    && e.bundle.meta.target == cfg.target
    && e.bundle.meta.raster == cfg.raster
    && e.bundle.meta.horizon == scope.h
    && e.bundle.meta.mode == ModeName(mode)
    && e.bundle.meta.station == (if scope.StationScope? then Some(scope.sid) else None)
    && e.bundle.p10 == Fitted(0.1, FeaturesFrom(cols), s)
    && e.bundle.p50 == Fitted(0.5, FeaturesFrom(cols), s)
    && e.bundle.p90 == Fitted(0.9, FeaturesFrom(cols), s)
  }

  /**
   * One scope: cross-validate with the mode's split count, score the
   * concatenated folds, then fit the three quantile models on all rows and
   * write the metadata. A splitter error aborts the run.
   */
  function TrainScope(cfg: Config, mode: Mode, scope: Scope, cols: seq<string>, s: seq<Sample>, split: Splitter, predict: Predictor, kge: KgeFormula): (r: Result<Entry, TrainError>)
    requires ValidSplitter(split) && SamplesFit(s, |cols|)
    ensures r.Failure? <==> split(|s|, SplitCount(mode, |s|)).None?
    ensures r.Failure? ==> r.error == SplitFailed(ReportKey(scope))
    ensures r.Success? ==> EntryFor(r.value, cfg, mode, scope, cols, s)
    // the report scores are those of the scored cross-validation points
    ensures r.Success? ==> r.value.scores == Score(r.value.cv.scored, kge)
  {
    var k := SplitCount(mode, |s|);
    match split(|s|, k)
    case None => Failure(SplitFailed(ReportKey(scope)))
    case Some(folds) =>
      var scored := ScoreFolds(cols, s, folds, predict);
      var features := FeaturesFrom(cols);
      var station := if scope.StationScope? then Some(scope.sid) else None;
      var meta := Meta(features, cfg.raster, cfg.target, scope.h, ModeName(mode), station);
      var bundle := Bundle(meta, Fitted(0.1, features, s), Fitted(0.5, features, s), Fitted(0.9, features, s));
      Success(Entry(scope, ReportKey(scope), ArtifactDir(scope), CvRun(|s|, k, scored), Score(scored, kge), bundle))
  }

  /** The labelled rows of the whole table at horizon `h`, given the target column exists. */
  function GlobalScopeSamples(cfg: Config, t: Table, h: nat): (s: seq<Sample>)
    requires WellFormed(t) && cfg.target in t.cols
    ensures SamplesFit(s, |t.cols|)
  {
    GlobalSamples(t, IndexOf(t.cols, cfg.target).value, h)
  }

  /** The labelled rows of station `sid` at horizon `h`, given the target column exists. */
  function ScopeSamples(cfg: Config, t: Table, sid: string, h: nat): (s: seq<Sample>)
    requires WellFormed(t) && cfg.target in t.cols
    ensures SamplesFit(s, |t.cols|)
  {
    StationSamples(t, sid, IndexOf(t.cols, cfg.target).value, h)
  }

  /** A global entry as promised: the horizon's scope, trained on the labelled rows of all stations. */
  predicate GlobalEntry(e: Entry, cfg: Config, t: Table, h: nat)
    requires WellFormed(t) && cfg.target in t.cols
  {
    EntryFor(e, cfg, Global, GlobalScope(h), t.cols, GlobalScopeSamples(cfg, t, h))
  }

  /** The splitter rejects the labelled rows of all stations at horizon `h`. */
  predicate GlobalFails(cfg: Config, t: Table, h: nat, split: Splitter)
    requires WellFormed(t) && cfg.target in t.cols
  {
    var n := |GlobalScopeSamples(cfg, t, h)|;
    split(n, SplitCount(Global, n)).None?
  }

  /** Station `sid` has enough labelled rows at horizon `h` to be trained, and the splitter rejects them. */
  predicate ScopeFails(cfg: Config, t: Table, h: nat, sid: string, split: Splitter)
    requires WellFormed(t) && cfg.target in t.cols
  {
    var n := |ScopeSamples(cfg, t, sid, h)|;
    n >= MinScopeRows && split(n, SplitCount(PerStation, n)).None?
  }

  /** The training step of every global scope, one per horizon, in order. */
  function GlobalSteps(cfg: Config, t: Table, hs: seq<nat>, split: Splitter, predict: Predictor, kge: KgeFormula): (rs: seq<Result<Entry, TrainError>>)
    requires WellFormed(t) && ValidSplitter(split) && cfg.target in t.cols
    ensures |rs| == |hs|
    ensures forall k :: 0 <= k < |hs| ==> (rs[k].Failure? <==> GlobalFails(cfg, t, hs[k], split))
    ensures forall k :: 0 <= k < |hs| && rs[k].Failure? ==> rs[k].error == SplitFailed(ReportKey(GlobalScope(hs[k])))
  {
    seq(|hs|, k requires 0 <= k < |hs| => TrainScope(cfg, Global, GlobalScope(hs[k]), t.cols, GlobalScopeSamples(cfg, t, hs[k]), split, predict, kge))
  }

  /**
   * Global mode: one scope per horizon, on the labelled rows of all
   * stations; a missing target column or a failing split aborts the run.
   */
  function TrainGlobal(cfg: Config, t: Table, hs: seq<nat>, split: Splitter, predict: Predictor, kge: KgeFormula): (r: Result<seq<Entry>, TrainError>)
    requires WellFormed(t) && ValidSplitter(split)
    // without a target column the first horizon's label is a KeyError; no horizon at all trains nothing
    ensures cfg.target !in t.cols ==> r == (if |hs| > 0 then Failure(MissingTarget(cfg.target)) else Success([]))
    // otherwise the run fails exactly when the splitter rejects some horizon's rows ...
    ensures cfg.target in t.cols ==> (r.Failure? <==> exists k :: 0 <= k < |hs| && GlobalFails(cfg, t, hs[k], split))
    // ... and then reports the first such horizon
    ensures cfg.target in t.cols && r.Failure? ==>
      exists k :: 0 <= k < |hs| && GlobalFails(cfg, t, hs[k], split) &&
        r.error == SplitFailed(ReportKey(GlobalScope(hs[k]))) &&
        forall m :: 0 <= m < k ==> !GlobalFails(cfg, t, hs[m], split)
    ensures r.Success? ==> |r.value| == |hs|
    ensures r.Success? && cfg.target in t.cols ==> forall k :: 0 <= k < |hs| ==> GlobalEntry(r.value[k], cfg, t, hs[k])
  {
    if |hs| == 0 then Success([])
    else if cfg.target !in t.cols then Failure(MissingTarget(cfg.target))
    else AllOk(GlobalSteps(cfg, t, hs, split, predict, kge))
  }

  /** A per-station entry as promised: a scope of at least `MinScopeRows` labelled rows, trained on them. */
  predicate StationEntry(e: Entry, cfg: Config, t: Table)
    requires WellFormed(t) && cfg.target in t.cols
  {
    && e.scope.StationScope?
    && |ScopeSamples(cfg, t, e.scope.sid, e.scope.h)| >= MinScopeRows
    && EntryFor(e, cfg, PerStation, e.scope, t.cols, ScopeSamples(cfg, t, e.scope.sid, e.scope.h))
  }

  /** One station at one horizon: skipped below `MinScopeRows` labelled rows, else trained. */
  function TrainStation(cfg: Config, t: Table, h: nat, sid: string, split: Splitter, predict: Predictor, kge: KgeFormula): (r: Result<seq<Entry>, TrainError>)
    requires WellFormed(t) && ValidSplitter(split) && cfg.target in t.cols
    // fewer than `MinScopeRows` labelled rows: skipped, which is not an error
    ensures |ScopeSamples(cfg, t, sid, h)| < MinScopeRows ==> r == Success([])
    ensures r.Failure? <==> ScopeFails(cfg, t, h, sid, split)
    ensures r.Failure? ==> r.error == SplitFailed(ReportKey(StationScope(sid, h)))
    ensures r.Success? ==> (|r.value| == 0 <==> |ScopeSamples(cfg, t, sid, h)| < MinScopeRows)
    ensures r.Success? ==> |r.value| <= 1
    ensures r.Success? ==> forall k :: 0 <= k < |r.value| ==> r.value[k].scope == StationScope(sid, h) && StationEntry(r.value[k], cfg, t)
  {
    var s := ScopeSamples(cfg, t, sid, h);
    if |s| < MinScopeRows then Success([])
    else
      match TrainScope(cfg, PerStation, StationScope(sid, h), t.cols, s, split, predict, kge)
      case Failure(e) => Failure(e)
      case Success(e) => Success([e])
  }

  /** The scopes per-station mode trains at horizon `h`: the stations with enough labelled rows, in order. */
  function StationScopes(cfg: Config, t: Table, h: nat, sids: seq<string>): (scopes: seq<Scope>)
    requires WellFormed(t) && cfg.target in t.cols
    decreases |sids|
  {
    if |sids| == 0 then []
    else
      (if |ScopeSamples(cfg, t, sids[0], h)| >= MinScopeRows then [StationScope(sids[0], h)] else [])
      + StationScopes(cfg, t, h, sids[1..])
  }

  /** The scopes of the whole per-station run: horizons outermost, stations innermost. */
  function PerStationScopes(cfg: Config, t: Table, hs: seq<nat>, sids: seq<string>): (scopes: seq<Scope>)
    requires WellFormed(t) && cfg.target in t.cols
    decreases |hs|
  {
    if |hs| == 0 then [] else StationScopes(cfg, t, hs[0], sids) + PerStationScopes(cfg, t, hs[1..], sids)
  }

  /** A station is trained at a horizon exactly when it has at least `MinScopeRows` labelled rows there. */
  lemma {:induction false} StationScopesIff(cfg: Config, t: Table, h: nat, sids: seq<string>, scope: Scope)
    requires WellFormed(t) && cfg.target in t.cols
    ensures scope in StationScopes(cfg, t, h, sids) <==>
      scope.StationScope? && scope.sid in sids && scope.h == h && |ScopeSamples(cfg, t, scope.sid, h)| >= MinScopeRows
    decreases |sids|
  {
    if |sids| > 0 {
      StationScopesIff(cfg, t, h, sids[1..], scope);
      assert forall x :: x in sids <==> x == sids[0] || x in sids[1..];
    }
  }

  lemma {:induction false} PerStationScopesIff(cfg: Config, t: Table, hs: seq<nat>, sids: seq<string>, scope: Scope)
    requires WellFormed(t) && cfg.target in t.cols
    ensures scope in PerStationScopes(cfg, t, hs, sids) <==>
      scope.StationScope? && scope.sid in sids && scope.h in hs && |ScopeSamples(cfg, t, scope.sid, scope.h)| >= MinScopeRows
    decreases |hs|
  {
    if |hs| > 0 {
      PerStationScopesIff(cfg, t, hs[1..], sids, scope);
      StationScopesIff(cfg, t, hs[0], sids, scope);
      assert forall x :: x in hs <==> x == hs[0] || x in hs[1..];
    }
  }

  /** The entries were trained for exactly `scopes`, in that order, each as promised. */
  predicate TrainedFor(entries: seq<Entry>, scopes: seq<Scope>, cfg: Config, t: Table)
    requires WellFormed(t) && cfg.target in t.cols
  {
    && |entries| == |scopes|
    && forall k :: 0 <= k < |entries| ==> entries[k].scope == scopes[k] && StationEntry(entries[k], cfg, t)
  }

  lemma TrainedForAppend(a: seq<Entry>, sa: seq<Scope>, b: seq<Entry>, sb: seq<Scope>, cfg: Config, t: Table)
    requires WellFormed(t) && cfg.target in t.cols
    requires TrainedFor(a, sa, cfg, t) && TrainedFor(b, sb, cfg, t)
    ensures TrainedFor(a + b, sa + sb, cfg, t)
  {
    forall k | 0 <= k < |a + b|
      ensures (a + b)[k].scope == (sa + sb)[k] && StationEntry((a + b)[k], cfg, t)
    {
      if k >= |a| {
        assert (a + b)[k] == b[k - |a|] && (sa + sb)[k] == sb[k - |a|];
      }
    }
  }

  /** Per-station mode at one horizon: the stations in turn. */
  function TrainStations(cfg: Config, t: Table, h: nat, sids: seq<string>, split: Splitter, predict: Predictor, kge: KgeFormula): (r: Result<seq<Entry>, TrainError>)
    requires WellFormed(t) && ValidSplitter(split)
    ensures cfg.target !in t.cols ==> r == (if |sids| > 0 then Failure(MissingTarget(cfg.target)) else Success([]))
    ensures cfg.target in t.cols ==> (r.Failure? <==> exists sid :: sid in sids && ScopeFails(cfg, t, h, sid, split))
    ensures r.Success? && cfg.target in t.cols ==> TrainedFor(r.value, StationScopes(cfg, t, h, sids), cfg, t)
    decreases |sids|
  {
    if |sids| == 0 then Success([])
    else if cfg.target !in t.cols then Failure(MissingTarget(cfg.target))
    else
      assert forall x :: x in sids <==> x == sids[0] || x in sids[1..];
      match TrainStation(cfg, t, h, sids[0], split, predict, kge)
      case Failure(e) => Failure(e)
      case Success(here) =>
        match TrainStations(cfg, t, h, sids[1..], split, predict, kge)
        case Failure(err) => Failure(err)
        case Success(rest) =>
          var first := if |ScopeSamples(cfg, t, sids[0], h)| >= MinScopeRows then [StationScope(sids[0], h)] else [];
          TrainedForAppend(here, first, rest, StationScopes(cfg, t, h, sids[1..]), cfg, t);
          Success(here + rest)
  }

  /** Per-station mode: horizons outermost, stations innermost. */
  function TrainPerStation(cfg: Config, t: Table, hs: seq<nat>, sids: seq<string>, split: Splitter, predict: Predictor, kge: KgeFormula): (r: Result<seq<Entry>, TrainError>)
    requires WellFormed(t) && ValidSplitter(split)
    ensures cfg.target !in t.cols ==> r == (if |hs| > 0 && |sids| > 0 then Failure(MissingTarget(cfg.target)) else Success([]))
    ensures cfg.target in t.cols ==>
      (r.Failure? <==> exists h, sid :: h in hs && sid in sids && ScopeFails(cfg, t, h, sid, split))
    ensures r.Success? && cfg.target in t.cols ==> TrainedFor(r.value, PerStationScopes(cfg, t, hs, sids), cfg, t)
    decreases |hs|
  {
    if |hs| == 0 then Success([])
    else
      assert forall x :: x in hs <==> x == hs[0] || x in hs[1..];
      match TrainStations(cfg, t, hs[0], sids, split, predict, kge)
      case Failure(e) => Failure(e)
      case Success(here) =>
        match TrainPerStation(cfg, t, hs[1..], sids, split, predict, kge)
        case Failure(err) => Failure(err)
        case Success(rest) =>
          if cfg.target in t.cols then
            TrainedForAppend(here, StationScopes(cfg, t, hs[0], sids), rest, PerStationScopes(cfg, t, hs[1..], sids), cfg, t);
            Success(here + rest)
          else
            Success(here + rest)
  }

  /** The table as the script reads it: sorted by station and time. */
  function SortedInput(t: Table): (u: Table)
    requires WellFormed(t)
    ensures WellFormed(u) && u.cols == t.cols
    ensures OrderedByKey(u.rows, false)
    ensures forall sid :: StationRows(u.rows, sid) == SortBy(StationRows(t.rows, sid), TsKey)
  {
    var rows := SortByKey(t.rows);
    assert forall i :: 0 <= i < |rows| ==> |rows[i].vals| == |t.cols| by {
      forall i | 0 <= i < |rows|
        ensures |rows[i].vals| == |t.cols|
      {
        var sid := rows[i].station;
        assert rows[i] in StationRows(rows, sid);
        assert rows[i] in multiset(SortBy(StationRows(t.rows, sid), TsKey));
        assert rows[i] in StationRows(t.rows, sid);
      }
    }
    Table(t.cols, rows)
  }

  /** `unique()` of the station column: the stations in order of first appearance. */
  function StationOrder(rows: seq<Row>): (sids: seq<string>)
    ensures forall sid :: sid in sids <==> exists i :: 0 <= i < |rows| && rows[i].station == sid
  {
    Unique(StationColumn(rows))
  }

  /**
   * On the sorted table, order of first appearance is ascending station
   * order, so the stations trained per-station are the groupby keys.
   */
  lemma StationOrderSorted(t: Table)
    requires WellFormed(t)
    ensures StationOrder(SortedInput(t).rows) == Stations(t.rows)
  {
    var u := SortedInput(t).rows;
    var col := StationColumn(u);
    var order := StationOrder(u);
    forall i, j | 0 <= i < j < |order|
      ensures StrLt(order[i], order[j])
    {
      var a, b := FirstIndex(col, order[i]), FirstIndex(col, order[j]);
      assert KeyBefore(u[a], u[b], false);
    }
    forall sid
      ensures sid in order <==> sid in Stations(t.rows)
    {
      StationPresent(u, sid);
      StationPresent(t.rows, sid);
    }
    StrictlySortedEqual(order, Stations(t.rows));
  }

  /**
   * The training run: the report (entries in order) and the artifact
   * directories it writes; an unknown mode is fatal before anything is written.
   */
  function Train(cfg: Config, t: Table, split: Splitter, predict: Predictor, kge: KgeFormula): (r: Result<seq<Entry>, TrainError>)
    requires WellFormed(t) && ValidSplitter(split)
    ensures ParseMode(cfg.mode).None? ==> r == Failure(UnknownMode(cfg.mode))
    // a missing target column fails on the first scope, if there is one
    ensures ParseMode(cfg.mode) == Some(Global) && cfg.target !in t.cols ==>
      r == (if |cfg.horizons| > 0 then Failure(MissingTarget(cfg.target)) else Success([]))
    ensures ParseMode(cfg.mode) == Some(PerStation) && cfg.target !in t.cols ==>
      r == (if |cfg.horizons| > 0 && |t.rows| > 0 then Failure(MissingTarget(cfg.target)) else Success([]))
    // otherwise the run fails exactly when the splitter rejects a scope that is trained
    ensures ParseMode(cfg.mode) == Some(Global) && cfg.target in t.cols ==>
      (r.Failure? <==> exists k :: 0 <= k < |cfg.horizons| && GlobalFails(cfg, SortedInput(t), cfg.horizons[k], split))
    ensures ParseMode(cfg.mode) == Some(PerStation) && cfg.target in t.cols ==>
      (r.Failure? <==> exists h, sid :: h in cfg.horizons && sid in Stations(t.rows) && ScopeFails(cfg, SortedInput(t), h, sid, split))
    ensures ParseMode(cfg.mode) == Some(Global) && r.Success? && cfg.target in t.cols ==>
      && |r.value| == |cfg.horizons|
      && forall k :: 0 <= k < |cfg.horizons| ==> GlobalEntry(r.value[k], cfg, SortedInput(t), cfg.horizons[k])
    ensures ParseMode(cfg.mode) == Some(PerStation) && r.Success? && cfg.target in t.cols ==>
      TrainedFor(r.value, PerStationScopes(cfg, SortedInput(t), cfg.horizons, Stations(t.rows)), cfg, SortedInput(t))
  {
    var u := SortedInput(t);
    match ParseMode(cfg.mode)
    case None => Failure(UnknownMode(cfg.mode))
    case Some(Global) => TrainGlobal(cfg, u, cfg.horizons, split, predict, kge)
    case Some(PerStation) =>
      StationOrderSorted(t);
      assert |t.rows| > 0 ==> t.rows[0].station in Stations(t.rows);
      TrainPerStation(cfg, u, cfg.horizons, StationOrder(u.rows), split, predict, kge)
  }

  /** The keys of a report, in order. */
  function ReportKeys(rep: seq<(string, Scores)>): (keys: seq<string>)
    ensures |keys| == |rep| && forall i :: 0 <= i < |rep| ==> keys[i] == rep[i].0
  {
    seq(|rep|, i requires 0 <= i < |rep| => rep[i].0)
  }

  /** The report keys of the entries, in training order. */
  function EntryKeys(entries: seq<Entry>): (keys: seq<string>)
    ensures |keys| == |entries| && forall k :: 0 <= k < |entries| ==> keys[k] == entries[k].key
  {
    seq(|entries|, k requires 0 <= k < |entries| => entries[k].key)
  }

  /** A dict holds each key once. */
  predicate DistinctKeys(rep: seq<(string, Scores)>)
  {
    forall i, j :: 0 <= i < j < |rep| ==> rep[i].0 != rep[j].0
  }

  /**
   * `report[key] = v` on a Python dict, which keeps insertion order: a key
   * already there keeps its place and takes the new value, a new key goes last.
   */
  function Put(rep: seq<(string, Scores)>, key: string, v: Scores): (r: seq<(string, Scores)>)
    ensures DistinctKeys(rep) ==> DistinctKeys(r)
    ensures ReportKeys(r) == if key in ReportKeys(rep) then ReportKeys(rep) else ReportKeys(rep) + [key]
    ensures forall i :: 0 <= i < |r| && r[i].0 == key ==> r[i].1 == v
    ensures forall i :: 0 <= i < |rep| && rep[i].0 != key ==> r[i] == rep[i]
  {
    var updated := seq(|rep|, i requires 0 <= i < |rep| => if rep[i].0 == key then (key, v) else rep[i]);
    assert ReportKeys(updated) == ReportKeys(rep);
    if key in ReportKeys(rep) then updated
    else
      var r := updated + [(key, v)];
      assert ReportKeys(r) == ReportKeys(rep) + [key];
      r
  }

  /**
   * `report.json`: one `report[key] = scores` per entry, in training order.
   * Its keys are the entries' keys without repeats, in order of first
   * appearance; a key repeated by a repeated horizon keeps its first place.
   */
  function Report(entries: seq<Entry>): (rep: seq<(string, Scores)>)
    ensures DistinctKeys(rep)
    ensures ReportKeys(rep) == Unique(EntryKeys(entries))
    decreases |entries|
  {
    if |entries| == 0 then []
    else
      var n := |entries| - 1;
      assert EntryKeys(entries)[..n] == EntryKeys(entries[..n]);
      Put(Report(entries[..n]), entries[n].key, entries[n].scores)
  }

  /** No later entry writes the report key of entry `k`. */
  predicate LastKeyWrite(entries: seq<Entry>, k: nat)
    requires k < |entries|
  {
    forall m :: k < m < |entries| ==> entries[m].key != entries[k].key
  }

  /** A report key holds the scores of the last entry that wrote it. */
  lemma {:induction false} ReportLastWrite(entries: seq<Entry>, k: nat)
    requires k < |entries| && LastKeyWrite(entries, k)
    ensures forall i :: 0 <= i < |Report(entries)| && Report(entries)[i].0 == entries[k].key ==>
      Report(entries)[i].1 == entries[k].scores
    decreases |entries|
  {
    var n := |entries| - 1;
    if k < n {
      var prev := Report(entries[..n]);
      assert entries[n].key != entries[k].key;
      assert LastKeyWrite(entries[..n], k) by {
        forall m | k < m < n
          ensures entries[..n][m].key != entries[..n][k].key
        {
          assert entries[..n][m] == entries[m];
        }
      }
      ReportLastWrite(entries[..n], k);
      var rep := Report(entries);
      forall i | 0 <= i < |rep| && rep[i].0 == entries[k].key
        ensures rep[i].1 == entries[k].scores
      {
        assert ReportKeys(rep)[i] == entries[k].key;
        assert i < |prev|;
        assert rep[i] == prev[i];
      }
    }
  }

  /** No later entry writes to the directory of entry `k`. */
  predicate LastWrite(entries: seq<Entry>, k: nat)
    requires k < |entries|
  {
    forall m :: k < m < |entries| ==> entries[m].dir != entries[k].dir
  }

  /** The artifact directories a run leaves behind (a later write to the same directory wins). */
  function Artifacts(entries: seq<Entry>): (store: Store)
    ensures forall k :: 0 <= k < |entries| ==> entries[k].dir in store
    ensures forall d :: d in store ==> exists k :: 0 <= k < |entries| && entries[k].dir == d
    decreases |entries|
  {
    if |entries| == 0 then map[]
    else
      var n := |entries| - 1;
      Artifacts(entries[..n])[entries[n].dir := entries[n].bundle]
  }

  /** Each directory holds the bundle of the last entry that wrote it. */
  lemma {:induction false} ArtifactsLastWrite(entries: seq<Entry>, k: nat)
    requires k < |entries| && LastWrite(entries, k)
    ensures Artifacts(entries)[entries[k].dir] == entries[k].bundle
    decreases |entries|
  {
    var n := |entries| - 1;
    if k < n {
      assert entries[n].dir != entries[k].dir;
      assert LastWrite(entries[..n], k) by {
        forall m | k < m < n
          ensures entries[..n][m].dir != entries[..n][k].dir
        {
          assert entries[..n][m] == entries[m];
        }
      }
      ArtifactsLastWrite(entries[..n], k);
    }
  }
}

=== FILE: wrappers.dfy ===
/** Failure-compatible wrappers shared by every module of the pipeline model. */
module Wrappers {

  /** `None` stands for a missing value (pandas' NaN) or an absent lookup. */
  datatype Option<+T> = None | Some(value: T) {
    function GetOr(default: T): T {
      match this
      case Some(v) => v
      case None => default
    }
  }

  /** A computation that either yields a value or aborts with an error. */
  datatype Result<+R, +E> = Success(value: R) | Failure(error: E) {
    predicate IsFailure() {
      Failure?
    }

    function PropagateFailure<U>(): Result<U, E>
      requires Failure?
    {
      Failure(error)
    }

    function Extract(): R
      requires Success?
    {
      value
    }
  }

  /**
   * Steps run in order, the first failure aborting the run: all the values
   * when every step succeeds, otherwise the error of the first failing step.
   */
  function AllOk<T(==), E(==)>(rs: seq<Result<T, E>>): (r: Result<seq<T>, E>)
    ensures r.Success? <==> forall k :: 0 <= k < |rs| ==> rs[k].Success?
    ensures r.Success? ==> |r.value| == |rs| && forall k :: 0 <= k < |rs| ==> rs[k].value == r.value[k]
    ensures r.Failure? ==> exists k :: 0 <= k < |rs| && rs[k] == Failure(r.error) && forall m :: 0 <= m < k ==> rs[m].Success?
    decreases |rs|
  {
    if |rs| == 0 then Success([])
    else
      match rs[0]
      case Failure(e) => Failure(e)
      case Success(v) =>
        match AllOk(rs[1..])
        case Failure(e) =>
          var k :| 0 <= k < |rs[1..]| && rs[1..][k] == Failure(e) && forall m :: 0 <= m < k ==> rs[1..][m].Success?;
          assert rs[k + 1] == Failure(e);
          Failure(e)
        case Success(vs) => Success([v] + vs)
  }
}
